=== FILE: README.md ===
# Perfume scraper decision logic, modelled in Dafny

UDA-perfume collects perfume products and their user reviews from
Fragrantica and Parfumo. It uses four near-duplicate Selenium scripts:

- `fragrantica/mainfunc.py`: Fragrantica, resumable. It skips URLs already in
  the product file and rests for ten minutes before every 41st, 81st, … task.
- `fragrantica/main.py`: Fragrantica. It re-fetches the reviews page while the
  page looks rate-limited.
- `main.py`: Parfumo. It uses a health-checked driver pool and retries a worker
  whose browser session was lost.
- `fragrantica/sub.py`: reviews only, for the products already listed in the
  product file.

This project models the decision logic those scripts share. The browser is
replaced by observation sequences supplied as parameters. The logic covered is:

- how product URLs are discovered, by infinite scroll or pagination;
- how throttled pages are recognised and re-fetched;
- how review boxes are read, deduplicated and counted;
- how product fields are derived;
- how the driver pool moves handles;
- how the work list is built, resumed and numbered;
- how each worker's outcome is reported and tallied.

Modules, one per file:

| module | file | what it covers |
|---|---|---|
| `Wrappers` | wrappers.dfy | `Option` |
| `Text` | text.dfy | Python `strip`, ASCII `lower`, `in` on strings, `", ".join`, slicing, `split('/')[-1]` |
| `Attempts` | attempts.dfy | "first success within n tries" loops |
| `Throttle` | throttle.dfy | `is_rate_limited_page` and the re-fetch loop |
| `Discovery` | discovery.dfy | `collect_all_product_urls` in all three forms |
| `Dedup` | dedup.dfy | the "claim the identity, then record if non-empty" pass over review boxes |
| `Reviews` | reviews.dfy | `scrape_reviews` of fragrantica/main.py and fragrantica/sub.py |
| `Batches` | batches.dfy | `scrape_reviews` of fragrantica/mainfunc.py |
| `ParfumoReviews` | parfumo_reviews.dfy | `scrape_reviews` of main.py |
| `Product` | product.dfy | notes, gender and the whole-page scroll |
| `Pool` | pool.dfy | the `DriverPool` classes |
| `Worklist` | worklist.dfy | resume, task numbering, rest points, the reviews-only work list |
| `Worker` | worker.dfy | `process_single_product*`, retries and the tally |

Where the code and its comments disagree, the model follows the code:

- `get_already_scraped_urls` (fragrantica/mainfunc.py:680-685) says it returns
  an empty set on a read error. It actually returns the URLs it had read before
  the error. `Worklist.KnownUrls` keeps those URLs.
- The product row is written (fragrantica/mainfunc.py:610) before
  `scrape_reviews` runs (line 612). A product therefore counts as known even
  when its reviews were lost, and they are not attempted again on the next run.
  Reviews are lost in two ways: no review section appears within 12 scrolls
  (fragrantica/mainfunc.py:482-484), or an exception inside the batch loop is
  swallowed (fragrantica/mainfunc.py:566-568).
- The throttle log message in fragrantica/main.py:532 speaks of 3 attempts.
  The loop makes 30 (line 515). `Throttle.FragranticaAttempts` is 30.
- In fragrantica/sub.py:240-242 the review-count script combines three
  `querySelectorAll` results with `||`. A NodeList is always truthy, so only
  the first selector's count is ever used. `Reviews.SubCount` counts the
  `div[class*="review-box"]` elements this way.
- In main.py the fallback "Unexpected error" after the retry loop
  (main.py:719-726) cannot be reached. `Worker.RetryLoop` proves this with an
  `assert false` at that point.

## Model

| member | source | states |
|---|---|---|
| Text.StripMeaning | fragrantica/mainfunc.py:529 | `Strip` removes exactly the leading and trailing Python whitespace: the result is a contiguous piece of the input, with no whitespace at either end and only whitespace cut off |
| Text.StripIdempotent | fragrantica/mainfunc.py:529 | stripping a stripped text changes nothing |
| Text.ContainsIff | fragrantica/main.py:273 | Python's `k in s` holds exactly when `k` occurs at some index of `s` |
| Text.JoinHasParts | fragrantica/mainfunc.py:218 | every part of a `", ".join` occurs in the joined text |
| Text.JoinEmptyIff | fragrantica/mainfunc.py:218 | when no part is empty, the join is empty exactly when there are no parts |
| Text.NonBlank | fragrantica/mainfunc.py:215 | the filtered list holds only non-empty texts and is empty exactly when every text is blank |
| Text.NonBlankKeeps | fragrantica/mainfunc.py:215 | each text that is not blank after stripping is kept, stripped, in the filtered list |
| Text.NonBlankOnly | fragrantica/mainfunc.py:215 | every kept text is the stripped form of an input text and is non-empty |
| Text.Take | fragrantica/mainfunc.py:517 | a slice `[:n]` is the prefix of length `min(n, len)` |
| Text.LastSegment | fragrantica/mainfunc.py:586 | `url.split('/')[-1]` is the suffix after the last `/` and contains no `/` |
| Attempts.FirstWithin | fragrantica/mainfunc.py:470-486 | the first try that succeeds within `n` tries, with every earlier try failing; `None` exactly when all `n` tries fail |
| Attempts.MoreAttemptsKeepSuccess | fragrantica/main.py:515-534 | allowing more tries does not change a success found within fewer tries |
| Attempts.FirstNonEmpty | fragrantica/sub.py:284-289 | the first non-empty list of a fallback chain, or empty exactly when every list is empty; used for the three review-box selectors here and for the undivided-notes fallback of `Product.UndividedNotes` |
| Throttle.IsRateLimited | fragrantica/main.py:256-273 | a page counts as throttled exactly when it could be read and its lower-cased source contains one of the four keywords |
| Throttle.CaseInsensitive | fragrantica/main.py:263 | two pages that agree after lower-casing get the same verdict |
| Throttle.RefetchUntilClear | fragrantica/main.py:515-534 | the loop proceeds after the first unthrottled fetch, all earlier fetches having been throttled, and gives up exactly when every allowed fetch was throttled |
| Throttle.UnreadableProceeds | fragrantica/main.py:264-265 | a page whose source cannot be read ends the loop after one fetch |
| Throttle.ThirtyVersusThree | fragrantica/sub.py:179-196 | a page that clears on the fourth fetch is abandoned by the 3-attempt loop and read by the 30-attempt loop |
| Discovery.Advance | fragrantica/mainfunc.py:321-352 | one scroll pass adds exactly the visible non-empty hrefs and records the new height; the no-progress counter becomes 0 when the height changed; with the height unchanged it becomes 1 when the element count grew, 2 when it did not but new URLs reset it (fragrantica/main.py only), and otherwise grows by 2 |
| Discovery.StagnantScroll | fragrantica/main.py:347-406 | on a page that shows nothing new, each pass adds 2 to the counter, so the loop stops with no URL added on the first pass that brings it to the threshold, provided the round cap has not ended it first |
| Discovery.StagnantPageStops | fragrantica/mainfunc.py:265 | from a fresh counter on a page that shows nothing new, mainfunc.py's loop (threshold 3) stops after 2 passes and fragrantica/main.py's (threshold 8) after 4 |
| Discovery.RisingPageNeverStops | fragrantica/mainfunc.py:311-356 | mainfunc.py's loop has no round cap: on a page whose height changes on every pass it consumes every pass offered |
| Discovery.Replay | fragrantica/main.py:347-406 | replaying `n` rounds counts `n` rounds |
| Discovery.Scroll | fragrantica/mainfunc.py:311-359 | the scroll loop never loses a URL and consumes at most the observed rounds |
| Discovery.ScrollMeaning | fragrantica/main.py:347-406 | the keys found are those of the rounds consumed; the loop stops at the first round after which the no-progress counter reaches the threshold or the round cap is passed, or at an exception; no earlier round stops it |
| Discovery.ReplayKeys | fragrantica/mainfunc.py:321-325 | a URL is known after a replay exactly when it was known at the start or was a non-empty href of some round |
| Discovery.ReplayGrows | fragrantica/mainfunc.py:321-325 | the set of known URLs only grows from round to round |
| Discovery.RoundCapBound | fragrantica/main.py:404-406 | with the round cap of 100, at most 101 rounds are consumed |
| Discovery.Paginate | fragrantica/mainfunc.py:363-390 | the URLs collected are the start set plus the perfume-prefixed hrefs of the pages read; every page before the last had its links read and a Next control clicked; paging stops at the first page without a Next control, or aborts exactly at a page whose link lookup or Next lookup raised |
| Discovery.CollectProductUrls | fragrantica/mainfunc.py:286-399 | no working selector gives the empty result; paged results are non-empty perfume URLs; scrolled results contain no empty href |
| Discovery.CollectParfumo | main.py:576-604 | the Parfumo list is the list it started with followed by the non-empty hrefs of each page read, page after page in visit order, duplicates kept |
| Discovery.CollectParfumoLength | main.py:576-604 | the list's length is the sum of the pages' non-empty href counts, so no duplicate is dropped |
| Discovery.CollectParfumoMembers | main.py:576-604 | a URL is collected exactly when it is a non-empty href on a page read |
| Discovery.CollectParfumoStops | main.py:576-604 | every page before the last had its links read and a non-empty next link; the walk stops at a missing or empty next link, aborts exactly at a page whose link lookup or next load raised, and uses up the pages offered only when every one of them had a next link to follow |
| Dedup.PickAppend | fragrantica/mainfunc.py:493-537 | one pass over two lists of boxes is the pass over the first followed by the pass over the second from the identities the first left |
| Dedup.PickIncreasing | fragrantica/mainfunc.py:511-537 | the kept positions are strictly increasing, so records keep the page order of their boxes |
| Dedup.PickMeaning | fragrantica/mainfunc.py:519-537 | a box is recorded exactly when it is read whole, has content, and no earlier claiming box had its identity |
| Dedup.PickSeen | fragrantica/mainfunc.py:519-524 | the identities seen afterwards are the earlier ones plus those of every claiming box |
| Dedup.PickCount | fragrantica/mainfunc.py:519-537 | no more boxes are recorded than new identities are claimed |
| Dedup.PickedDistinct | fragrantica/main.py:620-633 | recorded boxes have pairwise distinct identities |
| Reviews.ParagraphText | fragrantica/mainfunc.py:529 | the joined paragraph text is empty exactly when every paragraph is blank |
| Reviews.KeptAtMeaning | fragrantica/main.py:620-633 | a review is kept exactly when it has content and no earlier review shares its (reviewer, date, first 50 characters) identity |
| Reviews.KeepSound | fragrantica/main.py:620-633 | kept reviews have content and pairwise distinct identities |
| Reviews.KeepComplete | fragrantica/sub.py:334-347 | every review with content has its identity among the kept ones |
| Reviews.RunMaxMeaning | fragrantica/main.py:562-583 | the loaded count is the largest count seen so far |
| Reviews.LoadAllReviews | fragrantica/main.py:562-583 | the load loop stops at the first poll after five polls in a row without growth, and reports the largest count seen |
| Reviews.StreakMeaning | fragrantica/sub.py:255-278 | the no-growth streak is at least `s` exactly when each of the last `s` polls saw no growth |
| Reviews.FragranticaReviewsMeaning | fragrantica/main.py:502-647 | reviews appear only when some of the 30 fetches was unthrottled, the section exists and boxes were counted; each is a read box with content, identities distinct |
| Reviews.FragranticaReviewsComplete | fragrantica/main.py:589-633 | on a page that proceeds, every box with content has its identity recorded |
| Reviews.SubReviewsMeaning | fragrantica/sub.py:167-367 | sub.py records reviews only after one of 3 fetches clears, the section is found and boxes are counted; the primary selector wins when it finds boxes; each record is read from a box, identities distinct |
| Reviews.SubWholeTextFallback | fragrantica/sub.py:320-347 | a box without a review body, but with non-blank whole text, still has its identity recorded; a box with a body and no paragraphs reads as empty content and is not recorded |
| Batches.ReadBatch | fragrantica/mainfunc.py:508-539 | reading a batch adds exactly the identities of the boxes that claim one, and every review read has content and the product's name |
| Batches.Collect | fragrantica/mainfunc.py:493-565 | the batch loop reads at most the batches offered; it stops on "no new reviews" only after identities were seen and none was added; on "no reviews" nothing was seen |
| Batches.CollectIsPick | fragrantica/mainfunc.py:493-565 | the reviews the loop gathers are those of one deduplicating pass over all boxes of the batches it read, in order, after the reviews it started with |
| Batches.CollectMeaning | fragrantica/mainfunc.py:493-537 | a box of any batch read is recorded exactly when it was read whole with content and no box before it, in its own or an earlier batch, claimed its identity, nor was it claimed before; recorded identities are pairwise distinct |
| Batches.FlatPosition | fragrantica/mainfunc.py:493-512 | box j of batch b is the box at position j after all boxes of the earlier batches |
| Batches.NothingNewStops | fragrantica/mainfunc.py:508-547 | once identities are known, a batch whose boxes claim only known identities ends the loop with "no new reviews" after that batch |
| Batches.AbsentFirstBatchStops | fragrantica/mainfunc.py:495-506 | before any identity is known, a batch that did not appear within the wait ends the loop with "no reviews" and nothing read |
| Batches.CollectAppends | fragrantica/mainfunc.py:493-565 | batches only append reviews, each with content and the product's name |
| Batches.CollectCount | fragrantica/mainfunc.py:508-545 | the reviews gathered never outnumber the new identities claimed |
| Batches.MainfuncReviews | fragrantica/mainfunc.py:470-486 | no review section within 12 scrolls gives no reviews |
| Batches.BlankFirstParagraphShadowed | fragrantica/mainfunc.py:517-531 | a box whose first paragraph is blank is dropped when an earlier empty box shares its name and date |
| ParfumoReviews.SearchFrom | main.py:460 | finds the leftmost position where `(\d+)\s+Reviews?` matches, deciding the match by the maximal digit and space runs |
| ParfumoReviews.ReviewCount | main.py:455-464 | the count is always a non-empty run of digits, and "0" when the pattern matches nowhere |
| ParfumoReviews.ReviewCountFirstMatch | main.py:460-462 | when the pattern matches, the count is the digit run of the leftmost match |
| ParfumoReviews.ReviewCountReadsRendered | main.py:460 | a rendered "N Reviews" text reads back as N |
| ParfumoReviews.AwardCount | main.py:469-476 | an empty award text gives "0", and any other text gives its stripped form |
| ParfumoReviews.BlankAwardIsEmpty | main.py:470-474 | a whitespace-only award text gives "" rather than "0" |
| ParfumoReviews.ReviewerGender | main.py:444-453 | M exactly when the class contains `fa-mars`, F exactly when it contains `fa-venus` but not `fa-mars`, N/A otherwise |
| ParfumoReviews.ScrapeReviews | main.py:359-499 | no section gives no reviews; the result is missing exactly when loading raised |
| ParfumoReviews.RecordedIff | main.py:431-434 | a box is recorded exactly when read whole with content and no earlier claiming box has the same content |
| ParfumoReviews.ContentsDistinct | main.py:431-488 | recorded Parfumo reviews have non-empty, pairwise distinct contents |
| Product.FragranticaNotes | fragrantica/main.py:211-220 | the notes text is empty exactly when the lookup failed or every note is blank |
| Product.FragranticaNotesKeepEach | fragrantica/mainfunc.py:209-218 | every non-blank note appears, stripped, in the notes text |
| Product.ParfumoNotes | main.py:285-293 | the Parfumo notes text is empty exactly when every note text is empty |
| Product.UndividedNotes | fragrantica/main.py:225-248 | the undivided notes come from the first source that has notes, or are empty when the lookup raised |
| Product.ChooseNotes | fragrantica/mainfunc.py:428-440 | the undivided notes replace the middle notes exactly when top, middle and base are all empty and the undivided notes are not |
| Product.UnisexIsUnreachable | main.py:330-338 | the gender mapping as written never yields N, and reads the unisex icon as F |
| Product.TargetGender | main.py:330-338 | the corrected mapping yields N exactly for the unisex icon and otherwise agrees with the written one |
| Product.UnisexReadsN | main.py:337-338 | the corrected mapping reads the unisex icon as N |
| Product.ScrollWholePage | fragrantica/main.py:669-680 | the page is scrolled in 800-pixel steps until the position reaches the largest height seen; every earlier step was below the height known then |
| Product.KnownHeightGrows | fragrantica/main.py:678-680 | the known page height never shrinks |
| Product.StaticPageSteps | fragrantica/main.py:669-680 | on a page that never grows, the loop takes ceil(height / 800) steps |
| Pool.Created | main.py:151-157 | the pool starts with exactly the drivers whose creation succeeded, in order |
| Pool.Init | fragrantica/mainfunc.py:101-115 | a fresh pool is valid, lends nothing and holds exactly the created drivers |
| Pool.Get | fragrantica/mainfunc.py:140-141 | taking blocks exactly when the queue is empty; otherwise the handle comes from the queue and the number of handles is unchanged |
| Pool.Put | fragrantica/mainfunc.py:143-144 | returning blocks exactly when the queue is full; otherwise the handle joins the back |
| Pool.GetPutRotates | fragrantica/mainfunc.py:140-144 | taking a handle and giving it back moves it from the front of the queue to the back |
| Pool.PutNeverBlocksWhenLent | fragrantica/mainfunc.py:143-144 | a worker that holds a driver can always give one back |
| Pool.HealthyGet | main.py:211-224 | Parfumo's `get` blocks exactly on an empty queue; otherwise it removes only the front handle and hands it out when alive, hands out a new handle in its place when dead, and raises exactly when that creation fails |
| Pool.HealthyGetKeepsValid | main.py:211-224 | the health-checked take keeps the pool valid |
| Pool.HealthyPut | main.py:226-238 | Parfumo's `put` leaves the queued handles as they were and appends the handle when alive, or a new handle in its place when dead; it blocks exactly when the queue is full and something is to be put, and raises exactly when a dead handle's replacement fails |
| Pool.HealthyPutAddsOne | main.py:226-238 | a health-checked return adds one handle to the queue |
| Pool.ReplaceShrinksOnlyOnFailure | fragrantica/mainfunc.py:639-647 | after an error the pool keeps its handle count unless creating the replacement driver fails |
| Pool.CloseAll | main.py:240-247 | closing drains exactly the queued handles |
| Worklist.Selected | fragrantica/mainfunc.py:721 | the kept positions are increasing, in range, and satisfy the filter |
| Worklist.SelectedComplete | fragrantica/mainfunc.py:721 | every position that satisfies the filter is kept |
| Worklist.FilterMembers | fragrantica/mainfunc.py:721 | an element is kept exactly when it is in the input and passes the filter |
| Worklist.NumberRoundTrip | fragrantica/mainfunc.py:751-752 | numbering keeps the URLs in order, gives 1-based indices and the common total |
| Worklist.Schedule | fragrantica/main.py:753-771 | nothing is scheduled exactly when nothing was discovered; otherwise every URL becomes a task |
| Worklist.UrlsInMeaning | fragrantica/mainfunc.py:674-677 | a URL is known from the file exactly when some row has it in a non-empty url cell |
| Worklist.UrlsInAppend | fragrantica/mainfunc.py:674-677 | the URLs of appended rows are the union of both parts |
| Worklist.KnownUrls | fragrantica/mainfunc.py:662-685 | no file means no known URLs; a full read knows the URLs of all rows, and a failed read keeps exactly the URLs of the rows read before it |
| Worklist.KnownUrlsMeaning | fragrantica/mainfunc.py:662-685 | a URL is known exactly when it is the non-empty `url` cell of some row read |
| Worklist.ResumePlan | fragrantica/mainfunc.py:704-752 | the run stops when nothing was discovered, or when every discovered URL is known; otherwise the tasks' URLs are exactly the unknown discovered URLs in discovery order, each once per occurrence, numbered from 1 with the common total |
| Worklist.ResumeMissesNothing | fragrantica/mainfunc.py:721 | every discovered URL that is not known is scheduled |
| Worklist.NoFileMeansFullSchedule | fragrantica/mainfunc.py:667-668 | without a product file the resumable run schedules what the plain run does |
| Worklist.RerunFindsNothingNew | fragrantica/mainfunc.py:704-729 | once every scheduled URL has a product row, a rerun finds nothing new |
| Worklist.RestsCount | fragrantica/mainfunc.py:591-601 | over the first k tasks the worker rests `(k-1) div 40` times |
| Worklist.RestsWithinEstimate | fragrantica/mainfunc.py:736 | the estimate `n div 40` counts one rest too many exactly when n is a positive multiple of 40 |
| Worklist.ReviewWork | fragrantica/sub.py:452-513 | no work exactly when the product file is missing, unreadable or lists no row with both url and name; otherwise the listed rows numbered from 1 |
| Worklist.ReviewWorkCoversListed | fragrantica/sub.py:476-483 | every row with both url and product name becomes a review task |
| Worklist.ReviewTasksFilled | fragrantica/sub.py:479-483 | every review task has a non-empty url and product name |
| Worker.ProductOutcome | fragrantica/main.py:697-728 | an outcome keeps the task's index and total; it is a success exactly when the run completed; a failure names the URL and carries the error text cut to its first 120 characters (all of it when shorter) |
| Worker.PlaceholderIsSlug | fragrantica/main.py:657 | the name used before the product page is read is the last path segment of the URL; it appears only in log lines (fragrantica/main.py:657, 707) and no outcome carries it |
| Worker.ReviewOutcome | fragrantica/sub.py:401-432 | a reviews-only outcome is a success exactly when the try body completed, zero reviews included; a failure names the product and carries the error text cut to its first 120 characters |
| Worker.TallyOf | fragrantica/sub.py:526-549 | successes plus failures equal the number of outcomes |
| Worker.TallyAppend | fragrantica/mainfunc.py:766-785 | the tally of two runs of outcomes is the sum of their tallies |
| Worker.TallyOrderFree | fragrantica/mainfunc.py:766 | the tally does not depend on the order in which results arrive |
| Worker.SuccessesAreCompletions | fragrantica/mainfunc.py:770-771 | successes count exactly the completed runs |
| Worker.RunTally | fragrantica/main.py:782-797 | in any arrival order, successes plus failures equal the number of tasks and successes equal the completed runs |
| Worker.RetryFrom | main.py:626-717 | the intended retry reports an outcome that keeps the task's index and total; a failure names the URL and carries either the session-failure message or the first 120 characters of one attempt's error |
| Worker.RetryReportsError | main.py:626-717 | the intended retry reports an ordinary error as a failure, cut to its first 120 characters, exactly when some attempt among the first three raised it after only replaced session losses and its browser was replaced |
| Worker.RetryEscapes | main.py:626-717 | the intended retry lets an exception out of the worker exactly when the first attempt that is not a replaced session loss could not create its new browser |
| Worker.RetryAsWritten | main.py:626-667 | as written, the worker reports only when its first attempt finishes; every other first attempt escapes |
| Worker.RetryMeaning | main.py:626-717 | the intended retry: a session failure exactly when three attempts in a row lost the session; a success exactly when some attempt finished after only lost sessions |
| Worker.RetryLoop | main.py:619-726 | the retry loop computes the intended retry, and its fallback after the loop cannot be reached |
| Worker.OrdinaryErrorEscapes | main.py:667 | as written, any failing first attempt escapes the worker instead of being reported |
| Worker.MainLoop | main.py:776-797 | the main loop reaches no tally exactly when some worker's error escaped; otherwise successes plus failures equal the number of results |
| Worker.OneErrorAbortsRun | main.py:783 | as written, one ordinary error in any task keeps the run from reaching its tally, while the intended retry reports that task as a failure |

## Left out

- Discovery.CollectParfumoStops: a `TimeoutException` from `driver.get` on the next-page link (main.py:596-604) is caught by the loop's own handler and ends the walk normally. The model labels it `Aborted` together with the other exceptions of that load. The URL list is the same either way; only the stop label differs.
- Selenium itself is not modelled: waits, clicks, `execute_script`, timeouts and page loads. Each becomes an observed value supplied as a parameter.
- Sleeps, random delays and the random user-agent choice are not modelled. They affect timing only.
- The tenacity retry decorator on `scrape_product_details` (fragrantica/mainfunc.py:406) is not modelled. It only repeats a call that the model treats as one observation.
- Threads, locks and the blocking of `Queue.get`/`Queue.put` are left out. Blocking is modelled as a `Blocked` result, and arrival order as an arbitrary permutation.
- CSV files and the filesystem are reduced to their contents: rows as maps, missing or unreadable files as datatype cases. Writing, and `sys.exit` on a permission error (fragrantica/sub.py:464-469), are left out.
- Time estimates and percentages use floating point and are left out. Only the integer rest count (fragrantica/mainfunc.py:736) is modelled.
- The cookie popup (main.py:104-143) and the Parfumo search UI (main.py:501-550) are left out. They only steer the browser.
- The keyword's `title()` formatting and all logging are left out.
- Python's Unicode `lower`, `\d` and `isspace` are modelled on ASCII: letters A-Z, digits 0-9, and the whitespace characters Python recognises. The keywords and the pattern are ASCII.
- An attribute that Selenium returns as `None` is modelled as the empty string, or as `Option`.
- Reviews.LoadAllReviews: requires the observed counts to be bounded. The page holds finitely many reviews. The loop as written would poll forever on an ever-growing count.
- Product.ScrollWholePage: requires the observed heights to be bounded, for the same reason.
- Worker.RetryMeaning: requires every ordinary error's text to end in `)`, as `repr` of an exception does. This keeps such an error from being confused with the session-failure message.
- Worker.RetryReportsError: requires the error text asked about to end in `)`, for the same reason. Two errors that share their first 120 characters report the same text, so the lemma identifies the attempt only up to that prefix.
- Worklist.RerunFindsNothingNew: requires the discovered URLs to be non-empty. That is what the href filters guarantee.
- The "More reviews" click loop of main.py (main.py:381-412) is reduced to the boxes present once it finishes.
- A `TypeError` from a missing class attribute in main.py:332-333 is reduced to the N/A case.
- A sub.py box whose whole-text read raises is skipped by the source (fragrantica/sub.py:331 and 352-353). The model assumes that read succeeds.
- URL discovery returns a set in fragrantica/mainfunc.py and fragrantica/main.py. Its iteration order is taken as an input sequence for scheduling.
- In main.py's retry loop, which driver is kept or put back on each path is not modelled. The pool is modelled separately by `Pool`.
- Worker.MainLoop: an escaped error is modelled as a run without a tally. What happens to the other tasks is not modelled. `future.result()` (main.py:783) re-raises only inside the `with ThreadPoolExecutor` block, whose exit waits for every pending task; `close_all` and the statistics after it are skipped. A worker whose error escaped never returns its driver, and the pool's `get` (main.py:211-213) waits without a timeout on a queue of `MAX_WORKERS = 3` drivers (main.py:43). After three such escapes with tasks still pending, the run would wait forever.

## Findings

| source | as written | input that shows it | evidently intended | confidence | as-written member | corrected member |
|---|---|---|---|---|---|---|
| main.py:667 | `except InvalidSessionIdException` names a class that main.py never imports (imports at main.py:5-10). Matching the clause raises `NameError`, which escapes the worker, and `future.result()` at main.py:783 re-raises it in the main loop | a product page whose name element never appears, so the first attempt raises `TimeoutException` | retry a lost session up to 3 times, and report any other error as a failed outcome | not executed | Worker.OneErrorAbortsRun | Worker.RetryFrom |
| main.py:330-338 | `'fa-venus' in icon_class` is checked before `'fa-venus-mars' in icon_class`, and the first string is contained in the second | an icon whose class is `fa-venus-mars` | unisex products get `N` | not executed | Product.UnisexIsUnreachable | Product.TargetGender |
| fragrantica/mainfunc.py:311-356 | the scroll loop stops only on the no-progress counter or an exception; unlike fragrantica/main.py:404-406 it has no round cap | a listing whose height changes on every pass | stop after a bounded number of passes, as fragrantica/main.py does with `scroll_attempt > 100` | low; not executed | Discovery.RisingPageNeverStops | Discovery.RoundCapBound |

The paginated loops (fragrantica/mainfunc.py:363-390, main.py:576-604) likewise have no page cap: they run as long as a "Next »" control can be clicked. The model bounds them only by the pages observed, and no corrected form is given.

=== FILE: attempts.dfy ===
/** The "try up to N times, stop at the first success" shape the scrapers
    write as a Python `for ... else` loop: the review-section search (12
    tries) and the throttled re-fetch (30 or 3 tries). */
module Attempts {
  import opened Wrappers

  /** The first attempt `i` in `from..n-1` with `ok(i)`, or None when every
      one of them failed. */
  function FirstFrom(from: nat, n: nat, ok: nat -> bool): (r: Option<nat>)
    ensures r.Some? ==> from <= r.value < n && ok(r.value)
                        && forall j :: from <= j < r.value ==> !ok(j)
    ensures r.None? <==> forall j :: from <= j < n ==> !ok(j)
    decreases n - from
  {
    if from >= n then None
    else if ok(from) then Some(from)
    else FirstFrom(from + 1, n, ok)
  }

  /** `for i in range(n): if ok(i): break  else: give up` — the index of the
      successful attempt, or None after `n` failures. */
  function FirstWithin(n: nat, ok: nat -> bool): (r: Option<nat>)
    ensures r.Some? ==> r.value < n && ok(r.value) && forall j :: 0 <= j < r.value ==> !ok(j)
    ensures r.None? <==> forall j :: 0 <= j < n ==> !ok(j)
  {
    FirstFrom(0, n, ok)
  }

  /** How many attempts the loop made: up to and including the successful
      one, or all `n` when it gave up. */
  function AttemptsMade(n: nat, ok: nat -> bool): (k: nat)
    ensures k <= n
    ensures FirstWithin(n, ok).None? ==> k == n
    ensures FirstWithin(n, ok).Some? ==> k >= 1 && ok(k - 1)
  {
    match FirstWithin(n, ok)
    case Some(i) => i + 1
    case None => n
  }

  /** Allowing more attempts never turns a success into a give-up, and the
      successful attempt stays the same one. */
  lemma {:induction false} MoreAttemptsKeepSuccess(n: nat, m: nat, ok: nat -> bool)
    requires n <= m
    requires FirstWithin(n, ok).Some?
    ensures FirstWithin(m, ok) == FirstWithin(n, ok)
  {
    var i := FirstWithin(n, ok).value;
    assert i < m && ok(i);
    var j := FirstWithin(m, ok).value;
    if j < i {
      assert false;
    } else if i < j {
      assert false;
    }
  }

  /** The first non-empty list of elements, or none. */
  function FirstNonEmpty<T>(lists: seq<seq<T>>): (r: seq<T>)
    ensures r == [] <==> forall i :: 0 <= i < |lists| ==> lists[i] == []
    ensures r != [] ==> exists i :: 0 <= i < |lists| && r == lists[i] && forall j :: 0 <= j < i ==> lists[j] == []
  {
    if |lists| == 0 then []
    else if lists[0] != [] then lists[0]
    else
      var r := FirstNonEmpty(lists[1..]);
      FirstNonEmptyStep(lists, r);
      r
  }

  /** Skipping an empty first list: what the rest answers holds of the
      whole chain. */
  lemma FirstNonEmptyStep<T>(lists: seq<seq<T>>, r: seq<T>)
    requires |lists| > 0 && lists[0] == []
    requires r == [] <==> forall i :: 0 <= i < |lists| - 1 ==> lists[1..][i] == []
    requires r != [] ==> exists i :: 0 <= i < |lists| - 1 && r == lists[1..][i] && forall j :: 0 <= j < i ==> lists[1..][j] == []
    ensures r == [] <==> forall i :: 0 <= i < |lists| ==> lists[i] == []
    ensures r != [] ==> exists i :: 0 <= i < |lists| && r == lists[i] && forall j :: 0 <= j < i ==> lists[j] == []
  {
    assert forall i :: 1 <= i < |lists| ==> lists[1..][i - 1] == lists[i];
    if r != [] {
      var i :| 0 <= i < |lists| - 1 && r == lists[1..][i] && forall j :: 0 <= j < i ==> lists[1..][j] == [];
      assert r == lists[i + 1];
    }
  }

  /** A two-step fallback takes the first list unless it is empty. */
  lemma FirstOfTwo<T>(a: seq<T>, b: seq<T>)
    ensures FirstNonEmpty([a, b]) == if a != [] then a else b
  {
    var lists := [a, b];
    assert lists[1..] == [b];
    assert lists[1..][1..] == [];
  }
}

=== FILE: batches.dfy ===
/** Review collection in fragrantica/mainfunc.py: the review section is
    searched for by up to 12 screen scrolls, then batches of review boxes are
    read as the page loads more of them. Identities use the first 20
    characters of the first paragraph, and the loop ends when a batch after
    the first claims no new identity. */
module Batches {
  import opened Wrappers
  import opened Text
  import Attempts
  import Dedup
  import Reviews

  const SectionScrolls := 12
  const PreviewLength := 20

  /** A review box: reviewer and date texts (absent when the element is
      missing), the texts of its body paragraphs, and how reading went. */
  datatype Box = Box(name: Option<String>, date: Option<String>, paragraphs: seq<String>, outcome: Dedup.ReadOutcome)

  function NameOf(b: Box): String { if b.name.Some? then Strip(b.name.value) else "Guest" }
  function DateOf(b: Box): String { if b.date.Some? then Strip(b.date.value) else "NA" }

  /** The first paragraph's stripped text, cut to 20 characters. */
  function Preview(b: Box): String
  {
    if |b.paragraphs| > 0 then Take(Strip(b.paragraphs[0]), PreviewLength) else []
  }

  function BoxIdentity(b: Box): Reviews.Identity
  {
    Reviews.Identity(NameOf(b), DateOf(b), Preview(b))
  }

  function Claims(b: Box): bool { b.outcome != Dedup.RaisedBeforeClaim }
  function Recorded(b: Box): bool { b.outcome == Dedup.Whole && Reviews.ParagraphText(b.paragraphs) != [] }

  function RecordOf(product: String, b: Box): Reviews.Review
  {
    Reviews.Review(product, Reviews.ParagraphText(b.paragraphs), DateOf(b), NameOf(b))
  }

  function RecordFor(product: String): Box -> Reviews.Review
  {
    b => RecordOf(product, b)
  }

  /** One pass of the `while True` loop: whether boxes appeared within the
      wait (asked only while nothing has been claimed), the boxes found, and
      whether the box count grew after scrolling to the last one; or an
      exception outside a box. */
  datatype Batch = Batch(appeared: bool, boxes: seq<Box>, grew: bool) | BatchRaised

  datatype Stop = NoReviews | NoNewReviews | NothingToScroll | NoMoreLoaded | Raised | OutOfBatches

  /** The reviews recorded, the identities claimed, those claimed before the
      last batch read, how many batches had their boxes read, and why the
      loop ended. */
  datatype Collected = Collected(reviews: seq<Reviews.Review>, seen: set<Reviews.Identity>, before: set<Reviews.Identity>, read: nat, stop: Stop)

  /** The reviews a batch records and the identities claimed after it. */
  datatype BatchRead = BatchRead(reviews: seq<Reviews.Review>, seen: set<Reviews.Identity>)

  /** One batch: the identities claimed afterwards are those claimed before
      plus those the batch's boxes claim. */
  function ReadBatch(product: String, boxes: seq<Box>, seen: set<Reviews.Identity>): (r: BatchRead)
    ensures r.seen == seen + Dedup.Claimed(boxes, Claims, BoxIdentity)
    ensures forall k :: 0 <= k < |r.reviews| ==> r.reviews[k].content != [] && r.reviews[k].productName == product
  {
    Dedup.PickSeen(boxes, Claims, BoxIdentity, Recorded, seen);
    var p := Dedup.Pick(boxes, Claims, BoxIdentity, Recorded, seen);
    var rs := Dedup.Records(boxes, p.indices, RecordFor(product));
    Dedup.PickKeeps(boxes, Claims, BoxIdentity, Recorded, seen);
    assert forall k :: 0 <= k < |rs| ==> rs[k].content != [] && rs[k].productName == product by {
      forall k | 0 <= k < |rs| ensures rs[k].content != [] && rs[k].productName == product {
        assert rs[k] == RecordOf(product, boxes[p.indices[k]]);
      }
    }
    BatchRead(rs, p.seen)
  }

  function Collect(product: String, seen: set<Reviews.Identity>, acc: seq<Reviews.Review>, batches: seq<Batch>): (r: Collected)
    ensures seen <= r.before <= r.seen
    ensures r.read <= |batches|
    ensures r.stop == NoNewReviews ==> r.before != {} && r.seen == r.before
    ensures r.stop == NoReviews ==> r.seen == {}
    decreases |batches|
  {
    if |batches| == 0 then Collected(acc, seen, seen, 0, OutOfBatches)
    else match batches[0]
      case BatchRaised => Collected(acc, seen, seen, 0, Raised)
      case Batch(appeared, boxes, grew) =>
        if seen == {} && !appeared then Collected(acc, seen, seen, 0, NoReviews)
        else
          var read := ReadBatch(product, boxes, seen);
          if read.seen == seen && seen != {} then Collected(acc + read.reviews, read.seen, seen, 1, NoNewReviews)
          else if boxes == [] then Collected(acc + read.reviews, read.seen, seen, 1, NothingToScroll)
          else if !grew then Collected(acc + read.reviews, read.seen, seen, 1, NoMoreLoaded)
          else
            var rest := Collect(product, read.seen, acc + read.reviews, batches[1..]);
            rest.(read := rest.read + 1)
  }

  /** From position `from` on, every review has content and names `product`. */
  predicate FreshFrom(product: String, rs: seq<Reviews.Review>, from: nat)
  {
    forall k :: from <= k < |rs| ==> rs[k].content != [] && rs[k].productName == product
  }

  lemma AppendFresh(product: String, acc: seq<Reviews.Review>, rs: seq<Reviews.Review>)
    requires FreshFrom(product, rs, 0)
    ensures FreshFrom(product, acc + rs, |acc|)
  {
    forall k | |acc| <= k < |acc + rs| ensures (acc + rs)[k] == rs[k - |acc|] { }
  }

  /** The loop only appends, and only reviews of this product with content. */
  lemma {:induction false} CollectAppends(product: String, seen: set<Reviews.Identity>, acc: seq<Reviews.Review>, batches: seq<Batch>)
    ensures var r := Collect(product, seen, acc, batches);
            |acc| <= |r.reviews| && r.reviews[..|acc|] == acc && FreshFrom(product, r.reviews, |acc|)
    decreases |batches|
  {
    var r := Collect(product, seen, acc, batches);
    if |batches| > 0 && batches[0].Batch? {
      var b := batches[0];
      if !(b.appeared == false && seen == {}) {
        var read := ReadBatch(product, b.boxes, seen);
        var acc' := acc + read.reviews;
        AppendFresh(product, acc, read.reviews);
        if !(read.seen == seen && seen != {}) && b.boxes != [] && b.grew {
          CollectAppends(product, read.seen, acc', batches[1..]);
          var rest := Collect(product, read.seen, acc', batches[1..]);
          assert r.reviews == rest.reviews;
          FreshChain(product, acc, acc', rest.reviews);
        } else {
          assert r.reviews == acc';
        }
      } else {
        assert r.reviews == acc;
      }
    } else {
      assert r.reviews == acc;
    }
  }

  /** Extending `acc` freshly, then extending the result freshly, extends
      `acc` freshly. */
  lemma FreshChain(product: String, acc: seq<Reviews.Review>, mid: seq<Reviews.Review>, rs: seq<Reviews.Review>)
    requires |acc| <= |mid| && mid[..|acc|] == acc && FreshFrom(product, mid, |acc|)
    requires |mid| <= |rs| && rs[..|mid|] == mid && FreshFrom(product, rs, |mid|)
    ensures |acc| <= |rs| && rs[..|acc|] == acc && FreshFrom(product, rs, |acc|)
  {
    assert rs[..|acc|] == rs[..|mid|][..|acc|];
    forall k | |acc| <= k < |mid| ensures rs[k] == mid[k] {
      assert rs[k] == rs[..|mid|][k];
    }
  }

  /** `scrape_reviews`: nothing when the section did not appear within 12
      scrolls; otherwise whatever the batch loop recorded, including what it
      recorded before an exception. */
  function MainfuncReviews(product: String, sectionAt: nat -> bool, batches: seq<Batch>): (r: seq<Reviews.Review>)
    ensures Attempts.FirstWithin(SectionScrolls, sectionAt).None? ==> r == []
    ensures forall k :: 0 <= k < |r| ==> r[k].content != [] && r[k].productName == product
  {
    if Attempts.FirstWithin(SectionScrolls, sectionAt).None? then []
    else
      CollectAppends(product, {}, [], batches);
      Collect(product, {}, [], batches).reviews
  }

  /** Every review recorded claimed an identity nobody had claimed before. */
  lemma {:induction false} CollectCount(product: String, seen: set<Reviews.Identity>, acc: seq<Reviews.Review>, batches: seq<Batch>)
    ensures var r := Collect(product, seen, acc, batches);
            |r.reviews| - |acc| <= |r.seen - seen|
    decreases |batches|
  {
    var r := Collect(product, seen, acc, batches);
    if |batches| > 0 && batches[0].Batch? {
      var b := batches[0];
      if !(b.appeared == false && seen == {}) {
        var read := ReadBatch(product, b.boxes, seen);
        BatchCount(product, b.boxes, seen);
        var acc' := acc + read.reviews;
        if !(read.seen == seen && seen != {}) && b.boxes != [] && b.grew {
          CollectCount(product, read.seen, acc', batches[1..]);
          var rest := Collect(product, read.seen, acc', batches[1..]);
          assert r.reviews == rest.reviews && r.seen == rest.seen;
          SplitDifference(seen, read.seen, r.seen);
        } else {
          assert r.reviews == acc' && r.seen == read.seen;
        }
      } else {
        assert r.reviews == acc && r.seen == seen;
      }
    } else {
      assert r.reviews == acc && r.seen == seen;
    }
  }

  lemma BatchCount(product: String, boxes: seq<Box>, seen: set<Reviews.Identity>)
    ensures var read := ReadBatch(product, boxes, seen);
            |read.reviews| <= |read.seen - seen|
  {
    Dedup.PickCount(boxes, Claims, BoxIdentity, Recorded, seen);
  }

  lemma SplitDifference<T>(a: set<T>, b: set<T>, c: set<T>)
    requires a <= b <= c
    ensures |c - a| == |c - b| + |b - a|
  {
    assert c - a == (c - b) + (b - a);
    assert (c - b) * (b - a) == {};
  }

  /** The boxes of a batch; a raised batch has none. */
  function BoxesIn(b: Batch): seq<Box>
  {
    if b.Batch? then b.boxes else []
  }

  /** The boxes of the batches in order. */
  function Flat(batches: seq<Batch>): seq<Box>
    decreases |batches|
  {
    if |batches| == 0 then [] else BoxesIn(batches[0]) + Flat(batches[1..])
  }

  lemma {:induction false} FlatAppend(x: seq<Batch>, y: seq<Batch>)
    ensures Flat(x + y) == Flat(x) + Flat(y)
    decreases |x|
  {
    if |x| == 0 {
      assert x + y == y;
    } else {
      var h := BoxesIn(x[0]);
      FlatAppend(x[1..], y);
      assert (x + y)[0] == x[0];
      assert (x + y)[1..] == x[1..] + y;
      assert Flat(x + y) == h + (Flat(x[1..]) + Flat(y));
      assert Flat(x) == h + Flat(x[1..]);
    }
  }

  /** Box `j` of batch `b` sits in the flattened boxes of any longer prefix
      right after the boxes of the batches before `b`. */
  lemma FlatPosition(batches: seq<Batch>, n: nat, b: nat, j: nat)
    requires b < n <= |batches| && batches[b].Batch? && j < |batches[b].boxes|
    ensures |Flat(batches[..b])| + j < |Flat(batches[..n])|
    ensures Flat(batches[..n])[|Flat(batches[..b])| + j] == batches[b].boxes[j]
  {
    assert batches[..n] == batches[..b] + batches[b..n];
    FlatAppend(batches[..b], batches[b..n]);
    assert batches[b..n][0] == batches[b];
  }

  /** The first batch read ends the loop, so only its boxes were read. */
  lemma FlatOne(batches: seq<Batch>)
    requires |batches| > 0 && batches[0].Batch?
    ensures Flat(batches[..1]) == batches[0].boxes
  {
    assert batches[..1][1..] == [];
    assert batches[..1] + [] == batches[..1];
  }

  /** Reading one more batch puts its boxes in front of those read later. */
  lemma FlatCons(batches: seq<Batch>, n: nat)
    requires 0 < n <= |batches| && batches[0].Batch?
    ensures Flat(batches[..n]) == batches[0].boxes + Flat(batches[1..][..n - 1])
  {
    assert batches[..n][1..] == batches[1..][..n - 1];
  }

  /** A batch's reviews are the records of the boxes the pick keeps. */
  lemma ReadBatchIsPick(product: String, boxes: seq<Box>, seen: set<Reviews.Identity>)
    ensures var read := ReadBatch(product, boxes, seen);
            Dedup.KeptRecords([], read.reviews, read.seen, boxes, Claims, BoxIdentity, Recorded, RecordFor(product), seen)
  {
  }

  /** The loop over the batches is one first-occurrence pick over all the
      boxes it read, starting from the identities claimed before: the reviews
      it appends are the records of the kept boxes, in order. */
  lemma {:induction false} CollectIsPick(product: String, seen: set<Reviews.Identity>, acc: seq<Reviews.Review>, batches: seq<Batch>)
    ensures IsPickOf(product, seen, acc, batches[..Collect(product, seen, acc, batches).read], Collect(product, seen, acc, batches))
    decreases |batches|, 1
  {
    var r := Collect(product, seen, acc, batches);
    if |batches| == 0 || batches[0].BatchRaised? || (seen == {} && !batches[0].appeared) {
      assert r.read == 0 && r.reviews == acc && r.seen == seen;
      assert batches[..0] == [];
    } else if Continues(product, seen, batches[0]) {
      CollectStepIsPick(product, seen, acc, batches);
    } else {
      var boxes := batches[0].boxes;
      var read := ReadBatch(product, boxes, seen);
      ReadBatchIsPick(product, boxes, seen);
      Dedup.KeptAfter(acc, read.reviews, read.seen, boxes, Claims, BoxIdentity, Recorded, RecordFor(product), seen);
      assert r.read == 1 && r.reviews == acc + read.reviews && r.seen == read.seen;
      FlatOne(batches);
    }
  }

  /** `r` holds, after `acc`, the records of the boxes a first-occurrence
      pick keeps over the batches `read`, and the identities it claimed. */
  ghost predicate IsPickOf(product: String, seen: set<Reviews.Identity>, acc: seq<Reviews.Review>, read: seq<Batch>, r: Collected)
  {
    Dedup.KeptRecords(acc, r.reviews, r.seen, Flat(read), Claims, BoxIdentity, Recorded, RecordFor(product), seen)
  }

  /** The batch is read and the loop goes on to the next one. */
  predicate Continues(product: String, seen: set<Reviews.Identity>, b: Batch)
  {
    && b.Batch? && (seen != {} || b.appeared)
    && !(ReadBatch(product, b.boxes, seen).seen == seen && seen != {})
    && b.boxes != [] && b.grew
  }

  /** The recursive case of `CollectIsPick`. */
  lemma {:induction false} CollectStepIsPick(product: String, seen: set<Reviews.Identity>, acc: seq<Reviews.Review>, batches: seq<Batch>)
    requires |batches| > 0 && Continues(product, seen, batches[0])
    ensures IsPickOf(product, seen, acc, batches[..Collect(product, seen, acc, batches).read], Collect(product, seen, acc, batches))
    decreases |batches|, 0
  {
    var boxes := batches[0].boxes;
    var read := ReadBatch(product, boxes, seen);
    var acc' := acc + read.reviews;
    var rest := Collect(product, read.seen, acc', batches[1..]);
    CollectIsPick(product, read.seen, acc', batches[1..]);
    ReadBatchIsPick(product, boxes, seen);
    var later := Flat(batches[1..][..rest.read]);
    Dedup.JoinPicks(acc, read.reviews, acc', rest.reviews, read.seen, rest.seen, boxes, later,
                    Claims, BoxIdentity, Recorded, RecordFor(product), seen);
    CollectUnfold(product, seen, acc, batches);
  }

  /** One batch read and the loop continuing: the result is the later
      batches' result, one more batch read, and the boxes read are this
      batch's followed by the later ones. */
  lemma CollectUnfold(product: String, seen: set<Reviews.Identity>, acc: seq<Reviews.Review>, batches: seq<Batch>)
    requires |batches| > 0 && Continues(product, seen, batches[0])
    ensures var read := ReadBatch(product, batches[0].boxes, seen);
            var rest := Collect(product, read.seen, acc + read.reviews, batches[1..]);
            var r := Collect(product, seen, acc, batches);
            && r == rest.(read := rest.read + 1)
            && Flat(batches[..r.read]) == batches[0].boxes + Flat(batches[1..][..rest.read])
  {
    var r := Collect(product, seen, acc, batches);
    FlatCons(batches, r.read);
  }

  /** What the loop records, batch by batch: a box is recorded exactly when
      it was read whole with content and is the first to claim its identity,
      counting the identities claimed before and every earlier box of every
      earlier batch; the recorded boxes carry pairwise distinct identities,
      none of them claimed before. */
  lemma CollectMeaning(product: String, seen: set<Reviews.Identity>, acc: seq<Reviews.Review>, batches: seq<Batch>)
    ensures var r := Collect(product, seen, acc, batches);
            var all := Flat(batches[..r.read]);
            var p := Dedup.Pick(all, Claims, BoxIdentity, Recorded, seen);
            && |r.reviews| == |acc| + |p.indices|
            && r.reviews[..|acc|] == acc
            && (forall k :: 0 <= k < |p.indices| ==> r.reviews[|acc| + k] == RecordOf(product, all[p.indices[k]]))
            && (forall i :: 0 <= i < |all| ==>
                  (i in p.indices <==> all[i].outcome == Dedup.Whole && Reviews.ParagraphText(all[i].paragraphs) != []
                                       && Dedup.IsFirst(all, Claims, BoxIdentity, seen, i)))
            && (forall k, l :: 0 <= k < l < |p.indices| ==> BoxIdentity(all[p.indices[k]]) != BoxIdentity(all[p.indices[l]]))
            && (forall k :: 0 <= k < |p.indices| ==> BoxIdentity(all[p.indices[k]]) !in seen)
  {
    var r := Collect(product, seen, acc, batches);
    var all := Flat(batches[..r.read]);
    var p := Dedup.Pick(all, Claims, BoxIdentity, Recorded, seen);
    CollectIsPick(product, seen, acc, batches);
    forall k | 0 <= k < |p.indices| ensures r.reviews[|acc| + k] == RecordOf(product, all[p.indices[k]]) {
      assert RecordFor(product)(all[p.indices[k]]) == RecordOf(product, all[p.indices[k]]);
    }
    Dedup.PickedDistinct(all, Claims, BoxIdentity, Recorded, seen);
    forall i | 0 <= i < |all|
      ensures i in p.indices <==> Recorded(all[i]) && Dedup.IsFirst(all, Claims, BoxIdentity, seen, i)
    {
      Dedup.PickMeaning(all, Claims, BoxIdentity, Recorded, seen, i);
    }
    forall k | 0 <= k < |p.indices| ensures BoxIdentity(all[p.indices[k]]) !in seen {
      Dedup.PickMeaning(all, Claims, BoxIdentity, Recorded, seen, p.indices[k]);
    }
  }

  /** Once identities are claimed, a readable batch whose boxes claim only
      known identities ends the loop with `NoNewReviews`, whatever follows. */
  lemma NothingNewStops(product: String, seen: set<Reviews.Identity>, acc: seq<Reviews.Review>,
                        appeared: bool, boxes: seq<Box>, grew: bool, later: seq<Batch>)
    requires seen != {}
    requires forall j :: 0 <= j < |boxes| && Claims(boxes[j]) ==> BoxIdentity(boxes[j]) in seen
    ensures var r := Collect(product, seen, acc, [Batch(appeared, boxes, grew)] + later);
            r.stop == NoNewReviews && r.read == 1 && r.seen == seen
  {
    forall x | x in Dedup.Claimed(boxes, Claims, BoxIdentity) ensures x in seen {
      Dedup.ClaimedMembers(boxes, Claims, BoxIdentity, x);
    }
  }

  /** Before any identity is claimed, a batch whose boxes did not appear
      within the wait ends the loop with `NoReviews`. */
  lemma AbsentFirstBatchStops(product: String, acc: seq<Reviews.Review>, boxes: seq<Box>, grew: bool, later: seq<Batch>)
    ensures var r := Collect(product, {}, acc, [Batch(false, boxes, grew)] + later);
            r.stop == NoReviews && r.reviews == acc && r.read == 0
  {
  }

  /** A box whose first paragraph is blank has the identity of an earlier
      box with the same reviewer and date and no paragraphs at all, so its
      review is lost even though a later paragraph carries content. */
  lemma BlankFirstParagraphShadowed(product: String, name: Option<String>, date: Option<String>, t: String)
    requires Strip(t) != []
    ensures var empty := Box(name, date, [], Dedup.Whole);
            var late := Box(name, date, [[], t], Dedup.Whole);
            && Reviews.ParagraphText(late.paragraphs) == Strip(t)
            && Collect(product, {}, [], [Batch(true, [empty, late], false)]).reviews == []
  {
    var empty := Box(name, date, [], Dedup.Whole);
    var late := Box(name, date, [[], t], Dedup.Whole);
    LateText(t);
    SameIdentity(name, date, t);
    ShadowedRead(product, empty, late);
  }

  lemma ShadowedRead(product: String, empty: Box, late: Box)
    requires empty.outcome == Dedup.Whole && empty.paragraphs == []
    requires BoxIdentity(late) == BoxIdentity(empty)
    ensures Collect(product, {}, [], [Batch(true, [empty, late], false)]).reviews == []
  {
    var boxes := [empty, late];
    ShadowedPick(empty, late);
    var read := ReadBatch(product, boxes, {});
    assert read.reviews == [];
    assert read.seen != {} by {
      Dedup.PickSeen(boxes, Claims, BoxIdentity, Recorded, {});
      Dedup.ClaimedMembers(boxes, Claims, BoxIdentity, BoxIdentity(empty));
      assert boxes[0] == empty;
    }
  }

  lemma LateText(t: String)
    ensures Reviews.ParagraphText([[], t]) == Strip(t)
  {
    var ps: seq<String> := [[], t];
    assert Strip([]) == [];
    assert ps[1..] == [t];
    assert NonBlank(ps) == NonBlank([t]);
  }

  lemma SameIdentity(name: Option<String>, date: Option<String>, t: String)
    ensures BoxIdentity(Box(name, date, [[], t], Dedup.Whole)) == BoxIdentity(Box(name, date, [], Dedup.Whole))
  {
    assert Strip([]) == [];
    assert Take([], PreviewLength) == [];
  }

  lemma ShadowedPick(empty: Box, late: Box)
    requires empty.outcome == Dedup.Whole && empty.paragraphs == []
    requires BoxIdentity(late) == BoxIdentity(empty)
    ensures Dedup.Pick([empty, late], Claims, BoxIdentity, Recorded, {}).indices == []
  {
    assert !Recorded(empty);
    var boxes := [empty, late];
    assert boxes[..1] == [empty];
    assert [empty][..0] == [];
    var p0 := Dedup.Pick([], Claims, BoxIdentity, Recorded, {});
    assert p0 == Dedup.Picked([], {});
    var p1 := Dedup.Pick([empty], Claims, BoxIdentity, Recorded, {});
    assert p1 == Dedup.Picked([], {BoxIdentity(empty)});
  }
}

=== FILE: dedup.dfy ===
/** First-occurrence deduplication, the rule all four review scrapers apply
    with different identities: a card whose identity was already claimed is
    skipped; otherwise it claims its identity and is kept when `keep` holds. */
module Dedup {

  /** How reading a box went: whole; raised before its identity was formed
      (skipped without claiming); raised after claiming it (skipped, the
      identity stays claimed). */
  datatype ReadOutcome = Whole | RaisedBeforeClaim | RaisedAfterClaim

  /** The positions kept and the identities claimed. */
  datatype Picked<I> = Picked(indices: seq<nat>, seen: set<I>)

  /** The identities the cards claim, in the order of the cards. */
  function Claimed<T, I>(cards: seq<T>, claims: T -> bool, id: T -> I): set<I>
    decreases |cards|
  {
    if |cards| == 0 then {}
    else
      var n := |cards| - 1;
      Claimed(cards[..n], claims, id) + (if claims(cards[n]) then {id(cards[n])} else {})
  }

  /** Identity `x` is claimed by some card. */
  lemma {:induction false} ClaimedMembers<T, I>(cards: seq<T>, claims: T -> bool, id: T -> I, x: I)
    ensures x in Claimed(cards, claims, id) <==> exists j :: 0 <= j < |cards| && claims(cards[j]) && id(cards[j]) == x
    decreases |cards|
  {
    if |cards| > 0 {
      var n := |cards| - 1;
      ClaimedMembers(cards[..n], claims, id, x);
      assert forall j :: 0 <= j < n ==> cards[..n][j] == cards[j];
    }
  }

  /** Card `i` is the first to claim its identity: nobody claimed it before
      the cards were seen, nor did any earlier card. */
  ghost predicate IsFirst<T, I>(cards: seq<T>, claims: T -> bool, id: T -> I, seen0: set<I>, i: int)
    requires 0 <= i < |cards|
  {
    && claims(cards[i])
    && id(cards[i]) !in seen0
    && forall j :: 0 <= j < i && claims(cards[j]) ==> id(cards[j]) != id(cards[i])
  }

  predicate Increasing(xs: seq<nat>)
  {
    forall k, l :: 0 <= k < l < |xs| ==> xs[k] < xs[l]
  }

  /** The loop `for card in cards: if id in seen: continue; seen.add(id);
      if keep: append`; a card that does not claim (its read raised before
      the identity was formed) is skipped altogether. */
  function Pick<T, I>(cards: seq<T>, claims: T -> bool, id: T -> I, keep: T -> bool, seen0: set<I>): (r: Picked<I>)
    ensures seen0 <= r.seen
    ensures forall k :: 0 <= k < |r.indices| ==> r.indices[k] < |cards|
    decreases |cards|
  {
    if |cards| == 0 then Picked([], seen0)
    else
      var n := |cards| - 1;
      var prev := Pick(cards[..n], claims, id, keep, seen0);
      var c := cards[n];
      if !claims(c) || id(c) in prev.seen then prev
      else if keep(c) then Picked(prev.indices + [n], prev.seen + {id(c)})
      else Picked(prev.indices, prev.seen + {id(c)})
  }

  /** The kept positions are in increasing order. */
  lemma {:induction false} PickIncreasing<T, I>(cards: seq<T>, claims: T -> bool, id: T -> I, keep: T -> bool, seen0: set<I>)
    ensures Increasing(Pick(cards, claims, id, keep, seen0).indices)
    decreases |cards|
  {
    if |cards| > 0 {
      PickIncreasing(cards[..|cards| - 1], claims, id, keep, seen0);
    }
  }

  /** The identities claimed are those known before plus those the cards
      claim, whether or not the card was kept. */
  lemma {:induction false} PickSeen<T, I>(cards: seq<T>, claims: T -> bool, id: T -> I, keep: T -> bool, seen0: set<I>)
    ensures Pick(cards, claims, id, keep, seen0).seen == seen0 + Claimed(cards, claims, id)
    decreases |cards|
  {
    if |cards| > 0 {
      PickSeen(cards[..|cards| - 1], claims, id, keep, seen0);
    }
  }

  /** Every kept card claimed an identity of its own. */
  lemma {:induction false} PickCount<T, I>(cards: seq<T>, claims: T -> bool, id: T -> I, keep: T -> bool, seen0: set<I>)
    ensures var r := Pick(cards, claims, id, keep, seen0);
            |r.indices| <= |r.seen - seen0|
    decreases |cards|
  {
    if |cards| > 0 {
      var n := |cards| - 1;
      PickCount(cards[..n], claims, id, keep, seen0);
      PickLast(cards, claims, id, keep, seen0);
      var prev := Pick(cards[..n], claims, id, keep, seen0);
      var c := cards[n];
      if claims(c) && id(c) !in prev.seen {
        AddNew(prev.seen, seen0, id(c));
      }
    }
  }

  /** One step of Pick: the last card either claims a new identity, adding at
      most one index, or changes nothing. */
  lemma PickLast<T, I>(cards: seq<T>, claims: T -> bool, id: T -> I, keep: T -> bool, seen0: set<I>)
    requires |cards| > 0
    ensures var n := |cards| - 1;
            var prev := Pick(cards[..n], claims, id, keep, seen0);
            var r := Pick(cards, claims, id, keep, seen0);
            var c := cards[n];
            && (claims(c) && id(c) !in prev.seen ==>
                  r.seen == prev.seen + {id(c)} && |r.indices| <= |prev.indices| + 1)
            && (!(claims(c) && id(c) !in prev.seen) ==> r == prev)
  {
  }

  lemma AddNew<I>(s: set<I>, seen0: set<I>, x: I)
    requires x !in s && x !in seen0
    ensures |(s + {x}) - seen0| == |s - seen0| + 1
  {
    assert (s + {x}) - seen0 == (s - seen0) + {x};
  }

  /** A position is kept exactly when its card is the first to claim its
      identity and passes `keep`. */
  lemma {:induction false} PickMeaning<T, I>(cards: seq<T>, claims: T -> bool, id: T -> I, keep: T -> bool, seen0: set<I>, i: nat)
    requires i < |cards|
    ensures i in Pick(cards, claims, id, keep, seen0).indices
            <==> IsFirst(cards, claims, id, seen0, i) && keep(cards[i])
    decreases |cards|
  {
    var n := |cards| - 1;
    if i < n {
      PickMeaning(cards[..n], claims, id, keep, seen0, i);
      PickEarlier(cards, claims, id, keep, seen0, i);
    } else {
      PickLastMeaning(cards, claims, id, keep, seen0);
    }
  }

  /** The last card does not decide whether an earlier one is kept. */
  lemma PickEarlier<T, I>(cards: seq<T>, claims: T -> bool, id: T -> I, keep: T -> bool, seen0: set<I>, i: nat)
    requires i < |cards| - 1
    ensures var n := |cards| - 1;
            && cards[..n][i] == cards[i]
            && (i in Pick(cards, claims, id, keep, seen0).indices <==> i in Pick(cards[..n], claims, id, keep, seen0).indices)
            && (IsFirst(cards, claims, id, seen0, i) <==> IsFirst(cards[..n], claims, id, seen0, i))
  {
    var n := |cards| - 1;
    assert forall j :: 0 <= j < n ==> cards[..n][j] == cards[j];
  }

  /** The last card is kept exactly when it is the first to claim its
      identity and passes `keep`. */
  lemma PickLastMeaning<T, I>(cards: seq<T>, claims: T -> bool, id: T -> I, keep: T -> bool, seen0: set<I>)
    requires |cards| > 0
    ensures var n := |cards| - 1;
            n in Pick(cards, claims, id, keep, seen0).indices <==> IsFirst(cards, claims, id, seen0, n) && keep(cards[n])
  {
    var n := |cards| - 1;
    var prev := Pick(cards[..n], claims, id, keep, seen0);
    assert n !in prev.indices;
    PickSeen(cards[..n], claims, id, keep, seen0);
    ClaimedMembers(cards[..n], claims, id, id(cards[n]));
    assert forall j :: 0 <= j < n ==> cards[..n][j] == cards[j];
  }

  /** Picking over `a + b` is picking over `a`, then over `b` with the
      identities `a` claimed: the positions kept in `b` follow those kept in
      `a`, shifted past `a`. */
  lemma {:induction false} PickAppend<T, I>(a: seq<T>, b: seq<T>, claims: T -> bool, id: T -> I, keep: T -> bool, seen0: set<I>)
    ensures var pa := Pick(a, claims, id, keep, seen0);
            var pb := Pick(b, claims, id, keep, pa.seen);
            var p := Pick(a + b, claims, id, keep, seen0);
            && p.seen == pb.seen
            && |p.indices| == |pa.indices| + |pb.indices|
            && (forall k :: 0 <= k < |pa.indices| ==> p.indices[k] == pa.indices[k])
            && (forall k :: 0 <= k < |pb.indices| ==> p.indices[|pa.indices| + k] == |a| + pb.indices[k])
    decreases |b|
  {
    if |b| == 0 {
      assert a + b == a;
    } else {
      PickAppend(a, b[..|b| - 1], claims, id, keep, seen0);
      PickAppendStep(a, b, claims, id, keep, seen0);
    }
  }

  /** Adding one card to `b` adds it, shifted past `a`, on both sides. */
  lemma PickAppendStep<T, I>(a: seq<T>, b: seq<T>, claims: T -> bool, id: T -> I, keep: T -> bool, seen0: set<I>)
    requires |b| > 0
    requires var pa := Pick(a, claims, id, keep, seen0);
             var pb := Pick(b[..|b| - 1], claims, id, keep, pa.seen);
             var p := Pick(a + b[..|b| - 1], claims, id, keep, seen0);
             && p.seen == pb.seen
             && |p.indices| == |pa.indices| + |pb.indices|
             && (forall k :: 0 <= k < |pa.indices| ==> p.indices[k] == pa.indices[k])
             && (forall k :: 0 <= k < |pb.indices| ==> p.indices[|pa.indices| + k] == |a| + pb.indices[k])
    ensures var pa := Pick(a, claims, id, keep, seen0);
            var pb := Pick(b, claims, id, keep, pa.seen);
            var p := Pick(a + b, claims, id, keep, seen0);
            && p.seen == pb.seen
            && |p.indices| == |pa.indices| + |pb.indices|
            && (forall k :: 0 <= k < |pa.indices| ==> p.indices[k] == pa.indices[k])
            && (forall k :: 0 <= k < |pb.indices| ==> p.indices[|pa.indices| + k] == |a| + pb.indices[k])
  {
    var m := |b| - 1;
    assert (a + b)[..|a| + m] == a + b[..m];
    assert (a + b)[|a| + m] == b[m];
  }

  /** Every kept card passes `keep`. */
  lemma PickKeeps<T, I>(cards: seq<T>, claims: T -> bool, id: T -> I, keep: T -> bool, seen0: set<I>)
    ensures var p := Pick(cards, claims, id, keep, seen0);
            forall k :: 0 <= k < |p.indices| ==> keep(cards[p.indices[k]])
  {
    var p := Pick(cards, claims, id, keep, seen0);
    forall k | 0 <= k < |p.indices| ensures keep(cards[p.indices[k]]) {
      PickMeaning(cards, claims, id, keep, seen0, p.indices[k]);
    }
  }

  /** The records of the kept positions, in order. */
  function Records<T, R>(cards: seq<T>, indices: seq<nat>, rec: T -> R): (r: seq<R>)
    requires forall k :: 0 <= k < |indices| ==> indices[k] < |cards|
    ensures |r| == |indices|
    ensures forall k :: 0 <= k < |indices| ==> r[k] == rec(cards[indices[k]])
  {
    seq(|indices|, k requires 0 <= k < |indices| => rec(cards[indices[k]]))
  }

  /** `rs` is `acc` followed by the records of the cards a pick from `seen0`
      keeps, in order, and `seen` the identities claimed by the end. */
  ghost predicate KeptRecords<T, I, R>(acc: seq<R>, rs: seq<R>, seen: set<I>, cards: seq<T>,
                                      claims: T -> bool, id: T -> I, keep: T -> bool, rec: T -> R, seen0: set<I>)
  {
    var p := Pick(cards, claims, id, keep, seen0);
    && seen == p.seen
    && |rs| == |acc| + |p.indices|
    && rs[..|acc|] == acc
    && forall k :: 0 <= k < |p.indices| ==> rs[|acc| + k] == rec(cards[p.indices[k]])
  }

  /** Kept records stay kept records behind any prefix. */
  lemma KeptAfter<T, I, R>(acc: seq<R>, first: seq<R>, seen: set<I>, cards: seq<T>,
                           claims: T -> bool, id: T -> I, keep: T -> bool, rec: T -> R, seen0: set<I>)
    requires KeptRecords([], first, seen, cards, claims, id, keep, rec, seen0)
    ensures KeptRecords(acc, acc + first, seen, cards, claims, id, keep, rec, seen0)
  {
    assert (acc + first)[..|acc|] == acc;
    assert forall k :: 0 <= k < |first| ==> (acc + first)[|acc| + k] == first[k];
  }

  /** Records kept over `a`, then records kept over `b` after the identities
      `a` claimed, are the records kept over `a + b`. */
  lemma JoinPicks<T, I, R>(acc: seq<R>, first: seq<R>, mid: seq<R>, rs: seq<R>, seenA: set<I>, seenB: set<I>,
                           a: seq<T>, b: seq<T>, claims: T -> bool, id: T -> I, keep: T -> bool, rec: T -> R, seen0: set<I>)
    requires mid == acc + first
    requires KeptRecords([], first, seenA, a, claims, id, keep, rec, seen0)
    requires KeptRecords(mid, rs, seenB, b, claims, id, keep, rec, seenA)
    ensures KeptRecords(acc, rs, seenB, a + b, claims, id, keep, rec, seen0)
  {
    PickAppend(a, b, claims, id, keep, seen0);
    var pa := Pick(a, claims, id, keep, seen0);
    var pb := Pick(b, claims, id, keep, pa.seen);
    var p := Pick(a + b, claims, id, keep, seen0);
    RecordsJoin(acc, first, mid, rs, a, b, pa.indices, pb.indices, p.indices, rec);
  }

  /** The index arithmetic of `JoinPicks`: the records of the cards kept in
      `a` (`ia`) followed by those kept in `b` (`ib`) are the records of the
      cards kept over `a + b` (`ic`). */
  lemma RecordsJoin<T, R>(acc: seq<R>, first: seq<R>, mid: seq<R>, rs: seq<R>, a: seq<T>, b: seq<T>,
                          ia: seq<nat>, ib: seq<nat>, ic: seq<nat>, rec: T -> R)
    requires |first| == |ia|
    requires forall k :: 0 <= k < |ia| ==> ia[k] < |a| && first[k] == rec(a[ia[k]])
    requires mid == acc + first
    requires |rs| == |mid| + |ib| && rs[..|mid|] == mid
    requires forall k :: 0 <= k < |ib| ==> ib[k] < |b| && rs[|mid| + k] == rec(b[ib[k]])
    requires |ic| == |ia| + |ib|
    requires forall k :: 0 <= k < |ia| ==> ic[k] == ia[k]
    requires forall k :: 0 <= k < |ib| ==> ic[|ia| + k] == |a| + ib[k]
    ensures |rs| == |acc| + |ic| && rs[..|acc|] == acc
    ensures forall k :: 0 <= k < |ic| ==> ic[k] < |a + b| && rs[|acc| + k] == rec((a + b)[ic[k]])
  {
    assert rs[..|acc|] == rs[..|mid|][..|acc|];
    forall k | 0 <= k < |ic|
      ensures ic[k] < |a + b| && rs[|acc| + k] == rec((a + b)[ic[k]])
    {
      if k < |ia| {
        assert rs[|acc| + k] == mid[|acc| + k] == first[k];
        assert (a + b)[ia[k]] == a[ia[k]];
      } else {
        var k' := k - |ia|;
        assert |acc| + k == |mid| + k';
        assert ic[|ia| + k'] == |a| + ib[k'];
        assert (a + b)[|a| + ib[k']] == b[ib[k']];
      }
    }
  }

  /** Kept positions carry pairwise distinct identities. */
  lemma PickedDistinct<T, I>(cards: seq<T>, claims: T -> bool, id: T -> I, keep: T -> bool, seen0: set<I>)
    ensures var p := Pick(cards, claims, id, keep, seen0);
            forall k, l :: 0 <= k < l < |p.indices| ==> id(cards[p.indices[k]]) != id(cards[p.indices[l]])
  {
    var p := Pick(cards, claims, id, keep, seen0);
    forall k, l | 0 <= k < l < |p.indices|
      ensures id(cards[p.indices[k]]) != id(cards[p.indices[l]])
    {
      PickMeaning(cards, claims, id, keep, seen0, p.indices[k]);
      PickMeaning(cards, claims, id, keep, seen0, p.indices[l]);
      PickIncreasing(cards, claims, id, keep, seen0);
      assert p.indices[k] < p.indices[l];
    }
  }
}

=== FILE: discovery.dfy ===
/** Product-URL discovery (`collect_all_product_urls`): an incremental-scroll
    strategy and a paginated strategy, chosen by probing the listing page for
    pagination links. The browser is replaced by the sequence of answers it
    gave, one per loop pass. */
module Discovery {
  import opened Wrappers
  import opened Text

  /** An `href` attribute as read; "" stands for a missing attribute. */
  type Href = String

  /** The paginated Fragrantica walk keeps only links under this prefix. */
  const PerfumePrefix: String := "https://www.fragrantica.com/perfume/"

  /** The parameters in which the copies of the scroll loop differ. */
  datatype ScrollConfig = ScrollConfig(
    maxSameRounds: nat,      // stop once the no-progress counter reaches this
    resetOnNewKeys: bool,    // newly found URLs also reset the counter
    roundCap: Option<nat>)   // stop after the round whose number exceeds this

  /** fragrantica/mainfunc.py: `max_same_rounds=3`, no cap. */
  const MainfuncScroll := ScrollConfig(3, false, None)
  /** fragrantica/main.py: `max_same_rounds=8`, reset on new URLs, `scroll_attempt > 100`. */
  const FragranticaScroll := ScrollConfig(8, true, Some(100))

  /** One pass of the scroll loop as the browser answered it. */
  datatype Round =
    | Round(hrefs: seq<Href>, grew: bool, height: int)
      // the hrefs of the matched elements, whether their count grew before
      // the wait timed out, and `document.body.scrollHeight` afterwards
    | Interrupted(hrefs: seq<Href>)
      // an exception ended the loop; `hrefs` had been merged before it

  datatype ScrollState = ScrollState(keys: set<String>, sameRounds: nat, lastHeight: int, rounds: nat)

  /** The URLs a pass contributes: every non-empty href. */
  function Visible(hrefs: seq<Href>): set<String>
  {
    set h | h in hrefs && h != ""
  }

  function Start(height: int): ScrollState
  {
    ScrollState({}, 0, height, 0)
  }

  /** One complete pass: merge the visible URLs, wait for growth, compare
      heights. */
  function Advance(cfg: ScrollConfig, st: ScrollState, hrefs: seq<Href>, grew: bool, height: int): (st': ScrollState)
    ensures st'.keys == st.keys + Visible(hrefs)
    ensures st'.lastHeight == height && st'.rounds == st.rounds + 1
    ensures height != st.lastHeight ==> st'.sameRounds == 0
    ensures height == st.lastHeight && grew ==> st'.sameRounds == 1
    ensures height == st.lastHeight && !grew && cfg.resetOnNewKeys && !(Visible(hrefs) <= st.keys) ==> st'.sameRounds == 2
    ensures height == st.lastHeight && !grew && !(cfg.resetOnNewKeys && !(Visible(hrefs) <= st.keys)) ==> st'.sameRounds == st.sameRounds + 2
  {
    var newlyFound := Visible(hrefs) - st.keys;
    var afterMerge := if cfg.resetOnNewKeys && newlyFound != {} then 0 else st.sameRounds;
    var afterWait := if grew then 0 else afterMerge + 1;
    var afterHeight := if height == st.lastHeight then afterWait + 1 else 0;
    ScrollState(st.keys + newlyFound, afterHeight, height, st.rounds + 1)
  }

  /** The effect of one observed pass, stop tests aside. */
  function Apply(cfg: ScrollConfig, st: ScrollState, o: Round): ScrollState
  {
    match o
    case Round(hrefs, grew, height) => Advance(cfg, st, hrefs, grew, height)
    case Interrupted(hrefs) => st.(keys := st.keys + Visible(hrefs), rounds := st.rounds + 1)
  }

  /** The state after a run of passes with the stop tests switched off: the
      reference the stopping loop is compared against. */
  function Replay(cfg: ScrollConfig, st: ScrollState, obs: seq<Round>): (r: ScrollState)
    ensures r.rounds == st.rounds + |obs|
    decreases |obs|
  {
    if |obs| == 0 then st else Replay(cfg, Apply(cfg, st, obs[0]), obs[1..])
  }

  /** The loop's two break tests after a complete pass. */
  predicate Converged(cfg: ScrollConfig, st: ScrollState)
  {
    st.sameRounds >= cfg.maxSameRounds
  }

  predicate OverCap(cfg: ScrollConfig, st: ScrollState)
  {
    cfg.roundCap.Some? && st.rounds > cfg.roundCap.value
  }

  predicate Stops(cfg: ScrollConfig, st: ScrollState)
  {
    Converged(cfg, st) || OverCap(cfg, st)
  }

  /** Why a discovery walk ended. */
  datatype Stop =
    | NoProgress     // `same_rounds >= max_same_rounds`
    | Capped         // `scroll_attempt > 100`
    | Aborted        // an exception; the keys gathered so far are kept
    | NoNextPage     // the paginated walk found no next control
    | OutOfAnswers   // the observation sequence ended before the loop did

  datatype Discovered = Discovered(keys: set<String>, consumed: nat, stop: Stop)

  /** The incremental-scroll loop from state `st` over the observed passes. */
  function Scroll(cfg: ScrollConfig, st: ScrollState, obs: seq<Round>): (r: Discovered)
    ensures st.keys <= r.keys
    ensures r.consumed <= |obs|
    ensures r.stop in {NoProgress, Capped, Aborted, OutOfAnswers}
    decreases |obs|
  {
    if |obs| == 0 then Discovered(st.keys, 0, OutOfAnswers)
    else
      var st' := Apply(cfg, st, obs[0]);
      if obs[0].Interrupted? then Discovered(st'.keys, 1, Aborted)
      else if Converged(cfg, st') then Discovered(st'.keys, 1, NoProgress)
      else if OverCap(cfg, st') then Discovered(st'.keys, 1, Capped)
      else
        var rest := Scroll(cfg, st', obs[1..]);
        Discovered(rest.keys, rest.consumed + 1, rest.stop)
  }

  /** The scroll loop returns exactly the keys accumulated by the passes it
      consumed; every pass before the last was complete and triggered no
      break; a no-progress stop happens on the first pass whose counter
      reaches the threshold. */
  lemma {:induction false} ScrollMeaning(cfg: ScrollConfig, st: ScrollState, obs: seq<Round>)
    ensures var r := Scroll(cfg, st, obs);
            && r.keys == Replay(cfg, st, obs[..r.consumed]).keys
            && (r.stop != OutOfAnswers ==> r.consumed >= 1)
            && (r.stop == OutOfAnswers ==> r.consumed == |obs|)
            && (r.stop == NoProgress ==> Converged(cfg, Replay(cfg, st, obs[..r.consumed])))
            && (r.stop == Capped ==> OverCap(cfg, Replay(cfg, st, obs[..r.consumed])))
            && (r.stop == Aborted ==> obs[r.consumed - 1].Interrupted?)
            && (forall j :: 0 <= j < r.consumed - 1 ==> obs[j].Round?)
            && (forall j :: 0 < j < r.consumed ==> !Stops(cfg, Replay(cfg, st, obs[..j])))
    decreases |obs|
  {
    var r := Scroll(cfg, st, obs);
    if |obs| > 0 {
      var st' := Apply(cfg, st, obs[0]);
      assert Replay(cfg, st, obs[..1]) == Replay(cfg, st', []) by {
        assert obs[..1][1..] == [];
      }
      if !obs[0].Interrupted? && !Converged(cfg, st') && !OverCap(cfg, st') {
        var rest := Scroll(cfg, st', obs[1..]);
        ScrollMeaning(cfg, st', obs[1..]);
        forall j | 0 < j <= r.consumed
          ensures Replay(cfg, st, obs[..j]) == Replay(cfg, st', obs[1..][..j - 1])
        {
          ReplayShift(cfg, st, obs, j);
        }
        assert forall j :: 0 < j < |obs| ==> obs[j] == obs[1..][j - 1];
      }
    }
  }

  /** Replaying a prefix is replaying its tail from the state after the
      first pass. */
  lemma ReplayShift(cfg: ScrollConfig, st: ScrollState, obs: seq<Round>, j: nat)
    requires 0 < j <= |obs|
    ensures Replay(cfg, st, obs[..j]) == Replay(cfg, Apply(cfg, st, obs[0]), obs[1..][..j - 1])
  {
    assert obs[..j][0] == obs[0];
    assert obs[..j][1..] == obs[1..][..j - 1];
  }

  /** A pass on a page that shows nothing new: complete, no growth within
      the wait, the height unchanged, and no URL that was not known. */
  predicate Stagnant(st: ScrollState, o: Round)
  {
    o.Round? && !o.grew && o.height == st.lastHeight && Visible(o.hrefs) <= st.keys
  }

  /** On a stagnant page with a fresh counter, mainfunc.py's loop (threshold
      3) stops after 2 passes and fragrantica/main.py's (threshold 8) after
      4, before the round cap matters, with no URL added. */
  lemma StagnantPageStops(st: ScrollState, obs: seq<Round>)
    requires st.sameRounds == 0
    requires forall i :: 0 <= i < |obs| ==> Stagnant(st, obs[i])
    ensures |obs| >= 2 ==> Scroll(MainfuncScroll, st, obs) == Discovered(st.keys, 2, NoProgress)
    ensures |obs| >= 4 && st.rounds + 3 <= 100 ==> Scroll(FragranticaScroll, st, obs) == Discovered(st.keys, 4, NoProgress)
  {
    if |obs| >= 2 {
      StagnantScroll(MainfuncScroll, st, obs, 2);
    }
    if |obs| >= 4 && st.rounds + 3 <= 100 {
      StagnantScroll(FragranticaScroll, st, obs, 4);
    }
  }

  /** The general form: every stagnant pass adds 2 to the no-progress
      counter (one for the timed-out wait, one for the unchanged height), so
      the loop stops with `NoProgress` on the first pass `n` whose counter
      reaches the threshold, provided no earlier pass hit the cap. */
  lemma {:induction false} StagnantScroll(cfg: ScrollConfig, st: ScrollState, obs: seq<Round>, n: nat)
    requires 0 < n <= |obs|
    requires forall i :: 0 <= i < |obs| ==> Stagnant(st, obs[i])
    requires st.sameRounds + 2 * n >= cfg.maxSameRounds > st.sameRounds + 2 * (n - 1)
    requires cfg.roundCap.Some? ==> st.rounds + n - 1 <= cfg.roundCap.value
    ensures Scroll(cfg, st, obs) == Discovered(st.keys, n, NoProgress)
    decreases n
  {
    assert Stagnant(st, obs[0]);
    var st' := Apply(cfg, st, obs[0]);
    assert st'.keys == st.keys;
    if n > 1 {
      assert forall i :: 0 <= i < |obs| - 1 ==> obs[1..][i] == obs[i + 1];
      StagnantScroll(cfg, st', obs[1..], n - 1);
    }
  }

  /** The accumulated key set never shrinks from one pass to the next. */
  lemma {:induction false} ReplayGrows(cfg: ScrollConfig, st: ScrollState, obs: seq<Round>, i: nat, j: nat)
    requires i <= j <= |obs|
    ensures Replay(cfg, st, obs[..i]).keys <= Replay(cfg, st, obs[..j]).keys
    decreases |obs|
  {
    if i > 0 {
      var st' := Apply(cfg, st, obs[0]);
      assert obs[..i][1..] == obs[1..][..i - 1];
      assert obs[..j][1..] == obs[1..][..j - 1];
      ReplayGrows(cfg, st', obs[1..], i - 1, j - 1);
    } else {
      ReplayHasStart(cfg, st, obs[..j]);
    }
  }

  lemma {:induction false} ReplayHasStart(cfg: ScrollConfig, st: ScrollState, obs: seq<Round>)
    ensures st.keys <= Replay(cfg, st, obs).keys
    decreases |obs|
  {
    if |obs| > 0 {
      ReplayHasStart(cfg, Apply(cfg, st, obs[0]), obs[1..]);
    }
  }

  /** A URL is discovered exactly when it was already known or some pass
      showed it as a non-empty href. */
  lemma {:induction false} ReplayKeys(cfg: ScrollConfig, st: ScrollState, obs: seq<Round>, u: String)
    ensures u in Replay(cfg, st, obs).keys
            <==> u in st.keys || exists i :: 0 <= i < |obs| && u in obs[i].hrefs && u != ""
    decreases |obs|
  {
    if |obs| > 0 {
      var st' := Apply(cfg, st, obs[0]);
      ReplayKeys(cfg, st', obs[1..], u);
      if exists i :: 0 <= i < |obs| && u in obs[i].hrefs && u != "" {
        var i :| 0 <= i < |obs| && u in obs[i].hrefs && u != "";
        if i > 0 {
          assert obs[1..][i - 1] == obs[i];
        }
      }
      forall i | 0 <= i < |obs| - 1 && u in obs[1..][i].hrefs && u != ""
        ensures u in obs[i + 1].hrefs
      {
      }
    }
  }

  /** With a round cap, the scroll loop consumes at most cap + 1 passes
      (101 for fragrantica/main.py). */
  lemma RoundCapBound(cfg: ScrollConfig, height: int, obs: seq<Round>)
    requires cfg.roundCap.Some?
    ensures Scroll(cfg, Start(height), obs).consumed <= cfg.roundCap.value + 1
  {
    var r := Scroll(cfg, Start(height), obs);
    ScrollMeaning(cfg, Start(height), obs);
    if r.consumed > 1 {
      var j := r.consumed - 1;
      assert !Stops(cfg, Replay(cfg, Start(height), obs[..j]));
    }
  }

  /** Every pass completes and ends with a page height different from the
      one before it, as on a listing that keeps loading. */
  predicate Rising(last: int, obs: seq<Round>)
    decreases |obs|
  {
    |obs| == 0 || (obs[0].Round? && obs[0].height != last && Rising(obs[0].height, obs[1..]))
  }

  /** Without a round cap, mainfunc.py's loop never stops on a page whose
      height keeps changing: it consumes every pass offered, however many. */
  lemma {:induction false} RisingPageNeverStops(st: ScrollState, obs: seq<Round>)
    requires Rising(st.lastHeight, obs)
    ensures Scroll(MainfuncScroll, st, obs) == Discovered(Replay(MainfuncScroll, st, obs).keys, |obs|, OutOfAnswers)
    decreases |obs|
  {
    if |obs| > 0 {
      RisingPageNeverStops(Apply(MainfuncScroll, st, obs[0]), obs[1..]);
    }
  }

  // ----- Paginated strategy -----

  /** The product links of one page: their hrefs, a timeout waiting for
      them (the page contributes nothing), or another exception. */
  datatype Links = Links(hrefs: seq<Href>) | LinksTimedOut | LinksRaised

  /** The "Next »" control: found and clicked, absent (timeout), or an
      exception other than a timeout. */
  datatype NextControl = NextFound | NextAbsent | NextRaised

  datatype Page = Page(links: Links, next: NextControl)

  /** The URLs a Fragrantica page contributes. */
  function PageKeys(p: Page): set<String>
  {
    match p.links
    case Links(hrefs) => set h | h in hrefs && h != "" && StartsWith(h, PerfumePrefix)
    case _ => {}
  }

  /** The paginated loop: merge each page's product URLs and follow "Next »"
      until it is missing. */
  function Paginate(keys: set<String>, pages: seq<Page>): (r: Discovered)
    ensures r.consumed <= |pages|
    ensures forall u :: u in r.keys <==> u in keys || exists i :: 0 <= i < r.consumed && u in PageKeys(pages[i])
    ensures r.stop in {NoNextPage, Aborted, OutOfAnswers}
    ensures r.stop == OutOfAnswers <==> r.consumed == |pages| && forall i :: 0 <= i < |pages| ==> pages[i].next == NextFound && !pages[i].links.LinksRaised?
    ensures r.stop == NoNextPage ==> r.consumed > 0 && pages[r.consumed - 1].next == NextAbsent && !pages[r.consumed - 1].links.LinksRaised?
    ensures r.stop == Aborted ==> r.consumed > 0 && (pages[r.consumed - 1].links.LinksRaised? || pages[r.consumed - 1].next == NextRaised)
    ensures forall i :: 0 <= i < r.consumed - 1 ==> pages[i].next == NextFound && !pages[i].links.LinksRaised?
    decreases |pages|
  {
    if |pages| == 0 then Discovered(keys, 0, OutOfAnswers)
    else
      var p := pages[0];
      if p.links.LinksRaised? then Discovered(keys, 1, Aborted)
      else
        var keys' := keys + PageKeys(p);
        match p.next
        case NextAbsent => Discovered(keys', 1, NoNextPage)
        case NextRaised => Discovered(keys', 1, Aborted)
        case NextFound =>
          var rest := Paginate(keys', pages[1..]);
          assert forall i :: 0 <= i < |pages| - 1 ==> pages[1..][i] == pages[i + 1];
          Discovered(rest.keys, rest.consumed + 1, rest.stop)
  }

  // ----- Strategy choice -----

  /** What the listing page showed on arrival. */
  datatype Listing =
    | LoadFailed                                  // `driver.get(start_url)` raised
    | NoProductLinks                              // none of the three product selectors appeared
    | Scrolling(initialHeight: int, rounds: seq<Round>)   // no pagination links
    | Paged(pages: seq<Page>)                     // pagination links present

  /** `collect_all_product_urls` of the two Fragrantica scrapers, as a set
      (the source returns `list(set)`, whose order Python leaves unspecified). */
  function CollectProductUrls(cfg: ScrollConfig, listing: Listing): (r: set<String>)
    ensures listing.LoadFailed? || listing.NoProductLinks? ==> r == {}
    ensures listing.Paged? ==> forall u :: u in r ==> u != "" && StartsWith(u, PerfumePrefix)
    ensures listing.Scrolling? ==> "" !in r
  {
    match listing
    case LoadFailed => {}
    case NoProductLinks => {}
    case Scrolling(height, rounds) =>
      var r := Scroll(cfg, Start(height), rounds);
      ScrollMeaning(cfg, Start(height), rounds);
      ReplayKeys(cfg, Start(height), rounds[..r.consumed], "");
      r.keys
    case Paged(pages) => Paginate({}, pages).keys
  }

  // ----- Parfumo (main.py): a list, not a set -----

  /** The next-page link of a Parfumo result page: its href ("" when empty),
      no link at all, or `driver.get` on it raising. */
  datatype ParfumoNext = NextHref(url: Href) | NoNextLink | NextLoadRaised

  datatype ParfumoPage = ParfumoPage(links: Links, next: ParfumoNext)

  /** The non-empty hrefs of one result page, in page order. */
  function PageUrls(p: ParfumoPage): seq<String>
  {
    match p.links
    case Links(hrefs) => NonEmpty(hrefs)
    case _ => []
  }

  /** `f` of the first `k` elements of `ps`, one after another. */
  function Concat<P, T>(ps: seq<P>, k: nat, f: P -> seq<T>): seq<T>
    requires k <= |ps|
  {
    if k == 0 then [] else Concat(ps, k - 1, f) + f(ps[k - 1])
  }

  /** The summed lengths of `f` of the first `k` elements of `ps`. */
  function SumLengths<P, T>(ps: seq<P>, k: nat, f: P -> seq<T>): nat
    requires k <= |ps|
  {
    if k == 0 then 0 else SumLengths(ps, k - 1, f) + |f(ps[k - 1])|
  }

  /** One more element in front puts its part first. */
  lemma {:induction false} ConcatShift<P, T>(ps: seq<P>, k: nat, f: P -> seq<T>)
    requires 0 < |ps| && k < |ps|
    ensures Concat(ps, k + 1, f) == f(ps[0]) + Concat(ps[1..], k, f)
  {
    if k > 0 {
      ConcatShift(ps, k - 1, f);
      assert ps[1..][k - 1] == ps[k];
    }
  }

  lemma ConcatOne<P, T>(ps: seq<P>, f: P -> seq<T>)
    requires 0 < |ps|
    ensures Concat(ps, 1, f) == f(ps[0])
  {
    assert Concat(ps, 1, f) == Concat(ps, 0, f) + f(ps[0]);
  }

  /** What a walk continued from `acc + f(ps[0])` over the rest collected is
      what the walk from `acc` collected over one page more. */
  lemma ConcatStep<P, T>(acc: seq<T>, ps: seq<P>, f: P -> seq<T>, urls: seq<T>, n: nat)
    requires 0 < |ps| && n < |ps|
    requires urls == acc + f(ps[0]) + Concat(ps[1..], n, f)
    ensures urls == acc + Concat(ps, n + 1, f)
  {
    ConcatShift(ps, n, f);
  }

  lemma {:induction false} ConcatLength<P, T>(ps: seq<P>, k: nat, f: P -> seq<T>)
    requires k <= |ps|
    ensures |Concat(ps, k, f)| == SumLengths(ps, k, f)
  {
    if k > 0 {
      ConcatLength(ps, k - 1, f);
    }
  }

  /** How many URLs the first `k` visited pages contribute, duplicates included. */
  function Total(pages: seq<ParfumoPage>, k: nat): nat
    requires k <= |pages|
  {
    SumLengths(pages, k, PageUrls)
  }

  /** The URLs the first `k` visited pages contribute, page after page,
      duplicates included. */
  function Visited(pages: seq<ParfumoPage>, k: nat): seq<String>
    requires k <= |pages|
  {
    Concat(pages, k, PageUrls)
  }

  datatype Collected = Collected(urls: seq<String>, consumed: nat, stop: Stop)

  /** main.py's paginated walk: extend the list with each page's URLs and
      load the next page until the link is missing or its href empty. */
  function CollectParfumo(acc: seq<String>, pages: seq<ParfumoPage>): (r: Collected)
    ensures r.consumed <= |pages|
    ensures r.urls == acc + Visited(pages, r.consumed)
    decreases |pages|
  {
    if |pages| == 0 then Collected(acc, 0, OutOfAnswers)
    else
      var p := pages[0];
      ConcatOne(pages, PageUrls);
      if p.links.LinksRaised? then Collected(acc, 1, Aborted)
      else
        var acc' := acc + PageUrls(p);
        match p.next
        case NoNextLink => Collected(acc', 1, NoNextPage)
        case NextLoadRaised => Collected(acc', 1, Aborted)
        case NextHref(u) =>
          if u == "" then Collected(acc', 1, NoNextPage)
          else
            var rest := CollectParfumo(acc', pages[1..]);
            ConcatStep(acc, pages, PageUrls, rest.urls, rest.consumed);
            Collected(rest.urls, rest.consumed + 1, rest.stop)
  }

  /** The list's length is the sum of the visited pages' counts: duplicates
      are kept. */
  lemma CollectParfumoLength(acc: seq<String>, pages: seq<ParfumoPage>)
    ensures var r := CollectParfumo(acc, pages);
            |r.urls| == |acc| + Total(pages, r.consumed)
  {
    ConcatLength(pages, CollectParfumo(acc, pages).consumed, PageUrls);
  }

  /** A URL is in the list exactly when it was there before or some visited
      page showed it as a non-empty href. */
  lemma {:induction false} CollectParfumoMembers(acc: seq<String>, pages: seq<ParfumoPage>, u: String)
    ensures var r := CollectParfumo(acc, pages);
            u in r.urls <==> u in acc || exists i :: 0 <= i < r.consumed && u in PageUrls(pages[i])
    decreases |pages|
  {
    var r := CollectParfumo(acc, pages);
    if |pages| > 0 {
      var p := pages[0];
      var acc' := acc + PageUrls(p);
      if p.links.LinksRaised? {
        assert PageUrls(pages[0]) == [];
      } else if p.next.NextHref? && p.next.url != "" {
        var rest := CollectParfumo(acc', pages[1..]);
        assert r.urls == rest.urls && r.consumed == rest.consumed + 1;
        CollectParfumoMembers(acc', pages[1..], u);
        MembersStep(acc, pages, u, rest.consumed);
      } else {
        assert r.urls == acc' && r.consumed == 1;
      }
    }
  }

  /** One more visited page in front: being in the page's URLs or in a later
      page's is being in one of the pages'. */
  lemma MembersStep(acc: seq<String>, pages: seq<ParfumoPage>, u: String, n: nat)
    requires 0 < |pages| && n < |pages|
    ensures (u in acc + PageUrls(pages[0]) || exists i :: 0 <= i < n && u in PageUrls(pages[1..][i]))
            <==> (u in acc || exists i :: 0 <= i < n + 1 && u in PageUrls(pages[i]))
  {
    if exists i :: 0 <= i < n + 1 && u in PageUrls(pages[i]) {
      var i :| 0 <= i < n + 1 && u in PageUrls(pages[i]);
      if i > 0 {
        assert pages[1..][i - 1] == pages[i];
      }
    }
    if exists i :: 0 <= i < n && u in PageUrls(pages[1..][i]) {
      var i :| 0 <= i < n && u in PageUrls(pages[1..][i]);
      assert pages[1..][i] == pages[i + 1];
    }
  }

  /** Every page but the last showed its links and had a non-empty next
      href; the walk ends normally at a missing link or an empty href,
      abnormally at a page whose links or next load raised, and runs out of
      pages only when every page offered had a next href to follow. */
  lemma {:induction false} CollectParfumoStops(acc: seq<String>, pages: seq<ParfumoPage>)
    ensures var r := CollectParfumo(acc, pages);
            && r.stop in {NoNextPage, Aborted, OutOfAnswers}
            && (r.stop == NoNextPage ==>
                  && r.consumed > 0 && pages[r.consumed - 1].next in {NoNextLink, NextHref("")}
                  && !pages[r.consumed - 1].links.LinksRaised?)
            && (r.stop == Aborted ==>
                  r.consumed > 0 && (pages[r.consumed - 1].links.LinksRaised? || pages[r.consumed - 1].next == NextLoadRaised))
            && (r.stop == OutOfAnswers <==> r.consumed == |pages| && forall i :: 0 <= i < |pages| ==> Followed(pages[i]))
            && (forall i :: 0 <= i < r.consumed - 1 ==> Followed(pages[i]))
    decreases |pages|
  {
    var r := CollectParfumo(acc, pages);
    if |pages| > 0 && !pages[0].links.LinksRaised? {
      var p := pages[0];
      if p.next.NextHref? && p.next.url != "" {
        var acc' := acc + PageUrls(p);
        var rest := CollectParfumo(acc', pages[1..]);
        CollectParfumoStops(acc', pages[1..]);
        forall i | 0 < i < |pages|
          ensures pages[i] == pages[1..][i - 1]
        {
        }
      }
    }
  }

  /** A page the walk moves on from: its links read and a non-empty next href. */
  predicate Followed(p: ParfumoPage)
  {
    !p.links.LinksRaised? && p.next.NextHref? && p.next.url != ""
  }
}

=== FILE: parfumo_reviews.dfy ===
/** Review collection on Parfumo product pages (main.py): after the "More
    reviews" button has loaded everything, each review box is read, and a
    review is recorded the first time its full content text is seen. */
module ParfumoReviews {
  import opened Wrappers
  import opened Text
  import Dedup

  // ---------------------------------------------------------------------------
  // "12 Reviews" -> "12"
  // ---------------------------------------------------------------------------

  /** The end of the run of digits starting at `i`. */
  function DigitEnd(s: String, i: nat): (j: nat)
    requires i <= |s|
    ensures i <= j <= |s|
    ensures forall k :: i <= k < j ==> IsDigit(s[k])
    ensures j < |s| ==> !IsDigit(s[j])
    decreases |s| - i
  {
    if i < |s| && IsDigit(s[i]) then DigitEnd(s, i + 1) else i
  }

  /** The end of the run of whitespace starting at `i`. */
  function SpaceEnd(s: String, i: nat): (j: nat)
    requires i <= |s|
    ensures i <= j <= |s|
    ensures forall k :: i <= k < j ==> IsSpace(s[k])
    ensures j < |s| ==> !IsSpace(s[j])
    decreases |s| - i
  {
    if i < |s| && IsSpace(s[i]) then SpaceEnd(s, i + 1) else i
  }

  /** `(\d+)\s+Reviews?` matches at `i`. Both runs are greedy and giving
      characters back cannot help (a shorter digit run is followed by a
      digit, a shorter space run by a space), so the match is decided by the
      maximal runs. */
  predicate MatchAt(s: String, i: nat)
    requires i <= |s|
  {
    var j := DigitEnd(s, i);
    var w := SpaceEnd(s, j);
    j > i && w > j && StartsWith(s[w..], "Review")
  }

  /** `re.search`: the leftmost position at or after `i` where the pattern matches. */
  function SearchFrom(s: String, i: nat): (r: Option<nat>)
    requires i <= |s|
    ensures r.Some? ==> i <= r.value < |s| && MatchAt(s, r.value)
    ensures r.Some? ==> forall k :: i <= k < r.value ==> !MatchAt(s, k)
    ensures r.None? <==> forall k :: i <= k <= |s| ==> !MatchAt(s, k)
    decreases |s| - i
  {
    if i == |s| then None
    else if MatchAt(s, i) then Some(i)
    else
      var r := SearchFrom(s, i + 1);
      SearchStep(s, i, r);
      r
  }

  /** A search that failed at `i` answers what the search from `i + 1` answers. */
  lemma SearchStep(s: String, i: nat, r: Option<nat>)
    requires i < |s| && !MatchAt(s, i)
    requires r.Some? ==> i + 1 <= r.value < |s| && MatchAt(s, r.value)
    requires r.Some? ==> forall k :: i + 1 <= k < r.value ==> !MatchAt(s, k)
    requires r.None? <==> forall k :: i + 1 <= k <= |s| ==> !MatchAt(s, k)
    ensures r.Some? ==> forall k :: i <= k < r.value ==> !MatchAt(s, k)
    ensures r.None? <==> forall k :: i <= k <= |s| ==> !MatchAt(s, k)
  {
  }

  /** `reviewer_total_reviews`: the digits of the leftmost match, else "0". */
  function ReviewCount(text: String): (r: String)
    ensures |r| > 0 && forall k :: 0 <= k < |r| ==> IsDigit(r[k])
    ensures (forall i :: 0 <= i <= |text| ==> !MatchAt(text, i)) ==> r == "0"
  {
    match SearchFrom(text, 0)
    case None => "0"
    case Some(i) => text[i..DigitEnd(text, i)]
  }

  /** With a match, the count is the digit run of the leftmost match. */
  lemma ReviewCountFirstMatch(text: String, i: nat)
    requires i <= |text| && MatchAt(text, i)
    requires forall k :: 0 <= k < i ==> !MatchAt(text, k)
    ensures ReviewCount(text) == text[i..DigitEnd(text, i)]
  {
    var m := SearchFrom(text, 0);
    assert m.Some?;
    assert m.value == i;
  }

  /** The digits a page renders in front of " Review…" are read back. */
  lemma ReviewCountReadsRendered(d: String, rest: String)
    requires |d| > 0 && forall k :: 0 <= k < |d| ==> IsDigit(d[k])
    ensures ReviewCount(d + " Review" + rest) == d
  {
    var s := d + " Review" + rest;
    RenderedMatches(d, rest);
    ReviewCountFirstMatch(s, 0);
    assert s[0..|d|] == d;
  }

  /** The rendered text matches at its start, with the digit run `d`. */
  lemma RenderedMatches(d: String, rest: String)
    requires |d| > 0 && forall k :: 0 <= k < |d| ==> IsDigit(d[k])
    ensures MatchAt(d + " Review" + rest, 0) && DigitEnd(d + " Review" + rest, 0) == |d|
  {
    var s := d + " Review" + rest;
    assert forall k :: 0 <= k < |d| ==> s[k] == d[k];
    assert s[|d|] == ' ' && s[|d| + 1] == 'R';
    DigitRun(s, 0, |d|);
    assert SpaceEnd(s, |d|) == |d| + 1 by {
      assert SpaceEnd(s, |d| + 1) == |d| + 1;
    }
    assert s[|d| + 1..][..6] == "Review";
  }

  lemma {:induction false} DigitRun(s: String, i: nat, j: nat)
    requires i <= j < |s|
    requires forall k :: i <= k < j ==> IsDigit(s[k])
    requires !IsDigit(s[j])
    ensures DigitEnd(s, i) == j
    decreases j - i
  {
    if i < j {
      DigitRun(s, i + 1, j);
    }
  }

  // ---------------------------------------------------------------------------
  // Other fields
  // ---------------------------------------------------------------------------

  /** `award_count`: the stripped text when any was found, else "0". */
  function AwardCount(text: String): (r: String)
    ensures text == [] ==> r == "0"
    ensures text != [] ==> r == Strip(text)
  {
    if text != [] then Strip(text) else "0"
  }

  /** Whitespace-only award text yields an empty count, not "0". */
  lemma BlankAwardIsEmpty(text: String)
    requires text != [] && forall i :: 0 <= i < |text| ==> IsSpace(text[i])
    ensures AwardCount(text) == []
  {
    StripBlank(text);
  }

  /** `reviewer_gender` from the icon's class: "M", "F" or "N/A". */
  function ReviewerGender(iconClass: Option<String>): (r: String)
    ensures r == "M" <==> iconClass.Some? && Contains(iconClass.value, "fa-mars")
    ensures r == "F" <==> iconClass.Some? && !Contains(iconClass.value, "fa-mars") && Contains(iconClass.value, "fa-venus")
    ensures r == "N/A" <==> iconClass.None? || (!Contains(iconClass.value, "fa-mars") && !Contains(iconClass.value, "fa-venus"))
  {
    if iconClass.Some? && Contains(iconClass.value, "fa-mars") then "M"
    else if iconClass.Some? && Contains(iconClass.value, "fa-venus") then "F"
    else "N/A"
  }

  // ---------------------------------------------------------------------------
  // Boxes and the record
  // ---------------------------------------------------------------------------

  /** What a review box offers. Texts of missing elements are "" (what the
      scraper's text helper returns); the gender icon is absent or carries a
      class; `outcome` says whether reading raised. */
  datatype Box = Box(
    content: String, title: String, date: String, reviewer: String,
    genderIcon: Option<String>, totalReviewsText: String, helpful: String, awardText: String,
    outcome: Dedup.ReadOutcome)

  /** A row of the Parfumo review file. */
  datatype ParfumoReview = ParfumoReview(
    productName: String, date: String, reviewer: String, reviewerGender: String,
    reviewerTotalReviews: String, helpfulBadge: String, awardCount: String,
    title: String, content: String)

  function RecordOf(product: String, b: Box): ParfumoReview
  {
    ParfumoReview(product, b.date, b.reviewer, ReviewerGender(b.genderIcon),
      ReviewCount(b.totalReviewsText), b.helpful, AwardCount(b.awardText), b.title, b.content)
  }

  /** A box claims its content when reading got that far and found text. */
  function Claims(b: Box): bool { b.outcome != Dedup.RaisedBeforeClaim && b.content != [] }
  function ContentOf(b: Box): String { b.content }
  function Recorded(b: Box): bool { b.outcome == Dedup.Whole }

  /** The page after loading: no review section (nothing to record), the
      boxes, or an exception that escapes (the "More reviews" loop catches
      only timeouts and missing elements). */
  datatype ReviewPage = NoSection | Loaded(boxes: seq<Box>) | LoadRaised

  /** `scrape_reviews`; `None` when an exception escapes it. */
  function ScrapeReviews(product: String, page: ReviewPage): (r: Option<seq<ParfumoReview>>)
    ensures page.NoSection? ==> r == Some([])
    ensures r.None? <==> page.LoadRaised?
  {
    match page
    case NoSection => Some([])
    case LoadRaised => None
    case Loaded(boxes) =>
      var p := Dedup.Pick(boxes, Claims, ContentOf, Recorded, {});
      Some(Dedup.Records(boxes, p.indices, (b: Box) => RecordOf(product, b)))
  }

  /** A box is recorded exactly when it was read whole, its content is
      non-empty, and no earlier box got as far as claiming the same content. */
  lemma RecordedIff(boxes: seq<Box>, i: nat)
    requires i < |boxes|
    ensures i in Dedup.Pick(boxes, Claims, ContentOf, Recorded, {}).indices
            <==> && boxes[i].outcome == Dedup.Whole && boxes[i].content != []
                 && forall j :: 0 <= j < i && Claims(boxes[j]) ==> boxes[j].content != boxes[i].content
  {
    Dedup.PickMeaning(boxes, Claims, ContentOf, Recorded, {}, i);
  }

  /** The recorded reviews have non-empty, pairwise distinct contents. */
  lemma ContentsDistinct(product: String, boxes: seq<Box>)
    ensures var r := ScrapeReviews(product, Loaded(boxes)).value;
            && (forall k :: 0 <= k < |r| ==> r[k].content != [] && r[k].productName == product)
            && (forall k, l :: 0 <= k < l < |r| ==> r[k].content != r[l].content)
  {
    var p := Dedup.Pick(boxes, Claims, ContentOf, Recorded, {});
    var r := ScrapeReviews(product, Loaded(boxes)).value;
    assert r == Dedup.Records(boxes, p.indices, (b: Box) => RecordOf(product, b));
    forall k | 0 <= k < |r| ensures r[k].content != [] {
      RecordedIff(boxes, p.indices[k]);
    }
    Dedup.PickedDistinct(boxes, Claims, ContentOf, Recorded, {});
    forall k, l | 0 <= k < l < |r| ensures r[k].content != r[l].content {
      assert r[k].content == ContentOf(boxes[p.indices[k]]);
      assert r[l].content == ContentOf(boxes[p.indices[l]]);
    }
  }
}

=== FILE: pool.dfy ===
/** `DriverPool`: a bounded FIFO queue of browser handles. The Fragrantica
    scrapers use it as a plain queue; main.py probes a handle's liveness on
    `get` and `put` and replaces dead ones. Workers that fail replace their
    handle, and a failed creation shrinks the pool for good. */
module Pool {
  import opened Wrappers
  import Dedup

  /** A browser handle, numbered in order of creation. */
  type Handle = nat

  /** The queue's contents oldest first, how many handles workers hold, the
      queue's `maxsize`, and the number the next created handle gets. */
  datatype Pool = Pool(idle: seq<Handle>, lent: nat, capacity: nat, next: Handle)

  /** Handles in the pool are distinct and already created, and pooled plus
      lent handles never exceed the capacity. */
  predicate Valid(p: Pool)
  {
    && |p.idle| + p.lent <= p.capacity
    && (forall i, j :: 0 <= i < j < |p.idle| ==> p.idle[i] != p.idle[j])
    && (forall i :: 0 <= i < |p.idle| ==> p.idle[i] < p.next)
  }

  /** Handles in the queue plus handles held by workers. */
  function Total(p: Pool): nat { |p.idle| + p.lent }

  // ---------------------------------------------------------------------------
  // Construction
  // ---------------------------------------------------------------------------

  /** The handles of creation attempts `lo` to `hi - 1` that succeeded. */
  function Created(lo: nat, hi: nat, createOk: nat -> bool): (hs: seq<Handle>)
    requires lo <= hi
    ensures |hs| <= hi - lo
    ensures Dedup.Increasing(hs)
    ensures forall h: nat :: (h in hs <==> lo <= h < hi && createOk(h))
    decreases hi - lo
  {
    if lo == hi then []
    else
      var rest := Created(lo + 1, hi, createOk);
      assert forall k :: 0 <= k < |rest| ==> rest[k] in rest;
      if createOk(lo) then [lo] + rest else rest
  }

  /** `__init__(size)`: `size` attempts; a failed creation is skipped, so
      the pool may start smaller than `size` but never larger. */
  function Init(size: nat, createOk: nat -> bool): (p: Pool)
    ensures Valid(p) && p.lent == 0 && p.capacity == size
    ensures forall h: nat :: (h in p.idle <==> h < size && createOk(h))
  {
    var hs := Created(0, size, createOk);
    assert forall k :: 0 <= k < |hs| ==> hs[k] in hs;
    Pool(hs, 0, size, size)
  }

  // ---------------------------------------------------------------------------
  // The plain queue (fragrantica/*.py)
  // ---------------------------------------------------------------------------

  datatype Taken = Taken(handle: Handle, pool: Pool) | Blocked

  /** `get`: the oldest handle; an empty queue blocks. */
  function Get(p: Pool): (r: Taken)
    ensures r.Blocked? <==> p.idle == []
    ensures r.Taken? ==> r.handle in p.idle && |r.pool.idle| + 1 == |p.idle| && Total(r.pool) == Total(p)
  {
    if p.idle == [] then Blocked
    else Taken(p.idle[0], p.(idle := p.idle[1..], lent := p.lent + 1))
  }

  /** `put`: appended at the back; a full queue blocks. */
  function Put(p: Pool, h: Handle): (r: Option<Pool>)
    ensures r.None? <==> |p.idle| >= p.capacity
    ensures r.Some? ==> r.value.idle == p.idle + [h] && r.value.capacity == p.capacity
  {
    if |p.idle| >= p.capacity then None
    else Some(p.(idle := p.idle + [h], lent := if p.lent > 0 then p.lent - 1 else 0))
  }

  /** Taking a handle and giving it back rotates the queue and keeps it valid. */
  lemma GetPutRotates(p: Pool)
    requires Valid(p) && p.idle != []
    ensures var t := Get(p);
            && Valid(t.pool)
            && Put(t.pool, t.handle) == Some(p.(idle := p.idle[1..] + [p.idle[0]]))
  {
    var t := Get(p);
    var q := p.idle[1..] + [p.idle[0]];
    forall i, j | 0 <= i < j < |q| ensures q[i] != q[j] {
      if j == |q| - 1 {
        assert q[i] == p.idle[i + 1];
      } else {
        assert q[i] == p.idle[i + 1] && q[j] == p.idle[j + 1];
      }
    }
  }

  /** While a worker holds a handle, giving one back never blocks. */
  lemma {:induction false} PutNeverBlocksWhenLent(p: Pool, h: Handle)
    requires Valid(p) && p.lent > 0
    ensures Put(p, h).Some?
    ensures h !in p.idle && h < p.next + 1 ==> Valid(Put(p, h).value.(next := p.next + 1))
  {
    var q := p.idle + [h];
    if h !in p.idle && h < p.next + 1 {
      forall i, j | 0 <= i < j < |q| ensures q[i] != q[j] {
        if j == |q| - 1 {
          assert q[i] in p.idle;
        }
      }
    }
  }

  // ---------------------------------------------------------------------------
  // The health-checked pool (main.py)
  // ---------------------------------------------------------------------------

  datatype Checked = CheckedOut(handle: Handle, pool: Pool) | CheckBlocked | CreateRaised(pool: Pool)

  /** `get`: the oldest handle if the probe finds it alive; otherwise it is
      quit and a new one is created, and a failed creation raises to the
      caller with the dead handle already gone. */
  function HealthyGet(p: Pool, alive: Handle -> bool, createOk: bool): (r: Checked)
    ensures r.CheckBlocked? <==> p.idle == []
    ensures p.idle != [] && alive(p.idle[0]) ==> r.CheckedOut? && r.handle == p.idle[0]
    ensures p.idle != [] && !alive(p.idle[0]) ==> (r.CheckedOut? <==> createOk) && (r.CheckedOut? ==> r.handle == p.next)
    ensures !r.CheckBlocked? ==> r.pool.idle == p.idle[1..] && r.pool.capacity == p.capacity
    ensures r.CheckedOut? ==> Total(r.pool) == Total(p)
    ensures r.CreateRaised? ==> Total(r.pool) + 1 == Total(p)
  {
    if p.idle == [] then CheckBlocked
    else
      var h := p.idle[0];
      var rest := p.(idle := p.idle[1..]);
      if alive(h) then CheckedOut(h, rest.(lent := p.lent + 1))
      else if createOk then CheckedOut(p.next, rest.(lent := p.lent + 1, next := p.next + 1))
      else CreateRaised(rest)
  }

  lemma HealthyGetKeepsValid(p: Pool, alive: Handle -> bool, createOk: bool)
    requires Valid(p)
    ensures var r := HealthyGet(p, alive, createOk);
            !r.CheckBlocked? ==> Valid(r.pool)
  {
    var r := HealthyGet(p, alive, createOk);
    if !r.CheckBlocked? {
      assert forall i :: 0 <= i < |r.pool.idle| ==> r.pool.idle[i] == p.idle[i + 1];
    }
  }

  datatype Returned = Returned(pool: Pool) | PutBlocked | PutRaised(pool: Pool)

  /** `put`: a live handle goes back; a dead one is quit and a new one goes
      back instead; a failed creation raises, and the handle is lost. */
  function HealthyPut(p: Pool, h: Handle, alive: Handle -> bool, createOk: bool): (r: Returned)
    ensures r.PutBlocked? <==> |p.idle| >= p.capacity && (alive(h) || createOk)
    ensures r.PutRaised? <==> !alive(h) && !createOk
    ensures r.Returned? ==> |r.pool.idle| == |p.idle| + 1 && r.pool.idle[..|p.idle|] == p.idle
    ensures r.Returned? ==> r.pool.idle[|p.idle|] == if alive(h) then h else p.next
    ensures !r.PutBlocked? ==> r.pool.capacity == p.capacity
    ensures r.PutRaised? ==> r.pool.idle == p.idle
  {
    if alive(h) then
      match Put(p, h)
      case None => PutBlocked
      case Some(q) => Returned(q)
    else if createOk then
      match Put(p, p.next)
      case None => PutBlocked
      case Some(q) => Returned(q.(next := p.next + 1))
    else PutRaised(p.(lent := if p.lent > 0 then p.lent - 1 else 0))
  }

  /** A worker's `put` of the handle it holds adds exactly one pooled handle,
      never blocks, and keeps the pool valid. */
  lemma HealthyPutAddsOne(p: Pool, h: Handle, alive: Handle -> bool, createOk: bool)
    requires Valid(p) && p.lent > 0 && h !in p.idle && h < p.next
    ensures var r := HealthyPut(p, h, alive, createOk);
            && !r.PutBlocked?
            && (r.Returned? ==> Valid(r.pool) && Total(r.pool) == Total(p))
            && (r.PutRaised? ==> Valid(r.pool) && Total(r.pool) + 1 == Total(p))
  {
    if alive(h) {
      PutNeverBlocksWhenLent(p, h);
      assert Put(p, h).value == Put(p, h).value.(next := p.next + 1).(next := p.next);
    } else if createOk {
      PutNeverBlocksWhenLent(p, p.next);
    }
  }

  // ---------------------------------------------------------------------------
  // Failure path and shutdown
  // ---------------------------------------------------------------------------

  /** A worker that failed quits its handle and puts a newly created one; if
      creation fails, nothing is put and the pool is one handle smaller. */
  function Replace(p: Pool, createOk: bool): (r: Option<Pool>)
    ensures r.Some? && !createOk ==> r.value.idle == p.idle && (p.lent > 0 ==> Total(r.value) + 1 == Total(p))
    ensures r.Some? && createOk ==> r.value.idle == p.idle + [p.next]
  {
    if createOk then
      match Put(p, p.next)
      case None => None
      case Some(q) => Some(q.(next := p.next + 1))
    else Some(p.(lent := if p.lent > 0 then p.lent - 1 else 0))
  }

  /** Replacement keeps the pool valid and never grows it; it shrinks by
      one exactly when creation fails. */
  lemma ReplaceShrinksOnlyOnFailure(p: Pool, createOk: bool)
    requires Valid(p) && p.lent > 0
    ensures Replace(p, createOk).Some?
    ensures var q := Replace(p, createOk).value;
            && Valid(q)
            && Total(q) == (if createOk then Total(p) else Total(p) - 1)
  {
    if createOk {
      PutNeverBlocksWhenLent(p, p.next);
    }
  }

  /** `close_all`: every pooled handle is quit and the queue is empty;
      handles held by workers are not reached. */
  function CloseAll(p: Pool): (r: (seq<Handle>, Pool))
    ensures r.0 == p.idle && r.1.idle == [] && r.1.lent == p.lent
  {
    (p.idle, p.(idle := []))
  }
}

=== FILE: product.dfy ===
/** The product-page rules: note lists, the all-empty fallback to the
    undivided "Fragrance Notes", Parfumo's gender icon, and the whole-page
    scroll that triggers lazy loading in fragrantica/main.py. */
module Product {
  import opened Wrappers
  import opened Text
  import Attempts

  const NoteSeparator := ", "

  // ---------------------------------------------------------------------------
  // Notes
  // ---------------------------------------------------------------------------

  /** `get_notes_by_type` in the Fragrantica scrapers: the note elements' texts, or
      `None` when the lookup raised; the stripped non-blank texts joined by
      ", ", and "" when there are none. */
  function FragranticaNotes(texts: Option<seq<String>>): (r: String)
    ensures r == [] <==> texts.None? || forall j :: 0 <= j < |texts.value| ==> Strip(texts.value[j]) == []
  {
    if texts.None? then []
    else
      var parts := NonBlank(texts.value);
      JoinEmptyIff(NoteSeparator, parts);
      Join(NoteSeparator, parts)
  }

  /** No note is lost: every non-blank note text occurs, stripped, in the list. */
  lemma FragranticaNotesKeepEach(texts: seq<String>, j: nat)
    requires j < |texts| && Strip(texts[j]) != []
    ensures exists i :: OccursAt(FragranticaNotes(Some(texts)), Strip(texts[j]), i)
  {
    var parts := NonBlank(texts);
    NonBlankKeeps(texts, j);
    var k :| 0 <= k < |parts| && parts[k] == Strip(texts[j]);
    JoinHasParts(NoteSeparator, parts, k);
    assert FragranticaNotes(Some(texts)) == Join(NoteSeparator, parts);
  }

  /** `get_notes` (main.py): the non-empty texts, unstripped, joined by ", ". */
  function ParfumoNotes(texts: seq<String>): (r: String)
    ensures r == [] <==> forall j :: 0 <= j < |texts| ==> texts[j] == []
  {
    var parts := NonEmpty(texts);
    JoinEmptyIff(NoteSeparator, parts);
    assert parts != [] ==> parts[0] in texts;
    Join(NoteSeparator, parts)
  }

  /** Where the undivided notes come from: the elements after the
      "Fragrance Notes" span, those after the "Fragrance Notes" heading
      (searched only when the first lookup found no element), or a lookup
      that raised. */
  datatype UndividedSource = UndividedSource(afterSpan: seq<String>, afterHeading: seq<String>) | UndividedRaised

  /** `get_undivided_notes` */
  function UndividedNotes(src: UndividedSource): (r: String)
    ensures src.UndividedRaised? ==> r == []
    ensures src.UndividedSource? && src.afterSpan != [] ==> r == FragranticaNotes(Some(src.afterSpan))
    ensures src.UndividedSource? && src.afterSpan == [] ==> r == FragranticaNotes(Some(src.afterHeading))
  {
    match src
    case UndividedRaised => []
    case UndividedSource(span, heading) =>
      Attempts.FirstOfTwo(span, heading);
      FragranticaNotes(Some(Attempts.FirstNonEmpty([span, heading])))
  }

  datatype Notes = Notes(top: String, middle: String, base: String)

  /** The middle notes are replaced by the undivided notes only when top,
      middle and base are all empty and the undivided notes are not. */
  function ChooseNotes(top: String, middle: String, base: String, undivided: String): (n: Notes)
    ensures n.top == top && n.base == base
    ensures n.middle != middle <==> top == [] && middle == [] && base == [] && undivided != []
    ensures n.middle == middle || n.middle == undivided
  {
    if top == [] && middle == [] && base == [] && undivided != [] then Notes(top, undivided, base)
    else Notes(top, middle, base)
  }

  // ---------------------------------------------------------------------------
  // Target gender on Parfumo (main.py)
  // ---------------------------------------------------------------------------

  const Unisex := "fa-venus-mars"

  /** The mapping as written: 'fa-mars', then 'fa-venus', then
      'fa-venus-mars'. */
  function TargetGenderAsWritten(iconClass: Option<String>): String
  {
    if iconClass.None? then "N/A"
    else if Contains(iconClass.value, "fa-mars") then "M"
    else if Contains(iconClass.value, "fa-venus") then "F"
    else if Contains(iconClass.value, Unisex) then "N"
    else "N/A"
  }

  lemma ContainsUnisexHasVenus(s: String)
    requires Contains(s, Unisex)
    ensures Contains(s, "fa-venus")
  {
    ContainsIff(s, Unisex);
    ContainsIff(s, "fa-venus");
    var i :| OccursAt(s, Unisex, i);
    assert s[i..i + 8] == s[i..i + |Unisex|][..8];
    assert OccursAt(s, "fa-venus", i);
  }

  /** 'fa-venus' occurs inside 'fa-venus-mars', so the third branch is dead:
      no icon class is ever mapped to "N", and the unisex icon reads "F". */
  lemma {:induction false} UnisexIsUnreachable(iconClass: Option<String>)
    ensures TargetGenderAsWritten(iconClass) != "N"
    ensures TargetGenderAsWritten(Some(Unisex)) == "F"
  {
    if iconClass.Some? && Contains(iconClass.value, Unisex) {
      ContainsUnisexHasVenus(iconClass.value);
    }
    UnisexMarks();
  }

  /** The unisex icon class names the venus icon and not the mars icon. */
  lemma UnisexMarks()
    ensures Contains(Unisex, "fa-venus") && !Contains(Unisex, "fa-mars")
  {
    assert Unisex[..8] == "fa-venus";
    UnisexHasNoMars();
  }

  lemma UnisexHasNoMars()
    ensures !Contains(Unisex, "fa-mars")
  {
    ContainsIff(Unisex, "fa-mars");
    forall i | 0 <= i <= |Unisex| - 7 ensures !OccursAt(Unisex, "fa-mars", i) {
      NotMarsAt(i);
    }
  }

  lemma NotMarsAt(i: nat)
    requires i <= |Unisex| - 7
    ensures Unisex[i..i + 7] != "fa-mars"
  {
    var w := Unisex[i..i + 7];
    if i == 0 { assert w[5] == 'n'; }
    else { assert w[0] == Unisex[i] != 'f'; }
  }

  /** The mapping the branches evidently intend: the unisex icon is checked
      first, so it maps to "N". */
  function TargetGender(iconClass: Option<String>): (r: String)
    ensures r == "N" <==> iconClass.Some? && Contains(iconClass.value, Unisex)
    ensures iconClass.Some? && !Contains(iconClass.value, Unisex) ==> r == TargetGenderAsWritten(iconClass)
  {
    if iconClass.None? then "N/A"
    else if Contains(iconClass.value, Unisex) then "N"
    else if Contains(iconClass.value, "fa-mars") then "M"
    else if Contains(iconClass.value, "fa-venus") then "F"
    else "N/A"
  }

  lemma UnisexReadsN()
    ensures TargetGender(Some(Unisex)) == "N"
  {
    assert Unisex[..|Unisex|] == Unisex;
  }

  // ---------------------------------------------------------------------------
  // Whole-page scroll (fragrantica/main.py)
  // ---------------------------------------------------------------------------

  const ScrollStep := 800

  /** The page height known after `n` steps: the first height, raised
      whenever a step observes a larger one. */
  function KnownHeight(first: nat, heights: nat -> nat, n: nat): nat
  {
    if n == 0 then first
    else
      var prev := KnownHeight(first, heights, n - 1);
      if heights(n - 1) > prev then heights(n - 1) else prev
  }

  /** `while scroll_position < last_height`: `heights(k)` is the height read
      after step `k`. The page is finite, so heights are bounded. */
  method ScrollWholePage(first: nat, heights: nat -> nat, bound: nat) returns (position: nat, steps: nat)
    requires forall k :: heights(k) <= bound
    ensures position == ScrollStep * steps
    ensures position >= KnownHeight(first, heights, steps)
    ensures forall n :: 0 <= n < steps ==> ScrollStep * n < KnownHeight(first, heights, n)
  {
    position := 0;
    steps := 0;
    var lastHeight := first;
    var ceiling := if first > bound then first else bound;
    while position < lastHeight
      invariant position == ScrollStep * steps
      invariant lastHeight == KnownHeight(first, heights, steps) <= ceiling
      invariant forall n :: 0 <= n < steps ==> ScrollStep * n < KnownHeight(first, heights, n)
      decreases ceiling - position
    {
      position := position + ScrollStep;
      var newHeight := heights(steps);
      if newHeight > lastHeight {
        lastHeight := newHeight;
      }
      steps := steps + 1;
    }
  }

  /** The known height never decreases. */
  lemma {:induction false} KnownHeightGrows(first: nat, heights: nat -> nat, n: nat, m: nat)
    requires n <= m
    ensures first <= KnownHeight(first, heights, n) <= KnownHeight(first, heights, m)
    decreases m
  {
    if n < m {
      KnownHeightGrows(first, heights, n, m - 1);
    } else if n > 0 {
      KnownHeightGrows(first, heights, n - 1, n - 1);
    }
  }

  /** A page that never grows takes ceil(height / 800) steps. */
  lemma StaticPageSteps(first: nat, heights: nat -> nat, steps: nat)
    requires forall k :: heights(k) <= first
    requires ScrollStep * steps >= KnownHeight(first, heights, steps)
    requires forall n :: 0 <= n < steps ==> ScrollStep * n < KnownHeight(first, heights, n)
    ensures steps == (first + ScrollStep - 1) / ScrollStep
  {
    assert forall n :: KnownHeight(first, heights, n) == first by {
      forall n ensures KnownHeight(first, heights, n) == first { Static(first, heights, n); }
    }
    if steps > 0 {
      assert ScrollStep * (steps - 1) < first;
    }
  }

  lemma {:induction false} Static(first: nat, heights: nat -> nat, n: nat)
    requires forall k :: heights(k) <= first
    ensures KnownHeight(first, heights, n) == first
  {
    if n > 0 {
      Static(first, heights, n - 1);
    }
  }
}

=== FILE: reviews.dfy ===
/** Review collection on Fragrantica product pages as `scrape_reviews` does it
    in fragrantica/main.py and fragrantica/sub.py: re-fetch until the page is
    not throttled, check for a review section, let the page load every review,
    then read each review box and keep the first occurrence of every
    (reviewer, date, first 50 characters) identity whose content is non-empty. */
module Reviews {
  import opened Wrappers
  import opened Text
  import Attempts
  import Throttle
  import Dedup

  /** A row of the review file. */
  datatype Review = Review(productName: String, content: String, date: String, reviewer: String)

  /** The duplicate key of a review box. */
  datatype Identity = Identity(reviewer: String, date: String, prefix: String)

  /** Length of the content prefix in the identity (20 in fragrantica/mainfunc.py). */
  const PrefixLength := 50

  function IdentityOf(r: Review): Identity
  {
    Identity(r.reviewer, r.date, Take(r.content, PrefixLength))
  }

  // ---------------------------------------------------------------------------
  // Paragraph text
  // ---------------------------------------------------------------------------

  /** The paragraphs' stripped texts joined by one space, blanks dropped. */
  function ParagraphText(ps: seq<String>): (r: String)
    ensures r == [] <==> forall j :: 0 <= j < |ps| ==> Strip(ps[j]) == []
  {
    var parts := NonBlank(ps);
    JoinEmptyIff(" ", parts);
    Join(" ", parts)
  }

  // ---------------------------------------------------------------------------
  // First-occurrence selection of read reviews
  // ---------------------------------------------------------------------------

  function ClaimsAll(r: Review): bool { true }
  function HasContent(r: Review): bool { r.content != [] }

  /** Positions of the boxes whose review is recorded. */
  function KeptAt(rs: seq<Review>): (idx: seq<nat>)
    ensures forall k :: 0 <= k < |idx| ==> idx[k] < |rs|
    ensures Dedup.Increasing(idx)
  {
    Dedup.PickIncreasing(rs, ClaimsAll, IdentityOf, HasContent, {});
    Dedup.Pick(rs, ClaimsAll, IdentityOf, HasContent, {}).indices
  }

  /** The reviews recorded from the boxes read in page order. */
  function Keep(rs: seq<Review>): (out: seq<Review>)
    ensures |out| == |KeptAt(rs)|
    ensures forall k :: 0 <= k < |out| ==> out[k] == rs[KeptAt(rs)[k]]
  {
    Dedup.Records(rs, KeptAt(rs), (r: Review) => r)
  }

  /** Box `i` is recorded exactly when its content is non-empty and no
      earlier box had the same identity (an empty box still claims one). */
  lemma KeptAtMeaning(rs: seq<Review>, i: nat)
    requires i < |rs|
    ensures i in KeptAt(rs) <==> rs[i].content != [] && forall l :: 0 <= l < i ==> IdentityOf(rs[l]) != IdentityOf(rs[i])
  {
    Dedup.PickMeaning(rs, ClaimsAll, IdentityOf, HasContent, {}, i);
  }

  /** What is recorded has content and pairwise distinct identities. */
  lemma KeepSound(rs: seq<Review>)
    ensures var out := Keep(rs);
            && (forall k :: 0 <= k < |out| ==> out[k].content != [])
            && (forall k, l :: 0 <= k < l < |out| ==> IdentityOf(out[k]) != IdentityOf(out[l]))
  {
    var idx := KeptAt(rs);
    forall k | 0 <= k < |idx| ensures rs[idx[k]].content != [] {
      KeptAtMeaning(rs, idx[k]);
    }
    Dedup.PickedDistinct(rs, ClaimsAll, IdentityOf, HasContent, {});
    var out := Keep(rs);
    forall k, l | 0 <= k < l < |out| ensures IdentityOf(out[k]) != IdentityOf(out[l]) {
      assert out[k] == rs[idx[k]] && out[l] == rs[idx[l]];
      assert idx == Dedup.Pick(rs, ClaimsAll, IdentityOf, HasContent, {}).indices;
    }
  }

  /** The earliest box carrying an identity. */
  lemma FirstWithIdentity(rs: seq<Review>, i: nat) returns (j: nat)
    requires i < |rs|
    ensures j <= i && IdentityOf(rs[j]) == IdentityOf(rs[i])
    ensures forall l :: 0 <= l < j ==> IdentityOf(rs[l]) != IdentityOf(rs[i])
    decreases i
  {
    if l :| 0 <= l < i && IdentityOf(rs[l]) == IdentityOf(rs[i]) {
      j := FirstWithIdentity(rs, l);
    } else {
      j := i;
    }
  }

  /** Every box with content is represented by a recorded review with the
      same identity: duplicates are dropped, never whole identities. */
  lemma {:induction false} KeepComplete(rs: seq<Review>, i: nat)
    requires i < |rs| && rs[i].content != []
    ensures exists k :: 0 <= k < |Keep(rs)| && IdentityOf(Keep(rs)[k]) == IdentityOf(rs[i])
  {
    var j := FirstWithIdentity(rs, i);
    assert Take(rs[j].content, PrefixLength) == Take(rs[i].content, PrefixLength);
    assert |Take(rs[i].content, PrefixLength)| > 0;
    KeptAtMeaning(rs, j);
    var idx := KeptAt(rs);
    var k :| 0 <= k < |idx| && idx[k] == j;
    assert Keep(rs)[k] == rs[j];
  }

  // ---------------------------------------------------------------------------
  // Loading every review: poll the box count until five polls in a row fail
  // to exceed the best count seen
  // ---------------------------------------------------------------------------

  const MaxNoChange := 5

  /** The best count among the first `n` polls (0 before any poll). */
  function RunMax(counts: nat -> nat, n: nat): nat
  {
    if n == 0 then 0
    else
      var prev := RunMax(counts, n - 1);
      if counts(n - 1) > prev then counts(n - 1) else prev
  }

  /** The running maximum bounds every poll so far and is one of them. */
  lemma {:induction false} RunMaxMeaning(counts: nat -> nat, n: nat)
    ensures forall j :: 0 <= j < n ==> counts(j) <= RunMax(counts, n)
    ensures n > 0 ==> exists j :: 0 <= j < n && counts(j) == RunMax(counts, n)
    ensures n == 0 ==> RunMax(counts, n) == 0
  {
    if n > 0 {
      RunMaxMeaning(counts, n - 1);
    }
  }

  /** How many polls since the best count last grew, after `n` polls. */
  function Streak(counts: nat -> nat, n: nat): nat
  {
    if n == 0 then 0
    else if counts(n - 1) > RunMax(counts, n - 1) then 0
    else Streak(counts, n - 1) + 1
  }

  /** The `while no_change_count < 5` loop. The page holds finitely many
      reviews, so every count is at most `bound`. Returns the best count
      and the number of polls made. */
  method LoadAllReviews(counts: nat -> nat, bound: nat) returns (loaded: nat, polls: nat)
    requires forall j :: counts(j) <= bound
    ensures loaded == RunMax(counts, polls)
    ensures Streak(counts, polls) == MaxNoChange
    ensures forall n :: 0 <= n < polls ==> Streak(counts, n) < MaxNoChange
  {
    loaded := 0;
    polls := 0;
    var noChange := 0;
    while noChange < MaxNoChange
      invariant loaded == RunMax(counts, polls) && loaded <= bound
      invariant noChange == Streak(counts, polls) <= MaxNoChange
      invariant forall n :: 0 <= n < polls ==> Streak(counts, n) < MaxNoChange
      decreases bound - loaded, MaxNoChange - noChange
    {
      var current := counts(polls);
      if current > loaded {
        assert current <= bound;
        loaded := current;
        noChange := 0;
      } else {
        noChange := noChange + 1;
      }
      polls := polls + 1;
    }
  }

  /** Poll `j` did not exceed the best count before it. */
  predicate Stalled(counts: nat -> nat, j: nat)
  {
    counts(j) <= RunMax(counts, j)
  }

  /** The streak counts exactly the trailing polls that stalled. */
  lemma {:induction false} StreakMeaning(counts: nat -> nat, n: nat, s: nat)
    requires s <= n
    ensures Streak(counts, n) >= s <==> forall j :: n - s <= j < n ==> Stalled(counts, j)
  {
    if s > 0 {
      StreakMeaning(counts, n - 1, s - 1);
      if Stalled(counts, n - 1) {
        assert Streak(counts, n) == Streak(counts, n - 1) + 1;
      } else {
        assert Streak(counts, n) == 0;
      }
    }
  }

  // ---------------------------------------------------------------------------
  // Selector fallbacks
  // ---------------------------------------------------------------------------

  /** Every review box read in page order. */
  function ReadAll<B>(product: String, boxes: seq<B>, read: (String, B) -> Review): (rs: seq<Review>)
    ensures |rs| == |boxes|
    ensures forall i :: 0 <= i < |boxes| ==> rs[i] == read(product, boxes[i])
  {
    seq(|boxes|, i requires 0 <= i < |boxes| => read(product, boxes[i]))
  }

  // ---------------------------------------------------------------------------
  // fragrantica/main.py
  // ---------------------------------------------------------------------------

  /** What a review box offers: the reviewer meta's content attribute, the
      publication span's text and the review body's paragraphs, each absent
      when its element is missing. */
  datatype FragranticaBox = FragranticaBox(nameMeta: Option<String>, dateSpan: Option<String>, body: Option<seq<String>>)

  function ReadFragrantica(product: String, b: FragranticaBox): Review
  {
    Review(product,
      if b.body.Some? then ParagraphText(b.body.value) else [],
      if b.dateSpan.Some? then Strip(b.dateSpan.value) else "NA",
      b.nameMeta.GetOr("Guest"))
  }

  /** One visit to `url#all-reviews`: the page source of each fetch, whether
      the section exists, the box count before loading, and the boxes after
      loading; or an exception somewhere outside a box. */
  datatype ReviewPage = ReviewPage(fetches: nat -> Throttle.PageSource, sectionExists: bool, boxCount: nat, boxes: seq<FragranticaBox>)
                      | PageRaised

  predicate Proceeds(maxAttempts: nat, fetches: nat -> Throttle.PageSource)
  {
    Throttle.RefetchUntilClear(maxAttempts, fetches).Proceed?
  }

  function FragranticaReviews(product: String, page: ReviewPage): (r: seq<Review>)
    ensures forall k :: 0 <= k < |r| ==> r[k].productName == product
  {
    match page
    case PageRaised => []
    case ReviewPage(fetches, section, count, boxes) =>
      if !Proceeds(Throttle.FragranticaAttempts, fetches) then []
      else if !section || count == 0 then []
      else Keep(ReadAll(product, boxes, ReadFragrantica))
  }

  /** Nothing is recorded unless some fetch among the first 30 was not
      throttled, the section exists and the first count found boxes; then the
      reviews are the boxes' first occurrences with content. */
  lemma FragranticaReviewsMeaning(product: String, page: ReviewPage)
    ensures var r := FragranticaReviews(product, page);
            r != [] ==> && page.ReviewPage?
                        && (exists j :: 0 <= j < Throttle.FragranticaAttempts && !Throttle.IsRateLimited(page.fetches(j)))
                        && page.sectionExists && page.boxCount > 0
                        && (forall k :: 0 <= k < |r| ==> r[k].content != [] && exists i :: 0 <= i < |page.boxes| && r[k] == ReadFragrantica(product, page.boxes[i]))
                        && (forall k, l :: 0 <= k < l < |r| ==> IdentityOf(r[k]) != IdentityOf(r[l]))
  {
    var r := FragranticaReviews(product, page);
    if r != [] {
      var rs := ReadAll(product, page.boxes, ReadFragrantica);
      KeepSound(rs);
      assert r == Keep(rs);
      forall k | 0 <= k < |r| ensures exists i :: 0 <= i < |page.boxes| && r[k] == ReadFragrantica(product, page.boxes[i]) {
        assert r[k] == rs[KeptAt(rs)[k]];
      }
    }
  }

  /** When the page proceeds, every box with content has its identity among
      the recorded reviews. */
  lemma FragranticaReviewsComplete(product: String, page: ReviewPage, i: nat)
    requires page.ReviewPage? && Proceeds(Throttle.FragranticaAttempts, page.fetches)
    requires page.sectionExists && page.boxCount > 0
    requires i < |page.boxes| && ReadFragrantica(product, page.boxes[i]).content != []
    ensures exists k :: 0 <= k < |FragranticaReviews(product, page)|
                        && IdentityOf(FragranticaReviews(product, page)[k]) == IdentityOf(ReadFragrantica(product, page.boxes[i]))
  {
    var rs := ReadAll(product, page.boxes, ReadFragrantica);
    assert FragranticaReviews(product, page) == Keep(rs);
    KeepComplete(rs, i);
  }

  // ---------------------------------------------------------------------------
  // fragrantica/sub.py
  // ---------------------------------------------------------------------------

  /** The review body: missing, readable paragraphs, or present but with
      paragraphs that could not be read (its own text is then used). */
  datatype SubBody = NoBody | Paragraphs(ps: seq<String>) | ParagraphsUnreadable(text: String)

  datatype SubBox = SubBox(
    nameMeta: Option<String>, memberLink: Option<String>,
    dateSpan: Option<String>, dateMeta: Option<String>,
    body: SubBody, wholeText: String)

  /** Meta content, else the member link's stripped text, else "Guest". */
  function SubName(b: SubBox): String
  {
    if b.nameMeta.Some? then b.nameMeta.value
    else if b.memberLink.Some? then Strip(b.memberLink.value)
    else "Guest"
  }

  /** The span's stripped text, else the meta's content, else "NA". */
  function SubDate(b: SubBox): String
  {
    if b.dateSpan.Some? then Strip(b.dateSpan.value)
    else if b.dateMeta.Some? then b.dateMeta.value
    else "NA"
  }

  /** Joined paragraphs, else the body's stripped text, else the whole box's. */
  function SubContent(b: SubBox): String
  {
    match b.body
    case Paragraphs(ps) => ParagraphText(ps)
    case ParagraphsUnreadable(t) => Strip(t)
    case NoBody => Strip(b.wholeText)
  }

  function ReadSub(product: String, b: SubBox): Review
  {
    Review(product, SubContent(b), SubDate(b), SubName(b))
  }

  /** One visit: page sources per fetch; whether the section script found
      any of its four selectors; how many primary boxes the direct search
      found; the primary and `review-box` class counts of the count script;
      and the boxes of the three extraction selectors. */
  datatype SubPage = SubPage(
    fetches: nat -> Throttle.PageSource,
    sectionByScript: bool, containersFound: nat,
    primaryCount: nat, reviewBoxClassCount: nat,
    primaryBoxes: seq<SubBox>, itempropBoxes: seq<SubBox>, classBoxes: seq<SubBox>)
    | SubRaised

  /** The count script falls back to the `review-box` class only; the later
      alternatives of its `||` chain are never reached, because a node list
      is always truthy in JavaScript. */
  function SubCount(page: SubPage): nat
    requires page.SubPage?
  {
    if page.primaryCount == 0 then page.reviewBoxClassCount else page.primaryCount
  }

  function SubBoxes(page: SubPage): seq<SubBox>
    requires page.SubPage?
  {
    Attempts.FirstNonEmpty([page.primaryBoxes, page.itempropBoxes, page.classBoxes])
  }

  function SubReviews(product: String, page: SubPage): (r: seq<Review>)
    ensures forall k :: 0 <= k < |r| ==> r[k].productName == product
  {
    match page
    case SubRaised => []
    case SubPage(fetches, _, _, _, _, _, _, _) =>
      if !Proceeds(Throttle.SubAttempts, fetches) then []
      else if !page.sectionByScript && page.containersFound == 0 then []
      else if SubCount(page) == 0 then []
      else Keep(ReadAll(product, SubBoxes(page), ReadSub))
  }

  /** Nothing is recorded unless one of the first three fetches was not
      throttled, some section or box was found and a count was positive; the
      reviews come from the first selector that matched any box, their fields
      follow the fallback chains, and their identities are distinct. */
  lemma SubReviewsMeaning(product: String, page: SubPage)
    ensures var r := SubReviews(product, page);
            r != [] ==> && page.SubPage?
                        && (exists j :: 0 <= j < Throttle.SubAttempts && !Throttle.IsRateLimited(page.fetches(j)))
                        && (page.sectionByScript || page.containersFound > 0)
                        && (page.primaryCount > 0 || page.reviewBoxClassCount > 0)
                        && (page.primaryBoxes != [] ==> SubBoxes(page) == page.primaryBoxes)
                        && (forall k :: 0 <= k < |r| ==>
                              (r[k].content != [] &&
                               exists i :: 0 <= i < |SubBoxes(page)| &&
                                 r[k] == Review(product, SubContent(SubBoxes(page)[i]), SubDate(SubBoxes(page)[i]), SubName(SubBoxes(page)[i]))))
                        && (forall k, l :: 0 <= k < l < |r| ==> IdentityOf(r[k]) != IdentityOf(r[l]))
  {
    var r := SubReviews(product, page);
    if r != [] {
      var rs := ReadAll(product, SubBoxes(page), ReadSub);
      KeepSound(rs);
      assert r == Keep(rs);
      forall k | 0 <= k < |r| ensures exists i :: 0 <= i < |SubBoxes(page)| && r[k] == ReadSub(product, SubBoxes(page)[i]) {
        assert r[k] == rs[KeptAt(rs)[k]];
      }
    }
  }

  /** A box whose body is missing contributes its whole stripped text, so a
      non-blank box is never lost for want of a body. */
  lemma SubWholeTextFallback(product: String, page: SubPage, i: nat)
    requires page.SubPage? && Proceeds(Throttle.SubAttempts, page.fetches)
    requires page.sectionByScript || page.containersFound > 0
    requires SubCount(page) > 0
    requires i < |SubBoxes(page)| && SubBoxes(page)[i].body.NoBody? && Strip(SubBoxes(page)[i].wholeText) != []
    ensures exists k :: 0 <= k < |SubReviews(product, page)|
                        && IdentityOf(SubReviews(product, page)[k]) == IdentityOf(ReadSub(product, SubBoxes(page)[i]))
  {
    var rs := ReadAll(product, SubBoxes(page), ReadSub);
    assert SubReviews(product, page) == Keep(rs);
    KeepComplete(rs, i);
  }
}

=== FILE: text.dfy ===
/** The string rules the scrapers rely on, written against Python's `str`
    semantics: `strip`, `lower`, `in`, `startswith`, slicing, `join` and
    `split('/')[-1]`. */
module Text {

  type String = seq<char>

  /** Python's `str.isspace` for a single code point (the characters
      `str.strip()` removes). */
  predicate IsSpace(c: char)
  {
    var n := c as int;
    (9 <= n <= 13) || (28 <= n <= 32) || n == 0x85 || n == 0xA0 || n == 0x1680
    || (0x2000 <= n <= 0x200A) || n == 0x2028 || n == 0x2029 || n == 0x202F
    || n == 0x205F || n == 0x3000
  }

  /** `s.lstrip()` */
  function StripLeft(s: String): (r: String)
    ensures |r| <= |s| && r == s[|s| - |r|..]
    ensures forall i :: 0 <= i < |s| - |r| ==> IsSpace(s[i])
    ensures |r| > 0 ==> !IsSpace(r[0])
  {
    if |s| > 0 && IsSpace(s[0]) then
      var r := StripLeft(s[1..]);
      DropOneMore(s, r, IsSpace);
      r
    else s
  }

  /** A suffix of `s[1..]` preceded only by `p`-characters there is a suffix
      of `s` preceded only by `p`-characters when `p(s[0])` holds. */
  lemma DropOneMore<T>(s: seq<T>, r: seq<T>, p: T -> bool)
    requires |s| > 0 && p(s[0])
    requires |r| <= |s| - 1 && r == s[1..][|s| - 1 - |r|..]
    requires forall i :: 0 <= i < |s| - 1 - |r| ==> p(s[1..][i])
    ensures r == s[|s| - |r|..]
    ensures forall i :: 0 <= i < |s| - |r| ==> p(s[i])
  {
    assert forall i :: 0 < i < |s| ==> s[1..][i - 1] == s[i];
  }

  /** `s.rstrip()` */
  function StripRight(s: String): (r: String)
    ensures |r| <= |s| && r == s[..|r|]
    ensures forall i :: |r| <= i < |s| ==> IsSpace(s[i])
    ensures |r| > 0 ==> !IsSpace(r[|r| - 1])
  {
    if |s| > 0 && IsSpace(s[|s| - 1]) then StripRight(s[..|s| - 1]) else s
  }

  /** `r` is `s` with the first `a` characters and everything after `a + |r|`
      cut off, and only whitespace was cut. */
  predicate TrimmedAt(s: String, r: String, a: int)
  {
    0 <= a <= |s| - |r| && r == s[a..a + |r|]
    && (forall i :: 0 <= i < a ==> IsSpace(s[i]))
    && (forall i :: a + |r| <= i < |s| ==> IsSpace(s[i]))
  }

  /** `s.strip()`: the longest slice of `s` that neither starts nor ends in
      whitespace; everything cut off is whitespace. */
  function Strip(s: String): (r: String)
    ensures |r| <= |s|
    ensures |r| > 0 ==> !IsSpace(r[0]) && !IsSpace(r[|r| - 1])
  {
    StripRight(StripLeft(s))
  }

  /** What `strip` cuts off is whitespace at both ends and nothing else. */
  lemma StripMeaning(s: String)
    ensures exists a :: TrimmedAt(s, Strip(s), a)
  {
    var l := StripLeft(s);
    var a := |s| - |l|;
    TrimmedCompose(s, l, StripRight(l), a);
    assert TrimmedAt(s, Strip(s), a);
  }

  /** Cutting whitespace off the front and then off the back of what is left
      cuts only whitespace. */
  lemma TrimmedCompose(s: String, l: String, r: String, a: int)
    requires 0 <= a <= |s| && l == s[a..] && forall i :: 0 <= i < a ==> IsSpace(s[i])
    requires |r| <= |l| && r == l[..|r|] && forall i :: |r| <= i < |l| ==> IsSpace(l[i])
    ensures TrimmedAt(s, r, a)
  {
    forall i | a + |r| <= i < |s| ensures IsSpace(s[i]) {
      assert s[i] == l[i - a];
    }
  }

  /** A string of whitespace strips to nothing. */
  lemma StripBlank(s: String)
    requires forall i :: 0 <= i < |s| ==> IsSpace(s[i])
    ensures Strip(s) == []
  {
    StripMeaning(s);
  }

  /** A string that neither starts nor ends in whitespace is left alone. */
  lemma StripClean(s: String)
    requires |s| > 0 ==> !IsSpace(s[0]) && !IsSpace(s[|s| - 1])
    ensures Strip(s) == s
  {
    assert StripLeft(s) == s;
    assert StripRight(s) == s;
  }

  /** Stripping twice is stripping once. */
  lemma StripIdempotent(s: String)
    ensures Strip(Strip(s)) == Strip(s)
  {
    StripClean(Strip(s));
  }

  /** Python's `str.lower` restricted to ASCII letters. */
  function LowerChar(c: char): char
  {
    if 'A' <= c <= 'Z' then (c as int + 32) as char else c
  }

  function Lower(s: String): (r: String)
    ensures |r| == |s|
    ensures forall i :: 0 <= i < |s| ==> r[i] == LowerChar(s[i])
  {
    seq(|s|, i requires 0 <= i < |s| => LowerChar(s[i]))
  }

  /** `k` occurs in `s` starting at position `i`. */
  predicate OccursAt(s: String, k: String, i: int)
  {
    0 <= i && i + |k| <= |s| && s[i..i + |k|] == k
  }

  /** Python's `k in s` for strings, by scanning. */
  predicate Contains(s: String, k: String)
    decreases |s|
  {
    |k| <= |s| && (s[..|k|] == k || Contains(s[1..], k))
  }

  /** The scan finds `k` exactly when some position holds an occurrence. */
  lemma {:induction false} ContainsIff(s: String, k: String)
    ensures Contains(s, k) <==> exists i :: OccursAt(s, k, i)
    decreases |s|
  {
    if |k| <= |s| {
      if s[..|k|] == k {
        assert OccursAt(s, k, 0);
      } else {
        ContainsIff(s[1..], k);
        forall i | OccursAt(s, k, i)
          ensures OccursAt(s[1..], k, i - 1)
        {
          assert i != 0;
          assert s[1..][i - 1..i - 1 + |k|] == s[i..i + |k|];
        }
        forall j | OccursAt(s[1..], k, j)
          ensures OccursAt(s, k, j + 1)
        {
          assert s[1..][j..j + |k|] == s[j + 1..j + 1 + |k|];
        }
      }
    } else {
      assert forall i :: !OccursAt(s, k, i);
    }
  }

  /** `s.startswith(p)` */
  predicate StartsWith(s: String, p: String)
  {
    |p| <= |s| && s[..|p|] == p
  }

  /** `s[:n]`: the first `n` characters, or all of `s` when it is shorter. */
  function Take(s: String, n: nat): (r: String)
    ensures |r| <= n && |r| <= |s|
    ensures r == s[..|r|]
    ensures |s| <= n ==> r == s
    ensures |s| > n ==> |r| == n
  {
    if |s| <= n then s else s[..n]
  }

  /** `sep.join(parts)` */
  function Join(sep: String, parts: seq<String>): (r: String)
    ensures |parts| == 0 ==> r == []
    ensures |parts| == 1 ==> r == parts[0]
    decreases |parts|
  {
    if |parts| == 0 then []
    else if |parts| == 1 then parts[0]
    else parts[0] + sep + Join(sep, parts[1..])
  }

  /** Joining non-empty parts gives a non-empty string, and joining nothing
      gives the empty string: the emptiness test the callers rely on. */
  lemma {:induction false} JoinEmptyIff(sep: String, parts: seq<String>)
    requires forall i :: 0 <= i < |parts| ==> parts[i] != []
    ensures Join(sep, parts) == [] <==> |parts| == 0
    decreases |parts|
  {
    if |parts| > 1 {
      assert |Join(sep, parts)| >= |parts[0]| > 0;
    }
  }

  /** Every part occurs in the joined string. */
  lemma {:induction false} JoinHasParts(sep: String, parts: seq<String>, k: nat)
    requires k < |parts|
    ensures exists i :: OccursAt(Join(sep, parts), parts[k], i)
    decreases |parts|
  {
    var r := Join(sep, parts);
    if |parts| == 1 {
      assert OccursAt(r, parts[k], 0);
    } else if k == 0 {
      assert r[..|parts[0]|] == parts[0];
      assert OccursAt(r, parts[k], 0);
    } else {
      JoinHasParts(sep, parts[1..], k - 1);
      var rest := Join(sep, parts[1..]);
      assert parts[1..][k - 1] == parts[k];
      var i :| OccursAt(rest, parts[k], i);
      assert r == (parts[0] + sep) + rest;
      OccursShift(parts[0] + sep, rest, parts[k], i);
    }
  }

  /** An occurrence in `rest` is an occurrence in `pre + rest`, shifted. */
  lemma OccursShift(pre: String, rest: String, k: String, i: int)
    requires OccursAt(rest, k, i)
    ensures OccursAt(pre + rest, k, |pre| + i)
  {
    assert (pre + rest)[|pre| + i..|pre| + i + |k|] == rest[i..i + |k|];
  }

  /** Every text, stripped. */
  function Stripped(ps: seq<String>): (r: seq<String>)
    ensures |r| == |ps| && forall j :: 0 <= j < |ps| ==> r[j] == Strip(ps[j])
  {
    if |ps| == 0 then [] else [Strip(ps[0])] + Stripped(ps[1..])
  }

  predicate AllBlank(ps: seq<String>)
  {
    forall j :: 0 <= j < |ps| ==> Strip(ps[j]) == []
  }

  /** The stripped paragraph texts that are not blank, in order. */
  function NonBlank(ps: seq<String>): (r: seq<String>)
    ensures |r| <= |ps|
    ensures forall k :: 0 <= k < |r| ==> r[k] != []
    ensures r == [] <==> AllBlank(ps)
  {
    var r := NonEmpty(Stripped(ps));
    assert r != [] ==> r[0] in Stripped(ps);
    r
  }

  /** One unfolding of NonBlank. */
  lemma NonBlankStep(ps: seq<String>)
    requires |ps| > 0
    ensures NonBlank(ps) == (if Strip(ps[0]) == [] then [] else [Strip(ps[0])]) + NonBlank(ps[1..])
  {
    var t := Stripped(ps);
    assert t == [Strip(ps[0])] + Stripped(ps[1..]);
    assert t[1..] == Stripped(ps[1..]);
    NonEmptyStep(t);
  }

  lemma NonEmptyStep(ps: seq<String>)
    requires |ps| > 0
    ensures NonEmpty(ps) == (if ps[0] == [] then [] else [ps[0]]) + NonEmpty(ps[1..])
  {
  }

  /** NonBlank keeps every non-blank text, stripped. */
  lemma NonBlankKeeps(ps: seq<String>, j: nat)
    requires j < |ps| && Strip(ps[j]) != []
    ensures Strip(ps[j]) in NonBlank(ps)
  {
    assert Stripped(ps)[j] == Strip(ps[j]);
  }

  /** NonBlank adds nothing but stripped texts. */
  lemma NonBlankOnly(ps: seq<String>, x: String)
    requires x in NonBlank(ps)
    ensures exists j :: 0 <= j < |ps| && x == Strip(ps[j])
  {
    assert x in Stripped(ps);
  }

  /** The non-empty texts, in order (no stripping). */
  function NonEmpty(ps: seq<String>): (r: seq<String>)
    ensures |r| <= |ps|
    ensures forall k :: 0 <= k < |r| ==> r[k] != []
    ensures forall j :: 0 <= j < |ps| && ps[j] != [] ==> ps[j] in r
    ensures forall x :: x in r ==> x in ps
  {
    if |ps| == 0 then []
    else
      var rest := NonEmpty(ps[1..]);
      assert forall j :: 1 <= j < |ps| ==> ps[1..][j - 1] == ps[j];
      if ps[0] == [] then rest else [ps[0]] + rest
  }

  /** `url.split('/')[-1]`: the text after the last '/', or all of `s` when
      it has none. */
  function LastSegment(s: String): (r: String)
    ensures |r| <= |s| && r == s[|s| - |r|..]
    ensures '/' !in r
    ensures |r| < |s| ==> s[|s| - |r| - 1] == '/'
    decreases |s|
  {
    if |s| == 0 || s[|s| - 1] == '/' then []
    else LastSegment(s[..|s| - 1]) + [s[|s| - 1]]
  }

  /** Python's `\d` restricted to ASCII digits. */
  predicate IsDigit(c: char)
  {
    '0' <= c <= '9'
  }
}

=== FILE: throttle.dfy ===
/** Throttle detection (`is_rate_limited_page`) and the bounded re-fetch
    loop around the review page in the two Fragrantica review scrapers. */
module Throttle {
  import opened Wrappers
  import opened Text
  import Attempts

  /** The throttling signatures, matched against the lower-cased page. */
  const Keywords: seq<String> := ["too many requests", "rate limited", "attention required", "error 429"]

  /** Fetch attempts in `scrape_reviews` of fragrantica/main.py. */
  const FragranticaAttempts: nat := 30
  /** Fetch attempts in `scrape_reviews` of fragrantica/sub.py. */
  const SubAttempts: nat := 3

  /** The page source as read from the browser; None when reading it raised. */
  type PageSource = Option<String>

  function IsRateLimited(page: PageSource): (r: bool)
    ensures r <==> page.Some?
                   && exists k, i :: k in Keywords && OccursAt(Lower(page.value), k, i)
  {
    match page
    case None => false
    case Some(html) =>
      var lowered := Lower(html);
      forall k | k in Keywords ensures Contains(lowered, k) <==> exists i :: OccursAt(lowered, k, i) {
        ContainsIff(lowered, k);
      }
      exists k :: k in Keywords && Contains(lowered, k)
  }

  /** Matching ignores ASCII case: two pages that agree after lower-casing
      get the same verdict, so "ERROR 429" throttles as "error 429" does. */
  lemma CaseInsensitive(a: String, b: String)
    requires |a| == |b|
    requires forall i :: 0 <= i < |a| ==> LowerChar(a[i]) == LowerChar(b[i])
    ensures IsRateLimited(Some(a)) == IsRateLimited(Some(b))
  {
    assert Lower(a) == Lower(b);
  }

  /** What the re-fetch loop decided. */
  datatype Fetch =
    | Proceed(fetches: nat)   // the `fetches`-th fetch was not throttled
    | GaveUp                  // the for-else branch: every fetch was throttled

  /** `for attempt in range(1, max_attempts + 1): fetch; if not throttled:
      break ... else: return []`, where `pages(i)` is what the (i+1)-th fetch
      showed. */
  function RefetchUntilClear(maxAttempts: nat, pages: nat -> PageSource): (r: Fetch)
    ensures r.Proceed? ==>
              && 1 <= r.fetches <= maxAttempts
              && !IsRateLimited(pages(r.fetches - 1))
              && forall j :: 0 <= j < r.fetches - 1 ==> IsRateLimited(pages(j))
    ensures r.GaveUp? <==> forall j :: 0 <= j < maxAttempts ==> IsRateLimited(pages(j))
  {
    var clear := (i: nat) => !IsRateLimited(pages(i));
    var first := Attempts.FirstWithin(maxAttempts, clear);
    assert forall j: nat :: clear(j) == !IsRateLimited(pages(j));
    match first
    case Some(i) => Proceed(i + 1)
    case None => GaveUp
  }

  /** A page that cannot be read never counts as throttled, so a run of
      unreadable fetches proceeds at once. */
  lemma UnreadableProceeds(maxAttempts: nat, pages: nat -> PageSource)
    requires maxAttempts > 0
    requires pages(0).None?
    ensures RefetchUntilClear(maxAttempts, pages) == Proceed(1)
  {
  }

  /** Fragrantica gives up only after 30 throttled fetches: 3 throttled
      fetches followed by a clear one still proceed there, while the sub
      scraper has already given up. */
  lemma {:induction false} ThirtyVersusThree(pages: nat -> PageSource)
    requires forall j :: 0 <= j < 3 ==> IsRateLimited(pages(j))
    requires !IsRateLimited(pages(3))
    ensures RefetchUntilClear(SubAttempts, pages) == GaveUp
    ensures RefetchUntilClear(FragranticaAttempts, pages) == Proceed(4)
  {
    var r := RefetchUntilClear(FragranticaAttempts, pages);
    assert !r.GaveUp?;
    if r.fetches < 4 {
      assert false;
    } else if r.fetches > 4 {
      assert false;
    }
  }
}

=== FILE: worker.dfy ===
/** What a worker reports for one task and how the main loop tallies the
    reports. The scraping a worker does is abstracted into how its attempts
    ended; the pool effects of a failure are `Pool.Replace`. */
module Worker {
  import opened Text
  import Worklist

  /** `repr(e)[:120]`: failure outcomes carry at most 120 characters of the
      exception's representation. */
  const ErrorLength := 120

  /** One task's report. `page` is the task's URL, except in the
      review-only scraper, which reports the product name instead. */
  datatype Outcome =
    | Success(productName: String, reviewCount: nat, index: nat, total: nat)
    | Failed(error: String, page: String, index: nat, total: nat)

  // ---------------------------------------------------------------------------
  // The single-attempt workers (fragrantica/*.py)
  // ---------------------------------------------------------------------------

  /** How the try body of a product worker ended: with the scraped product
      name and the number of reviews collected, or by raising. */
  datatype Run = Completed(productName: String, reviewCount: nat) | Raised(repr: String)

  /** `process_single_product` in fragrantica/mainfunc.py and
      fragrantica/main.py. */
  function ProductOutcome(t: Worklist.Task, run: Run): (o: Outcome)
    ensures o.index == t.index && o.total == t.total
    ensures o.Success? <==> run.Completed?
    ensures o.Success? ==> o.productName == run.productName && o.reviewCount == run.reviewCount
    ensures o.Failed? ==> o.page == t.url && o.error <= run.repr
    ensures o.Failed? ==> |o.error| == if |run.repr| <= ErrorLength then |run.repr| else ErrorLength
  {
    match run
    case Completed(name, count) => Success(name, count, t.index, t.total)
    case Raised(repr) => Failed(Take(repr, ErrorLength), t.url, t.index, t.total)
  }

  /** Until the product page is read, a worker calls the product by the last
      path segment of its URL. The name appears only in log lines; no
      outcome carries it. */
  function PlaceholderName(url: String): String
  {
    LastSegment(url)
  }

  /** For a product URL ending in a slug, the placeholder is the slug. */
  lemma PlaceholderIsSlug(prefix: String, slug: String)
    requires '/' !in slug
    ensures PlaceholderName(prefix + "/" + slug) == slug
  {
    var s := prefix + "/" + slug;
    assert s[|s| - |slug| - 1] == '/';
    assert s[|s| - |slug|..] == slug;
  }

  /** How the review-only worker's try body ended. */
  datatype ReviewRun = Gathered(reviewCount: nat) | ReviewRaised(repr: String)

  /** `process_single_product_reviews_only` in fragrantica/sub.py: the name
      comes from the work list, and a failure names the product. */
  function ReviewOutcome(t: Worklist.ReviewTask, run: ReviewRun): (o: Outcome)
    ensures o.index == t.index && o.total == t.total
    ensures o.Success? <==> run.Gathered?
    ensures o.Success? ==> o.productName == t.productName && o.reviewCount == run.reviewCount
    ensures o.Failed? ==> o.page == t.productName && o.error <= run.repr
    ensures o.Failed? ==> |o.error| == if |run.repr| <= ErrorLength then |run.repr| else ErrorLength
  {
    match run
    case Gathered(count) => Success(t.productName, count, t.index, t.total)
    case ReviewRaised(repr) => Failed(Take(repr, ErrorLength), t.productName, t.index, t.total)
  }

  // ---------------------------------------------------------------------------
  // The tally
  // ---------------------------------------------------------------------------

  /** Successes, failures, and reviews collected by the successes. */
  datatype Tally = Tally(success: nat, failed: nat, reviews: nat)

  function Plus(a: Tally, b: Tally): Tally
  {
    Tally(a.success + b.success, a.failed + b.failed, a.reviews + b.reviews)
  }

  /** One report's contribution. */
  function Count(o: Outcome): (t: Tally)
    ensures t.success + t.failed == 1
    ensures t.reviews == (if o.Success? then o.reviewCount else 0)
  {
    if o.Success? then Tally(1, 0, o.reviewCount) else Tally(0, 1, 0)
  }

  /** The main loop's counters after the reports in completion order. */
  function TallyOf(outcomes: seq<Outcome>): (t: Tally)
    ensures t.success + t.failed == |outcomes|
    decreases |outcomes|
  {
    if |outcomes| == 0 then Tally(0, 0, 0)
    else
      var n := |outcomes| - 1;
      Plus(TallyOf(outcomes[..n]), Count(outcomes[n]))
  }

  lemma {:induction false} TallyAppend(a: seq<Outcome>, b: seq<Outcome>)
    ensures TallyOf(a + b) == Plus(TallyOf(a), TallyOf(b))
    decreases |b|
  {
    if |b| == 0 {
      assert a + b == a;
    } else {
      var n := |b| - 1;
      var ab := a + b;
      assert ab[..|a| + n] == a + b[..n];
      assert ab[|a| + n] == b[n];
      assert TallyOf(ab) == Plus(TallyOf(a + b[..n]), Count(b[n]));
      TallyAppend(a, b[..n]);
      assert TallyOf(b) == Plus(TallyOf(b[..n]), Count(b[n]));
      PlusAssociates(TallyOf(a), TallyOf(b[..n]), Count(b[n]));
    }
  }

  lemma PlusAssociates(x: Tally, y: Tally, z: Tally)
    ensures Plus(Plus(x, y), z) == Plus(x, Plus(y, z))
  {
  }

  /** Taking one report out of the middle removes its contribution. */
  lemma {:induction false} RemoveOne(b: seq<Outcome>, j: nat)
    requires j < |b|
    ensures TallyOf(b) == Plus(TallyOf(b[..j] + b[j + 1..]), Count(b[j]))
  {
    var x := b[j];
    var front, back := b[..j], b[j + 1..];
    assert b == (front + [x]) + back;
    TallyAppend(front + [x], back);
    TallyAppend(front, [x]);
    TallyAppend(front, back);
    TallySingle(x);
    var tf, tb, tx := TallyOf(front), TallyOf(back), Count(x);
    assert TallyOf(b) == Plus(Plus(tf, tx), tb);
    assert TallyOf(front + back) == Plus(tf, tb);
    PlusSwap(tf, tx, tb);
  }

  lemma PlusSwap(a: Tally, b: Tally, c: Tally)
    ensures Plus(Plus(a, b), c) == Plus(Plus(a, c), b)
  {
  }

  lemma {:induction false} TallySingle(x: Outcome)
    ensures TallyOf([x]) == Count(x)
  {
    assert [x][..0] == [];
  }

  lemma MultisetRemove(a: seq<Outcome>, b: seq<Outcome>, j: nat)
    requires |a| > 0 && j < |b| && b[j] == a[|a| - 1]
    requires multiset(a) == multiset(b)
    ensures multiset(a[..|a| - 1]) == multiset(b[..j] + b[j + 1..])
  {
    var x := b[j];
    var n := |a| - 1;
    assert b == b[..j] + [x] + b[j + 1..];
    assert a == a[..n] + [x];
    assert multiset(a[..n]) == multiset(a) - multiset{x};
    assert multiset(b[..j] + b[j + 1..]) == multiset(b) - multiset{x};
  }

  /** Reports arrive in whatever order the futures complete; the tally does
      not depend on it. */
  lemma {:induction false} TallyOrderFree(a: seq<Outcome>, b: seq<Outcome>)
    requires multiset(a) == multiset(b)
    ensures TallyOf(a) == TallyOf(b)
    decreases |a|
  {
    if |a| > 0 {
      var n := |a| - 1;
      assert a[n] in multiset(b);
      var j :| 0 <= j < |b| && b[j] == a[n];
      MultisetRemove(a, b, j);
      TallyOrderFree(a[..n], b[..j] + b[j + 1..]);
      RemoveOne(b, j);
    } else {
      assert |b| == |multiset(b)| == 0;
    }
  }

  /** The outcome of every task, in task order. */
  function Outcomes(tasks: seq<Worklist.Task>, runs: seq<Run>): (os: seq<Outcome>)
    requires |runs| == |tasks|
    ensures |os| == |tasks|
    ensures forall i :: 0 <= i < |os| ==> os[i] == ProductOutcome(tasks[i], runs[i])
  {
    seq(|tasks|, i requires 0 <= i < |tasks| => ProductOutcome(tasks[i], runs[i]))
  }

  /** How many runs completed. */
  function Completions(runs: seq<Run>): nat
    decreases |runs|
  {
    if |runs| == 0 then 0
    else
      var n := |runs| - 1;
      Completions(runs[..n]) + (if runs[n].Completed? then 1 else 0)
  }

  lemma {:induction false} SuccessesAreCompletions(tasks: seq<Worklist.Task>, runs: seq<Run>)
    requires |runs| == |tasks|
    ensures TallyOf(Outcomes(tasks, runs)).success == Completions(runs)
    decreases |tasks|
  {
    if |tasks| > 0 {
      var n := |tasks| - 1;
      assert Outcomes(tasks, runs)[..n] == Outcomes(tasks[..n], runs[..n]);
      SuccessesAreCompletions(tasks[..n], runs[..n]);
    }
  }

  /** Whatever order the reports arrive in, successes and failures add up to
      the number of tasks and the successes are the completed runs. */
  lemma RunTally(tasks: seq<Worklist.Task>, runs: seq<Run>, arrived: seq<Outcome>)
    requires |runs| == |tasks|
    requires multiset(arrived) == multiset(Outcomes(tasks, runs))
    ensures TallyOf(arrived).success + TallyOf(arrived).failed == |tasks|
    ensures TallyOf(arrived).success == Completions(runs)
  {
    TallyOrderFree(arrived, Outcomes(tasks, runs));
    SuccessesAreCompletions(tasks, runs);
  }

  // ---------------------------------------------------------------------------
  // The retrying worker (main.py)
  // ---------------------------------------------------------------------------

  const MaxRetries := 3
  const SessionFailure := "InvalidSessionIdException after 3 retries"
  const UnexpectedError := "Unexpected error"

  /** How one attempt of main.py's worker ended: it finished; the browser
      session was lost; or some other exception was raised. `replaced` says
      whether the handler's re-creation of the browser (when it needed one)
      went through; when it raised, that exception leaves the worker. */
  datatype Attempt =
    | Finished(productName: String, reviewCount: nat)
    | SessionLost(replaced: bool)
    | OtherError(repr: String, replaced: bool)

  /** A worker either returns a report or lets an exception out, which
      `future.result()` re-raises in the main loop. */
  datatype WorkerResult = Reported(outcome: Outcome) | Escaped

  /** The retry loop as its handlers describe it: a lost session is retried
      with a fresh browser until the third loss, which is reported as a
      failure; any other error is reported at once. `retries` counts the
      sessions lost so far, which is also the number of the attempt. */
  function RetryFrom(t: Worklist.Task, attempts: nat -> Attempt, retries: nat): (r: WorkerResult)
    requires retries < MaxRetries
    ensures r.Reported? ==> r.outcome.index == t.index && r.outcome.total == t.total
    ensures r.Reported? && r.outcome.Failed? ==> r.outcome.page == t.url && |r.outcome.error| <= ErrorLength
    ensures r.Reported? && r.outcome.Failed? ==>
      r.outcome.error == SessionFailure ||
      exists k :: retries <= k < MaxRetries && attempts(k).OtherError? && r.outcome.error == Take(attempts(k).repr, ErrorLength)
    decreases MaxRetries - retries
  {
    match attempts(retries)
    case Finished(name, count) => Reported(Success(name, count, t.index, t.total))
    case OtherError(repr, replaced) =>
      if replaced then Reported(Failed(Take(repr, ErrorLength), t.url, t.index, t.total)) else Escaped
    case SessionLost(replaced) =>
      if !replaced then Escaped
      else if retries + 1 >= MaxRetries then Reported(Failed(SessionFailure, t.url, t.index, t.total))
      else RetryFrom(t, attempts, retries + 1)
  }

  /** An exception's `repr` has the shape `Name(args)`. */
  predicate IsRepr(s: String)
  {
    |s| > 0 && s[|s| - 1] == ')'
  }

  /** The worker succeeds exactly when an attempt among the first three
      finishes after only replaced session losses, and reports the session
      failure exactly when the first three attempts all lose their session. */
  lemma {:induction false} RetryMeaning(t: Worklist.Task, attempts: nat -> Attempt, retries: nat)
    requires retries < MaxRetries
    requires forall k :: attempts(k).OtherError? ==> IsRepr(attempts(k).repr)
    ensures RetryFrom(t, attempts, retries) == Reported(Failed(SessionFailure, t.url, t.index, t.total)) <==>
      forall k :: retries <= k < MaxRetries ==> attempts(k) == SessionLost(true)
    ensures (RetryFrom(t, attempts, retries).Reported? && RetryFrom(t, attempts, retries).outcome.Success?) <==>
      exists k :: (&& retries <= k < MaxRetries && attempts(k).Finished?
                   && forall m :: retries <= m < k ==> attempts(m) == SessionLost(true))
    decreases MaxRetries - retries
  {
    var r := RetryFrom(t, attempts, retries);
    match attempts(retries)
    case Finished(name, count) =>
      assert r.outcome.Success?;
    case OtherError(repr, replaced) =>
      ReprIsNotSessionFailure(repr);
    case SessionLost(replaced) =>
      if replaced && retries + 1 < MaxRetries {
        RetryMeaning(t, attempts, retries + 1);
        assert r == RetryFrom(t, attempts, retries + 1);
        SessionLostStep(t, attempts, retries, r);
      }
  }

  /** A replaced session loss passes the question on to the next attempt. */
  lemma SessionLostStep(t: Worklist.Task, attempts: nat -> Attempt, retries: nat, r: WorkerResult)
    requires attempts(retries) == SessionLost(true)
    requires r == Reported(Failed(SessionFailure, t.url, t.index, t.total)) <==>
      forall k :: retries + 1 <= k < MaxRetries ==> attempts(k) == SessionLost(true)
    requires (r.Reported? && r.outcome.Success?) <==>
      exists k :: (&& retries + 1 <= k < MaxRetries && attempts(k).Finished?
                   && forall m :: retries + 1 <= m < k ==> attempts(m) == SessionLost(true))
    ensures r == Reported(Failed(SessionFailure, t.url, t.index, t.total)) <==>
      forall k :: retries <= k < MaxRetries ==> attempts(k) == SessionLost(true)
    ensures (r.Reported? && r.outcome.Success?) <==>
      exists k :: (&& retries <= k < MaxRetries && attempts(k).Finished?
                   && forall m :: retries <= m < k ==> attempts(m) == SessionLost(true))
  {
    if r.Reported? && r.outcome.Success? {
      var k :| (&& retries + 1 <= k < MaxRetries && attempts(k).Finished?
                && forall m :: retries + 1 <= m < k ==> attempts(m) == SessionLost(true));
      assert forall m :: retries <= m < k ==> attempts(m) == SessionLost(true);
    }
  }

  /** A reported error text never reads as the session-failure message. */
  lemma ReprIsNotSessionFailure(repr: String)
    requires IsRepr(repr)
    ensures Take(repr, ErrorLength) != SessionFailure
  {
    assert |SessionFailure| == 41 && SessionFailure[40] == 's';
    if |repr| <= ErrorLength {
      assert Take(repr, ErrorLength) == repr && repr[|repr| - 1] == ')';
    } else {
      assert |Take(repr, ErrorLength)| == ErrorLength;
    }
  }

  /** Attempts `retries` to `k - 1` all lost their session and got a new
      browser. */
  predicate LostUntil(attempts: nat -> Attempt, retries: nat, k: nat)
  {
    forall m :: retries <= m < k ==> attempts(m) == SessionLost(true)
  }

  /** An attempt whose handler could not create the browser it needed. */
  predicate Unreplaced(a: Attempt)
  {
    (a.SessionLost? || a.OtherError?) && !a.replaced
  }

  /** The worker lets an exception out exactly when the first attempt that
      did not end in a replaced session loss — among the first three —
      failed to create its new browser. */
  lemma {:induction false} RetryEscapes(t: Worklist.Task, attempts: nat -> Attempt, retries: nat)
    requires retries < MaxRetries
    ensures RetryFrom(t, attempts, retries) == Escaped <==>
      exists k :: retries <= k < MaxRetries && Unreplaced(attempts(k)) && LostUntil(attempts, retries, k)
    decreases MaxRetries - retries
  {
    if attempts(retries) == SessionLost(true) {
      if retries + 1 < MaxRetries {
        RetryEscapes(t, attempts, retries + 1);
        LostStep(attempts, retries, Unreplaced);
      } else {
        NoLaterAttempt(attempts, retries, Unreplaced);
      }
    } else {
      FirstDecides(attempts, retries, Unreplaced);
    }
  }

  /** The worker reports an ordinary error, cut to 120 characters, exactly
      when some attempt among the first three raised it after only replaced
      session losses and its browser was replaced. */
  lemma {:induction false} RetryReportsError(t: Worklist.Task, attempts: nat -> Attempt, retries: nat, repr: String)
    requires retries < MaxRetries
    requires IsRepr(repr)
    ensures RetryFrom(t, attempts, retries) == Reported(Failed(Take(repr, ErrorLength), t.url, t.index, t.total)) <==>
      exists k :: (&& retries <= k < MaxRetries && attempts(k).OtherError? && attempts(k).replaced
                   && Take(attempts(k).repr, ErrorLength) == Take(repr, ErrorLength)
                   && LostUntil(attempts, retries, k))
    decreases MaxRetries - retries
  {
    var reported := (a: Attempt) => a.OtherError? && a.replaced && Take(a.repr, ErrorLength) == Take(repr, ErrorLength);
    if attempts(retries) == SessionLost(true) {
      if retries + 1 < MaxRetries {
        RetryReportsError(t, attempts, retries + 1, repr);
        LostStep(attempts, retries, reported);
      } else {
        ReprIsNotSessionFailure(repr);
        NoLaterAttempt(attempts, retries, reported);
      }
    } else {
      FirstDecides(attempts, retries, reported);
    }
  }

  /** When attempt `retries` is a replaced session loss, the first attempt
      satisfying `p` after only such losses is the same counted from
      `retries` or from `retries + 1`. */
  lemma LostStep(attempts: nat -> Attempt, retries: nat, p: Attempt -> bool)
    requires attempts(retries) == SessionLost(true) && !p(SessionLost(true))
    ensures (exists k :: retries <= k < MaxRetries && p(attempts(k)) && LostUntil(attempts, retries, k)) <==>
            (exists k :: retries + 1 <= k < MaxRetries && p(attempts(k)) && LostUntil(attempts, retries + 1, k))
  {
    if exists k :: retries <= k < MaxRetries && p(attempts(k)) && LostUntil(attempts, retries, k) {
      var k :| retries <= k < MaxRetries && p(attempts(k)) && LostUntil(attempts, retries, k);
      assert k != retries;
      assert LostUntil(attempts, retries + 1, k);
    }
    if exists k :: retries + 1 <= k < MaxRetries && p(attempts(k)) && LostUntil(attempts, retries + 1, k) {
      var k :| retries + 1 <= k < MaxRetries && p(attempts(k)) && LostUntil(attempts, retries + 1, k);
      assert LostUntil(attempts, retries, k);
    }
  }

  /** The last of the three attempts, a replaced loss, leaves no attempt to
      satisfy `p`. */
  lemma NoLaterAttempt(attempts: nat -> Attempt, retries: nat, p: Attempt -> bool)
    requires retries + 1 >= MaxRetries
    requires attempts(retries) == SessionLost(true) && !p(SessionLost(true))
    ensures !exists k :: retries <= k < MaxRetries && p(attempts(k)) && LostUntil(attempts, retries, k)
  {
  }

  /** An attempt that is not a replaced session loss settles the question:
      the first attempt satisfying `p` is this one or none. */
  lemma FirstDecides(attempts: nat -> Attempt, retries: nat, p: Attempt -> bool)
    requires attempts(retries) != SessionLost(true)
    ensures (exists k :: retries <= k < MaxRetries && p(attempts(k)) && LostUntil(attempts, retries, k)) <==>
            retries < MaxRetries && p(attempts(retries))
  {
    if exists k :: retries <= k < MaxRetries && p(attempts(k)) && LostUntil(attempts, retries, k) {
      var k :| retries <= k < MaxRetries && p(attempts(k)) && LostUntil(attempts, retries, k);
      if k != retries {
        assert false;
      }
    }
    if retries < MaxRetries && p(attempts(retries)) {
      assert LostUntil(attempts, retries, retries);
    }
  }

  /** The while loop with its counter and handlers. Every path through the
      body returns by the third attempt, so the "Unexpected error" report
      after the loop is dead code. */
  method RetryLoop(t: Worklist.Task, attempts: nat -> Attempt) returns (r: WorkerResult)
    ensures r == RetryFrom(t, attempts, 0)
  {
    var retryCount := 0;
    while retryCount < MaxRetries
      invariant 0 <= retryCount < MaxRetries
      invariant RetryFrom(t, attempts, 0) == RetryFrom(t, attempts, retryCount)
      decreases MaxRetries - retryCount
    {
      match attempts(retryCount)
      case Finished(name, count) =>
        return Reported(Success(name, count, t.index, t.total));
      case OtherError(repr, replaced) =>
        if !replaced { return Escaped; }
        return Reported(Failed(Take(repr, ErrorLength), t.url, t.index, t.total));
      case SessionLost(replaced) =>
        if !replaced { return Escaped; }
        retryCount := retryCount + 1;
        if retryCount >= MaxRetries {
          return Reported(Failed(SessionFailure, t.url, t.index, t.total));
        }
    }
    assert false;
    return Reported(Failed(UnexpectedError, t.url, t.index, t.total));
  }

  /** The worker as the file stands. `InvalidSessionIdException` is not among
      the names main.py imports, so when anything in the try body raises,
      evaluating the first `except` clause raises `NameError`, which leaves
      the worker: only a first attempt that finishes is reported. */
  function RetryAsWritten(t: Worklist.Task, attempts: nat -> Attempt): (r: WorkerResult)
    ensures r.Reported? <==> attempts(0).Finished?
    ensures r.Reported? ==> r.outcome.Success? && r.outcome.index == t.index
  {
    match attempts(0)
    case Finished(name, count) => Reported(Success(name, count, t.index, t.total))
    case _ => Escaped
  }

  /** The discrepancy: an ordinary error on the first attempt — a page whose
      heading never appears, say — is reported as a failure by the intended
      loop but escapes the worker as written. */
  lemma OrdinaryErrorEscapes(t: Worklist.Task, attempts: nat -> Attempt, repr: String)
    requires attempts(0) == OtherError(repr, true)
    ensures RetryAsWritten(t, attempts) == Escaped
    ensures RetryFrom(t, attempts, 0) == Reported(Failed(Take(repr, ErrorLength), t.url, t.index, t.total))
  {
  }

  /** A run of main.py: the tally when every worker reported, or a main loop
      that never finishes its tally because a worker let an exception out.
      The exception reaches `main` from `future.result()` only after the
      executor has waited for the pending tasks, and the pool's `close_all`
      and the statistics that follow are skipped. */
  datatype RunEnd = Tallied(tally: Tally) | Aborted

  function Reports(results: seq<WorkerResult>): (os: seq<Outcome>)
    requires forall i :: 0 <= i < |results| ==> results[i].Reported?
    ensures |os| == |results|
  {
    seq(|results|, i requires 0 <= i < |results| => results[i].outcome)
  }

  /** `main` over the workers' results in completion order. */
  function MainLoop(results: seq<WorkerResult>): (e: RunEnd)
    ensures e.Aborted? <==> exists i :: 0 <= i < |results| && results[i].Escaped?
    ensures e.Tallied? ==> e.tally.success + e.tally.failed == |results|
  {
    if forall i :: 0 <= i < |results| ==> results[i].Reported? then Tallied(TallyOf(Reports(results)))
    else Aborted
  }

  /** As written, one task whose first attempt raises is enough to keep the
      run from reaching its tally; with the intended loop the same task is
      counted as a failure. */
  lemma OneErrorAbortsRun(tasks: seq<Worklist.Task>, attempts: seq<nat -> Attempt>, i: nat, repr: String)
    requires |attempts| == |tasks| && i < |tasks|
    requires attempts[i](0) == OtherError(repr, true)
    ensures MainLoop(seq(|tasks|, k requires 0 <= k < |tasks| => RetryAsWritten(tasks[k], attempts[k]))).Aborted?
    ensures RetryFrom(tasks[i], attempts[i], 0).Reported? && RetryFrom(tasks[i], attempts[i], 0).outcome.Failed?
  {
    var results := seq(|tasks|, k requires 0 <= k < |tasks| => RetryAsWritten(tasks[k], attempts[k]));
    assert results[i].Escaped?;
  }
}

=== FILE: worklist.dfy ===
/** Work-list construction: which product pages a run schedules, how they
    are numbered, and the periodic long break a worker takes before a task.
    Files are sequences of rows; reading and writing them is not modelled. */
module Worklist {
  import opened Wrappers
  import opened Text
  import Dedup

  /** A CSV row: column name to cell. A column the row lacks and a `None`
      cell are both falsy to the scrapers, so both read as "". */
  type Row = map<String, String>

  function Cell(row: Row, col: String): String
  {
    if col in row then row[col] else []
  }

  predicate Filled(row: Row, col: String)
  {
    Cell(row, col) != []
  }

  // ---------------------------------------------------------------------------
  // Ordered selection: a list comprehension with a condition
  // ---------------------------------------------------------------------------

  /** The positions of the elements of `xs` that satisfy `keep`, ascending. */
  function Selected<T>(xs: seq<T>, keep: T -> bool): (r: seq<nat>)
    ensures |r| <= |xs|
    ensures Dedup.Increasing(r)
    ensures forall k :: 0 <= k < |r| ==> r[k] < |xs| && keep(xs[r[k]])
    decreases |xs|
  {
    if |xs| == 0 then []
    else
      var n := |xs| - 1;
      var prev := Selected(xs[..n], keep);
      assert forall k :: 0 <= k < |prev| ==> xs[..n][prev[k]] == xs[prev[k]];
      if keep(xs[n]) then prev + [n] else prev
  }

  /** No element that satisfies `keep` is passed over. */
  lemma {:induction false} SelectedComplete<T>(xs: seq<T>, keep: T -> bool, i: nat)
    requires i < |xs| && keep(xs[i])
    ensures i in Selected(xs, keep)
    decreases |xs|
  {
    var n := |xs| - 1;
    if i < n {
      assert xs[..n][i] == xs[i];
      SelectedComplete(xs[..n], keep, i);
    }
  }

  /** The elements of `xs` that satisfy `keep`, in their original order. */
  function Filter<T>(xs: seq<T>, keep: T -> bool): (r: seq<T>)
    ensures |r| <= |xs|
  {
    Dedup.Records(xs, Selected(xs, keep), x => x)
  }

  /** An element survives the filter exactly when it is in `xs` and kept. */
  lemma FilterMembers<T>(xs: seq<T>, keep: T -> bool, x: T)
    ensures x in Filter(xs, keep) <==> x in xs && keep(x)
  {
    var idx := Selected(xs, keep);
    if x in xs && keep(x) {
      var i :| 0 <= i < |xs| && xs[i] == x;
      SelectedComplete(xs, keep, i);
      var k :| 0 <= k < |idx| && idx[k] == i;
      assert Filter(xs, keep)[k] == x;
    }
  }

  // ---------------------------------------------------------------------------
  // Tasks
  // ---------------------------------------------------------------------------

  /** `(url, index, total)`: the page, its 1-based position and the list
      length. */
  datatype Task = Task(url: String, index: nat, total: nat)

  /** `[(url, i + 1, total) for i, url in enumerate(urls)]`. */
  function Number(urls: seq<String>): (r: seq<Task>)
    ensures |r| == |urls|
    ensures forall i :: 0 <= i < |r| ==> r[i].url == urls[i]
  {
    seq(|urls|, i requires 0 <= i < |urls| => Task(urls[i], i + 1, |urls|))
  }

  /** The URLs of a numbered list, in order. */
  function UrlsOf(tasks: seq<Task>): (r: seq<String>)
    ensures |r| == |tasks|
  {
    seq(|tasks|, i requires 0 <= i < |tasks| => tasks[i].url)
  }

  /** Numbering loses nothing and reorders nothing; the indices run 1..n, each
      task knows n, and no two tasks share an index. */
  lemma NumberRoundTrip(urls: seq<String>)
    ensures UrlsOf(Number(urls)) == urls
    ensures forall i :: 0 <= i < |urls| ==> Number(urls)[i].index == i + 1 && Number(urls)[i].total == |urls|
    ensures forall i, j :: 0 <= i < j < |urls| ==> Number(urls)[i].index != Number(urls)[j].index
  {
  }

  /** What a run does after discovery: stop because nothing was found, stop
      because everything found is already on file, or schedule tasks. */
  datatype Plan<T> = NothingDiscovered | NothingNew | Scheduled(tasks: seq<T>)

  /** fragrantica/main.py and main.py: every discovered URL is scheduled, in
      discovery order; an empty discovery ends the run. */
  function Schedule(discovered: seq<String>): (p: Plan<Task>)
    ensures p.NothingNew? == false
    ensures p.NothingDiscovered? <==> discovered == []
    ensures p.Scheduled? ==> UrlsOf(p.tasks) == discovered
  {
    if discovered == [] then NothingDiscovered
    else
      NumberRoundTrip(discovered);
      Scheduled(Number(discovered))
  }

  // ---------------------------------------------------------------------------
  // Resume (fragrantica/mainfunc.py)
  // ---------------------------------------------------------------------------

  /** The existing perfume file: absent, read to the end, or raised while
      reading after the rows given. */
  datatype ProductFile = Absent | Read(rows: seq<Row>) | ReadFailed(readBefore: seq<Row>)

  /** The non-empty `url` cells of `rows`, collected row by row. */
  function UrlsIn(rows: seq<Row>): set<String>
    decreases |rows|
  {
    if |rows| == 0 then {}
    else
      var n := |rows| - 1;
      UrlsIn(rows[..n]) + (if Filled(rows[n], "url") then {Cell(rows[n], "url")} else {})
  }

  lemma {:induction false} UrlsInMeaning(rows: seq<Row>, u: String)
    ensures u in UrlsIn(rows) <==> u != [] && exists i :: 0 <= i < |rows| && Cell(rows[i], "url") == u
    decreases |rows|
  {
    if |rows| > 0 {
      var n := |rows| - 1;
      UrlsInMeaning(rows[..n], u);
      assert forall i :: 0 <= i < n ==> rows[..n][i] == rows[i];
    }
  }

  lemma {:induction false} UrlsInAppend(rows: seq<Row>, more: seq<Row>)
    ensures UrlsIn(rows + more) == UrlsIn(rows) + UrlsIn(more)
    decreases |more|
  {
    if |more| == 0 {
      assert rows + more == rows;
    } else {
      var n := |more| - 1;
      assert (rows + more)[..|rows| + n] == rows + more[..n];
      UrlsInAppend(rows, more[..n]);
    }
  }

  /** `get_already_scraped_urls`: nothing when the file is absent; otherwise
      the URLs of the rows read, including those read before a read error. */
  function KnownUrls(f: ProductFile): (r: set<String>)
    ensures f.Absent? ==> r == {}
    ensures f.Read? ==> r == UrlsIn(f.rows)
    ensures f.ReadFailed? ==> r == UrlsIn(f.readBefore)
    ensures [] !in r
  {
    match f
    case Absent => {}
    case Read(rows) =>
      UrlsInMeaning(rows, []);
      UrlsIn(rows)
    case ReadFailed(before) =>
      UrlsInMeaning(before, []);
      UrlsIn(before)
  }

  /** A URL is known exactly when it is the non-empty `url` cell of a row
      read, whether the read reached the end or raised part way. */
  lemma KnownUrlsMeaning(f: ProductFile, u: String)
    requires !f.Absent?
    ensures var rows := if f.Read? then f.rows else f.readBefore;
            u in KnownUrls(f) <==> u != [] && exists i :: 0 <= i < |rows| && Cell(rows[i], "url") == u
  {
    UrlsInMeaning(if f.Read? then f.rows else f.readBefore, u);
  }

  /** `main`: an empty discovery ends the run; otherwise the discovered URLs
      not yet on file are scheduled in discovery order, and none left means
      the run ends without starting the pool. */
  function ResumePlan(f: ProductFile, discovered: seq<String>): (p: Plan<Task>)
    ensures p.NothingDiscovered? <==> discovered == []
    ensures p.NothingNew? <==> discovered != [] && forall u :: u in discovered ==> u in KnownUrls(f)
    ensures p.Scheduled? ==> p.tasks != []
    ensures p.Scheduled? ==> forall i :: 0 <= i < |p.tasks| ==>
      (&& p.tasks[i].index == i + 1
       && p.tasks[i].total == |p.tasks|
       && p.tasks[i].url in discovered
       && p.tasks[i].url !in KnownUrls(f))
    ensures p.Scheduled? ==> UrlsOf(p.tasks) == Filter(discovered, u => u !in KnownUrls(f))
  {
    if discovered == [] then NothingDiscovered
    else
      var known := KnownUrls(f);
      var pending := Filter(discovered, u => u !in KnownUrls(f));
      forall u | u in discovered
        ensures u in pending <==> u !in known
      {
        FilterMembers(discovered, u => u !in KnownUrls(f), u);
      }
      if pending == [] then
        assert forall u :: u in discovered ==> u in known;
        NothingNew
      else
        assert forall i :: 0 <= i < |pending| ==> pending[i] in pending;
        forall u | u in pending
          ensures u in discovered && u !in known
        {
          FilterMembers(discovered, u => u !in KnownUrls(f), u);
        }
        assert pending[0] in discovered && pending[0] !in known;
        NumberRoundTrip(pending);
        Scheduled(Number(pending))
  }

  /** Every discovered URL not on file gets a task. */
  lemma ResumeMissesNothing(f: ProductFile, discovered: seq<String>, u: String)
    requires u in discovered && u !in KnownUrls(f)
    ensures ResumePlan(f, discovered).Scheduled?
    ensures exists i :: 0 <= i < |ResumePlan(f, discovered).tasks| && ResumePlan(f, discovered).tasks[i].url == u
  {
    var known := KnownUrls(f);
    FilterMembers(discovered, u => u !in known, u);
    var pending := Filter(discovered, u => u !in known);
    var i :| 0 <= i < |pending| && pending[i] == u;
    assert ResumePlan(f, discovered).tasks == Number(pending);
  }

  /** Without a file to resume from, the resuming scraper schedules what the
      others do. */
  lemma NoFileMeansFullSchedule(discovered: seq<String>)
    ensures ResumePlan(Absent, discovered) == Schedule(discovered)
  {
    if discovered != [] {
      var pending := Filter(discovered, u => u !in KnownUrls(Absent));
      var idx := Selected(discovered, u => u !in KnownUrls(Absent));
      forall i | 0 <= i < |discovered|
        ensures i in idx
      {
        SelectedComplete(discovered, u => u !in KnownUrls(Absent), i);
      }
      AllSelected(idx, |discovered|);
      assert pending == discovered;
    }
  }

  /** An increasing list of positions below `n` that holds each of them is
      0, 1, ..., n - 1. */
  lemma {:induction false} AllSelected(idx: seq<nat>, n: nat)
    requires Dedup.Increasing(idx)
    requires forall k :: 0 <= k < |idx| ==> idx[k] < n
    requires forall i :: 0 <= i < n ==> i in idx
    ensures |idx| == n
    ensures forall k :: 0 <= k < n ==> idx[k] == k
    decreases n
  {
    IncreasingBound(idx, n);
    if n > 0 {
      assert n - 1 in idx;
      var last := |idx| - 1;
      assert forall j :: 0 <= j < |idx| ==> idx[j] <= idx[last];
      assert idx[last] == n - 1;
      var front := idx[..last];
      forall i | 0 <= i < n - 1
        ensures i in front
      {
        assert i in idx;
        var k :| 0 <= k < |idx| && idx[k] == i;
        assert k != last;
        assert front[k] == i;
      }
      AllSelected(front, n - 1);
      assert |idx| == n;
      forall k | 0 <= k < n
        ensures idx[k] == k
      {
        if k < n - 1 { assert idx[k] == front[k]; }
      }
    }
  }

  /** Increasing positions below `n` number at most `n`. */
  lemma {:induction false} IncreasingBound(idx: seq<nat>, n: nat)
    requires Dedup.Increasing(idx)
    requires forall k :: 0 <= k < |idx| ==> idx[k] < n
    ensures |idx| <= n
    decreases |idx|
  {
    if |idx| > 0 {
      var last := |idx| - 1;
      IncreasingBound(idx[..last], idx[last]);
    }
  }

  /** Resuming after a run that wrote a row, with its own URL, for each of
      the scheduled pages schedules nothing new: the resume filter does not
      repeat finished work. */
  lemma RerunFindsNothingNew(rows: seq<Row>, discovered: seq<String>, written: seq<Row>)
    requires forall u :: u in discovered ==> u != []
    requires ResumePlan(Read(rows), discovered).Scheduled?
    requires forall t :: t in ResumePlan(Read(rows), discovered).tasks ==>
      exists j :: 0 <= j < |written| && Cell(written[j], "url") == t.url
    ensures ResumePlan(Read(rows + written), discovered).NothingNew?
  {
    var tasks := ResumePlan(Read(rows), discovered).tasks;
    UrlsInAppend(rows, written);
    forall u | u in discovered
      ensures u in KnownUrls(Read(rows + written))
    {
      if u !in KnownUrls(Read(rows)) {
        ResumeMissesNothing(Read(rows), discovered, u);
        var i :| 0 <= i < |tasks| && tasks[i].url == u;
        assert tasks[i] in tasks;
        var j :| 0 <= j < |written| && Cell(written[j], "url") == u;
        UrlsInMeaning(written, u);
      }
    }
  }

  // ---------------------------------------------------------------------------
  // The long break (fragrantica/mainfunc.py `process_single_product`)
  // ---------------------------------------------------------------------------

  const BreakEvery := 40

  /** The worker rests before starting task `index` (1-based) when a positive
      multiple of 40 tasks precede it: before the 41st, 81st, ... */
  predicate RestsBefore(index: int)
  {
    index - 1 > 0 && (index - 1) % BreakEvery == 0
  }

  /** How many of `tasks` start with a rest. */
  function Rests(tasks: seq<Task>): nat
    decreases |tasks|
  {
    if |tasks| == 0 then 0
    else
      var n := |tasks| - 1;
      Rests(tasks[..n]) + (if RestsBefore(tasks[n].index) then 1 else 0)
  }

  /** The rests among tasks numbered 1..k. */
  lemma {:induction false} RestsCount(tasks: seq<Task>, k: nat)
    requires k <= |tasks|
    requires forall i :: 0 <= i < |tasks| ==> tasks[i].index == i + 1
    ensures Rests(tasks[..k]) == if k == 0 then 0 else (k - 1) / BreakEvery
    decreases k
  {
    if k > 0 {
      var m := k - 1;
      assert tasks[..k][..m] == tasks[..m];
      RestsCount(tasks, m);
      assert tasks[..k][m].index == k;
      if m > 0 {
        var q := (m - 1) / BreakEvery;
        var r := (m - 1) % BreakEvery;
        assert m - 1 == BreakEvery * q + r;
        if r == BreakEvery - 1 {
          assert m == BreakEvery * (q + 1);
          assert m % BreakEvery == 0 && m / BreakEvery == q + 1;
        } else {
          assert m == BreakEvery * q + (r + 1) && r + 1 < BreakEvery;
          assert m % BreakEvery == r + 1 && m / BreakEvery == q;
        }
      }
    }
  }

  /** `total_rests = len(urls_to_scrape) // 40`, the figure the time
      estimate uses. */
  function RestEstimate(n: nat): nat
  {
    n / BreakEvery
  }

  /** Among n numbered tasks the worker rests (n - 1) // 40 times; the
      estimate n // 40 is never lower, and is one too high exactly when n is
      a positive multiple of 40. */
  lemma RestsWithinEstimate(urls: seq<String>)
    ensures Rests(Number(urls)) == if |urls| == 0 then 0 else (|urls| - 1) / BreakEvery
    ensures Rests(Number(urls)) <= RestEstimate(|urls|)
    ensures Rests(Number(urls)) < RestEstimate(|urls|) <==> |urls| > 0 && |urls| % BreakEvery == 0
  {
    var tasks := Number(urls);
    NumberRoundTrip(urls);
    RestsCount(tasks, |urls|);
    assert tasks[..|urls|] == tasks;
    var n := |urls|;
    if n > 0 {
      var q := (n - 1) / BreakEvery;
      var r := (n - 1) % BreakEvery;
      assert n - 1 == BreakEvery * q + r;
      if r == BreakEvery - 1 {
        assert n == BreakEvery * (q + 1);
        assert n % BreakEvery == 0 && n / BreakEvery == q + 1;
      } else {
        assert n == BreakEvery * q + (r + 1) && r + 1 < BreakEvery;
        assert n % BreakEvery == r + 1 && n / BreakEvery == q;
      }
    }
  }

  // ---------------------------------------------------------------------------
  // The review-only work list (fragrantica/sub.py `main_review_only`)
  // ---------------------------------------------------------------------------

  /** The perfume file the review-only run starts from. */
  datatype PerfumeFile = Missing | Rows(rows: seq<Row>) | Unreadable

  /** `(url, product_name, index, total)`. */
  datatype ReviewTask = ReviewTask(url: String, productName: String, index: nat, total: nat)

  /** A row is worked on when both its `url` and `product_name` are filled. */
  predicate Listed(row: Row)
  {
    Filled(row, "url") && Filled(row, "product_name")
  }

  /** The work list: the listed rows in file order, numbered 1..n. A missing
      file, a read error or an empty list end the run before any task is
      made (`None`). */
  function ReviewWork(f: PerfumeFile): (r: Option<seq<ReviewTask>>)
    ensures r.None? <==> !f.Rows? || forall i :: 0 <= i < |f.rows| ==> !Listed(f.rows[i])
    ensures r.Some? ==> r.value != []
    ensures r.Some? ==>
      var idx := Selected(f.rows, Listed);
      |r.value| == |idx| &&
      forall k :: 0 <= k < |idx| ==>
        r.value[k] == ReviewTask(Cell(f.rows[idx[k]], "url"), Cell(f.rows[idx[k]], "product_name"), k + 1, |idx|)
  {
    match f
    case Missing => None
    case Unreadable => None
    case Rows(rows) =>
      var idx := Selected(rows, Listed);
      if idx == [] then
        assert forall i :: 0 <= i < |rows| ==> !Listed(rows[i]) by {
          forall i | 0 <= i < |rows| && Listed(rows[i]) ensures false {
            SelectedComplete(rows, Listed, i);
          }
        }
        None
      else
        assert Listed(rows[idx[0]]);
        Some(seq(|idx|, k requires 0 <= k < |idx| =>
          ReviewTask(Cell(rows[idx[k]], "url"), Cell(rows[idx[k]], "product_name"), k + 1, |idx|)))
  }

  /** Every listed row gets a task carrying its URL and name, and every task
      comes from a listed row. */
  lemma ReviewWorkCoversListed(rows: seq<Row>, i: nat)
    requires i < |rows| && Listed(rows[i])
    ensures ReviewWork(Rows(rows)).Some?
    ensures exists k :: (0 <= k < |ReviewWork(Rows(rows)).value| &&
      ReviewWork(Rows(rows)).value[k].url == Cell(rows[i], "url") &&
      ReviewWork(Rows(rows)).value[k].productName == Cell(rows[i], "product_name"))
  {
    SelectedComplete(rows, Listed, i);
    var idx := Selected(rows, Listed);
    var k :| 0 <= k < |idx| && idx[k] == i;
    assert ReviewWork(Rows(rows)).value[k].url == Cell(rows[i], "url");
  }

  /** Work-list tasks always carry a URL and a product name. */
  lemma ReviewTasksFilled(f: PerfumeFile)
    requires ReviewWork(f).Some?
    ensures forall t :: t in ReviewWork(f).value ==> t.url != [] && t.productName != []
  {
  }
}

=== FILE: wrappers.dfy ===
/** Option, the one failure-compatible wrapper the model needs: a value that
    may be absent (an element the page did not have, a fetch that raised). */
module Wrappers {

  datatype Option<+T> = None | Some(value: T) {

    /** The wrapped value, or `default` when there is none. */
    function GetOr(default: T): T
    {
      match this
      case Some(v) => v
      case None => default
    }
  }
}
